=== FILE: README.md ===
# Peer review platform core

A model of the server core of a peer-review platform on which students hand in
written work and code, and other students and staff review it. The model covers:

- the analysis service (`server/services/aiAnalysis.js`):
  - the plagiarism engine: text cleaning, the three-part similarity of two token lists, the
    corpus scan, and the matching chunks of two texts;
  - the text metrics: sentiment, Flesch readability, lexical complexity, grammar checks,
    keywords and syllables;
  - the code metrics: complexity, quality, style and line figures;
  - the feedback summary built from the text metrics;
- the two schemas (`server/models/Submission.js`, `server/models/Review.js`): what a save
  checks and sets;
- the submission and review routes (`server/routes/submissions.js`,
  `server/routes/reviews.js`): every handler as a pure function from the request, the
  signed-in user and the stored records to a new record or a refusal (400, 403, 404, 500);
- the whole application as a transition system (`Lifecycle`), which shows how the routes
  work together.

The natural-language libraries are outside the model: the word tokenizer, the Porter
stemmer and the sentiment lexicon. They are carried as the fields of a `Toolkit` value
(`Nlp`), so every property about text holds for any tokenizer, stemmer and lexicon.
Numbers are exact reals, and `Math.round` is written out (`Numeric.Round`).

Modules, one per file:
- `Strings`, `Numeric`, `Sorting` and `Collections`: the JavaScript built-ins the core leans on.
- `Normalize`, `Similarity` and `Plagiarism`: the plagiarism engine.
- `TextMetrics`, `Keywords`, `CodeMetrics` and `Feedback`: the metrics.
- `Analysis`: the per-type bundles.
- `SubmissionSchema` and `ReviewSchema`: the schemas.
- `Requests`, `SubmissionRoutes` and `ReviewRoutes`: the routes.
- `Lifecycle`: the whole application.

Where the code and its own description disagree, the model follows the code:
- A corpus document whose cleaned text equals the candidate's is skipped as a
  self-comparison, so a verbatim copy is never reported (`Plagiarism.IdenticalTextNotReported`).
- Two sentences that share a single stem already pass the 5% reporting threshold
  (`Similarity.OneSharedStemExceedsThreshold`).
- The readability level comes from the unrounded Flesch score, not from the rounded one that
  is returned (`TextMetrics.LevelUsesUnroundedScore`).
- Readability and complexity divide by the word and sentence counts without a guard.
  - The source returns NaN figures when a count is zero.
  - `TextMetrics.AnalyzeReadability` and `TextMetrics.AnalyzeComplexity` require non-zero counts.
  - `Analysis.AnalyzeText` answers `None` for those figures when a count is zero.

## Model

| member | source | states |
|---|---|---|
| Numeric.Round | server/services/aiAnalysis.js:380 | `Math.round`: the integer within half of the value, with halves going up |
| Numeric.Round2 | server/services/aiAnalysis.js:362 | rounding to two decimals gives a whole number of hundredths, and that number lies within half a hundredth of the value: above it by at most half, below it by less than half |
| Numeric.RoundWithin | server/services/aiAnalysis.js:564 | rounding a value that lies between two integers stays between them |
| Strings.LowerChar | server/services/aiAnalysis.js:310 | lower-casing keeps whitespace and letters as they are classed and leaves no upper-case letter |
| Strings.TrimIsSlice | server/models/Submission.js:7 | trim returns the slice of the string between its leading and trailing whitespace, so that slice starts and ends with non-space |
| Strings.TrimEmptyIff | server/models/Submission.js:4-9 | trimming gives the empty string exactly when every character is whitespace |
| Strings.TrimIdempotent | server/models/Submission.js:7 | trimming twice is the same as trimming once |
| Strings.SplitOn | server/routes/submissions.js:132 | splitting on a comma yields one more piece than there are commas, and no piece holds a comma |
| Strings.JoinSplitOn | server/routes/submissions.js:132 | joining the comma-split pieces with commas gives the string back |
| Strings.SplitOnJoin | server/routes/submissions.js:132 | splitting the comma-join of comma-free pieces gives the pieces back |
| Strings.SplitRuns | server/services/aiAnalysis.js:488 | splitting at whitespace runs gives whitespace-free pieces; only the first and last can be empty, and only when the text starts or ends with whitespace; where the cuts fall is stated by SplitRunsRejoin |
| Strings.Collapse | server/services/aiAnalysis.js:292 | collapsing whitespace leaves only single plain spaces, empties only the empty string, and keeps whether the text starts with whitespace; which characters it keeps is fixed by JoinSplitRunsIsCollapse together with SplitRunsRejoin |
| Strings.SplitRunsRejoin | server/services/aiAnalysis.js:488 | the split cuts the text exactly at its maximal separator runs: there is one non-empty run of separators between each two consecutive pieces, and the pieces woven back together with those runs give the text |
| Strings.SplitRunsWeave | server/services/aiAnalysis.js:488 | the converse: separator-free pieces, all but the outer ones non-empty, woven together with separator runs, split back into exactly those pieces; with SplitRunsRejoin this fixes every piece of the split |
| Strings.SplitRunsCollapse | server/services/aiAnalysis.js:292 | collapsing whitespace runs to one space leaves the pieces of the whitespace split unchanged |
| Strings.JoinSplitRunsIsCollapse | server/services/aiAnalysis.js:488-492 | the whitespace-split pieces rejoined with single spaces are the collapsed text |
| Strings.ConcatSplitRuns | server/services/aiAnalysis.js:38 | the pieces of a split, written one after another, are the text without its separators |
| Strings.Words | server/routes/submissions.js:164 | the words are the non-empty pieces of the whitespace split: as many as there are non-empty pieces, each non-empty piece at the index given by the non-empty pieces before it, so in order and none dropped; each word is free of whitespace |
| Strings.WordsTrim | server/services/aiAnalysis.js:292-293 | trimming a text keeps its words |
| Strings.WordsCollapse | server/services/aiAnalysis.js:292 | collapsing whitespace keeps the words |
| Strings.WordsEmptyIff | server/routes/submissions.js:164-166 | a text has no words exactly when it is all whitespace |
| Sorting.SortDesc | server/services/aiAnalysis.js:392 | sorting by similarity yields a permutation in non-increasing order |
| Sorting.InsertSorted | server/services/aiAnalysis.js:392 | inserting into a sorted list keeps it sorted |
| Sorting.SortIsStable | server/services/aiAnalysis.js:392 | the sort is stable: entries with equal keys keep their input order |
| Sorting.Take | server/services/aiAnalysis.js:484 | `slice(0, n)` is the prefix of length n, or the whole list when it is shorter |
| Sorting.TopOfSorted | server/services/aiAnalysis.js:482-484 | the first n of the sorted list are n elements, or all of them when fewer, drawn from the input with their multiplicities; they are sorted, and nothing they leave out has a larger key than any of them |
| Sorting.TakeRankedIsTop | server/services/aiAnalysis.js:143-145 | from a list sorted by key and, within equal keys, by rank, the first n are n elements, and each of them has a larger key than anything left out, or the same key and a smaller rank |
| Collections.Count | server/services/aiAnalysis.js:394 | the length of a filter is at most the list's length, and zero exactly when no element passes |
| Collections.Filter | server/routes/reviews.js:159-166 | a filter holds as many elements as pass, and the k-th element of the list, when it passes, sits right after the passing elements before it; so it keeps exactly the elements that pass, in order |
| Collections.FilterUnique | server/routes/reviews.js:159-166 | any list with as many elements as pass and every passing element at its place is the filter: the two facts above pin the filter down |
| Normalize.BoldPairIsUnwrapped | server/services/aiAnalysis.js:291 | a bold span with star-free content is replaced by that content |
| Normalize.StarFreeUnchanged | server/services/aiAnalysis.js:291 | text without a star passes the bold removal unchanged |
| Normalize.NormalizeSpace | server/services/aiAnalysis.js:292-293 | the normalised text is the input's words joined by single spaces: it has the same words, and every whitespace character is a single inner plain space |
| Normalize.NormalIsJoinedWords | server/services/aiAnalysis.js:292-293 | a text whose whitespace is normal is its own words joined by single spaces |
| Normalize.NormalizeSpaceIdempotent | server/services/aiAnalysis.js:292-293 | normalising whitespace twice is the same as once |
| Normalize.Clean | server/services/aiAnalysis.js:291-293 | the cleaned text is the words of the text with its bold markup removed, joined by single spaces; it has normal whitespace |
| Normalize.CleanEmptyIff | server/services/aiAnalysis.js:291-295 | cleaning empties a text, which the engine then rejects, exactly when it is whitespace once the bold markup is gone |
| Normalize.CollapseAllSpace | server/services/aiAnalysis.js:292 | collapsing whitespace keeps a text all-whitespace exactly when it was |
| Normalize.NormalizeChunk | server/services/aiAnalysis.js:461-462 | a normalised chunk is the words of the lower-cased chunk joined by single spaces; it has normal whitespace |
| Similarity.Jaccard | server/services/aiAnalysis.js:409-417 | the Jaccard similarity of the token sets lies in [0, 1] |
| Similarity.Ngrams | server/services/aiAnalysis.js:444-450 | the n-grams are exactly the windows of n consecutive tokens, in order, and there are none for a list shorter than n |
| Similarity.CountFound | server/services/aiAnalysis.js:425-427 | no more bigrams are found than the first list has |
| Similarity.SequenceSimilarity | server/services/aiAnalysis.js:419-429 | the bigram similarity lies in [0, 1] and is 0 when neither list has a bigram |
| Similarity.Overlap | server/services/aiAnalysis.js:431-434 | the word overlap lies in [0, 1] and is 1 when the shared words number as many as the shorter list |
| Similarity.Composite | server/services/aiAnalysis.js:436-441 | the weighted similarity lies in [0, 1] |
| Similarity.JaccardOverlapSymmetric | server/services/aiAnalysis.js:407-434 | Jaccard and overlap do not depend on the argument order |
| Similarity.SequenceSimilarityAsymmetric | server/services/aiAnalysis.js:425-428 | the bigram similarity does depend on the order: a b a b against a b c is 2/3 one way and 1/3 the other |
| Similarity.CountFoundAll | server/services/aiAnalysis.js:425-427 | when every bigram of the first list occurs in the second, all of them count |
| Similarity.JaccardSelf | server/services/aiAnalysis.js:409-417 | a non-empty list has Jaccard similarity 1 with itself |
| Similarity.SequenceSelf | server/services/aiAnalysis.js:419-429 | a list of two or more tokens has bigram similarity 1 with itself |
| Similarity.SelfSimilarity | server/services/aiAnalysis.js:407-441 | a list against itself scores 0.8 plus 0.2 times its distinct share, so 1 exactly when it has no repeated token |
| Similarity.OneSharedStemExceedsThreshold | server/services/aiAnalysis.js:353-357 | "Apples are red." and "Bananas are yellow." share one stem and already score above the 5% reporting threshold |
| Plagiarism.ChunkWords | server/services/aiAnalysis.js:487-495 | the chunks are non-empty, hold at most 25 words, all but the last hold exactly 25, and together they are the word list |
| Plagiarism.CreateTextChunks | server/services/aiAnalysis.js:487-496 | each chunk is the space-join of one slice of words |
| Plagiarism.ChunksRejoin | server/services/aiAnalysis.js:487-496 | rejoining the chunks with spaces gives the text with every whitespace run collapsed |
| Plagiarism.ChunkSimilarity | server/services/aiAnalysis.js:460-468 | the similarity of two normalised chunks lies in [0, 1] |
| Plagiarism.Evidence | server/services/aiAnalysis.js:470-477 | a chunk pair is evidence exactly when its similarity exceeds 0.3, and then it records both raw chunks and the similarity rounded to hundredths |
| Plagiarism.Row | server/services/aiAnalysis.js:459-478 | the inner loop keeps one match per chunk of the second text whose pair with the given chunk produces one, and exactly the matches such pairs produce |
| Plagiarism.RowLayout | server/services/aiAnalysis.js:459-478 | the match of the pair with the j-th chunk of the second text sits right after the matches of the earlier chunks |
| Plagiarism.Grid | server/services/aiAnalysis.js:458-479 | the nested loops keep exactly what some pair of chunks produces, and no more matches than there are pairs |
| Plagiarism.GridRows | server/services/aiAnalysis.js:458-479 | the matches are, in row-major order, those of the earlier chunks of the first text, then the row of chunk i, then those of the later chunks |
| Plagiarism.AllMatches | server/services/aiAnalysis.js:452-479 | the matches are exactly the evidence of the chunk pairs of the two texts, and for every chunk i of the first text its row lies between the matches of the earlier and the later chunks |
| Plagiarism.TopSpans | server/services/aiAnalysis.js:481-484 | five matches, or all when fewer, best first, drawn from the matches with their multiplicities, and none left out beats one kept |
| Plagiarism.FindMatchingText | server/services/aiAnalysis.js:452-485 | five chunk pairs above the threshold, or all when fewer, best first, drawn from all the matches with their multiplicities, and no left-out pair is more similar than a kept one |
| Plagiarism.Collect | server/services/aiAnalysis.js:326-366 | a loop with `continue`s keeps one value per element that reaches the end, and the value of the k-th element sits right after those of the earlier elements that reach the end |
| Plagiarism.StemsOf | server/services/aiAnalysis.js:323 | the stems are one per token of the lower-cased cleaned text, in order |
| Plagiarism.DocSimilarity | server/services/aiAnalysis.js:343-353 | a document's similarity to the candidate lies in [0, 1] |
| Plagiarism.Verdict | server/services/aiAnalysis.js:326-366 | a document is reported exactly when its cleaned content is non-empty, differs from the cleaned candidate, has tokens and is more than 5% similar; the report carries its id, title, author, rounded similarity and matching chunks |
| Plagiarism.VerdictBounds | server/services/aiAnalysis.js:357-362 | every reported similarity is a whole number of hundredths in [0.05, 1] |
| Plagiarism.MaxSimilarity | server/services/aiAnalysis.js:374-380 | the largest similarity is that of some source and at least that of every source |
| Plagiarism.Found | server/services/aiAnalysis.js:326-366 | one source per document reported, in corpus order: the source of the k-th document sits right after those of the earlier reported documents; no more sources than documents with content |
| Plagiarism.Assemble | server/services/aiAnalysis.js:370-395 | the report holds the sources found, re-ordered by descending similarity; the score is 0 with no source, else the top similarity in percent, between 5 and 100 |
| Plagiarism.Scan | server/services/aiAnalysis.js:309-405 | after validation, the report counts every document and those with content, holds the reported sources best first, and as a multiset exactly those the loop finds, and scores the best one |
| Plagiarism.DetectPlagiarism | server/services/aiAnalysis.js:289-405 | the two validation errors with their exact replies; otherwise no error, the counts of the corpus scan, its sources best first and as a multiset exactly those the loop finds, and the score of the best |
| Plagiarism.ScoreOfSorted | server/services/aiAnalysis.js:372-392 | the score computed from the maximum is the percentage of the head of the sorted list |
| Plagiarism.StoredPercent | server/services/aiAnalysis.js:380 | a stored similarity in percent is a whole number from 5 to 100 |
| Plagiarism.TopIsMax | server/services/aiAnalysis.js:380-392 | the head of the sorted sources carries the largest similarity |
| Plagiarism.IdenticalTextNotReported | server/services/aiAnalysis.js:338-341 | a corpus whose documents all clean to the candidate's text reports nothing and scores 0 |
| TextMetrics.AnalyzeSentiment | server/services/aiAnalysis.js:27-35 | the lexicon's score and comparative are passed through; the magnitude is the score's absolute value and the label is its sign |
| TextMetrics.Sentences | server/services/aiAnalysis.js:38 | the sentences are the pieces between terminators that are not blank, every one of them and in order; none holds a terminator, and there is one exactly when the text has a character that is neither whitespace nor a terminator |
| TextMetrics.WordSyllables | server/services/aiAnalysis.js:502-519 | a word has at least one syllable and no more than letters |
| TextMetrics.CountWordSyllables | server/services/aiAnalysis.js:505-517 | the vowel-group loop with its final-e and at-least-one rules computes the word's syllable count |
| TextMetrics.SumSyllables | server/services/aiAnalysis.js:502-520 | the total lies between the number of non-empty pieces and their total length |
| TextMetrics.SumSyllablesAppend | server/services/aiAnalysis.js:502-520 | the syllables of two lists of pieces add up: the total is a sum over the words |
| TextMetrics.SumSyllablesSingle | server/services/aiAnalysis.js:519 | a single word adds its own syllable count |
| TextMetrics.SumSyllablesFilled | server/services/aiAnalysis.js:503-504 | empty pieces add nothing: the sum over the split's pieces is the sum over the words among them |
| TextMetrics.CountSyllables | server/services/aiAnalysis.js:498-523 | the syllables of a text are the sum of the per-word counts over the words of the lower-cased text, so at least one per word and at most one per character |
| TextMetrics.LevelOf | server/services/aiAnalysis.js:49-56 | the level is the band the score falls in |
| TextMetrics.BandsAreExact | server/services/aiAnalysis.js:49-56 | the bands do not overlap: a score in a band gets that band's level |
| TextMetrics.LevelMonotone | server/services/aiAnalysis.js:49-56 | a higher score never gives a harder level |
| TextMetrics.LevelUsesUnroundedScore | server/services/aiAnalysis.js:46-59 | a score of 89.5 is returned as 90 yet labelled Easy, not Very Easy |
| TextMetrics.ReadabilityFor | server/services/aiAnalysis.js:42-62 | the result describes its counts: the level is the band of the Flesch score, the score is that score rounded, and the averages are kept to hundredths |
| TextMetrics.AnalyzeReadability | server/services/aiAnalysis.js:37-63 | the readability result describes the tokenizer's word count, the sentence count and the syllable count |
| TextMetrics.TotalLength | server/services/aiAnalysis.js:75 | non-empty words have a total length of at least their number |
| TextMetrics.Diversity | server/services/aiAnalysis.js:66-72 | the distinct share of a non-empty word list lies in (0, 1] |
| TextMetrics.AnalyzeComplexity | server/services/aiAnalysis.js:65-93 | the result describes the tokenizer's words of the lower-cased text and the sentence count: High exactly when the distinct share is above 0.7 and the mean word length above 5, Medium exactly when not High but above 0.5 and 4; the score is the distinct share as a rounded percentage, in [0, 100], at least 70 for High and 50 for Medium; diversity, mean word length and words per sentence are rounded to hundredths |
| TextMetrics.ComplexityOf | server/services/aiAnalysis.js:67-92 | for a non-empty word list and a non-zero sentence count, the complexity result those figures describe, with the score in [0, 100] and the diversity in [0, 1] |
| TextMetrics.SentenceIssues | server/services/aiAnalysis.js:104-117 | a sentence is flagged for a lower-case start exactly when it has one, and for a double space exactly when it has one |
| TextMetrics.IssuesFrom | server/services/aiAnalysis.js:100-119 | for each sentence, an issue for a lower-case start exactly when it has one and for a double space exactly when it has one, under its number; as many issues as such sentences; in sentence order, and within a sentence the capital-letter issue first |
| TextMetrics.GrammarOf | server/services/aiAnalysis.js:95-126 | the issues are exactly the sentences' issues, as many as there are lower-case starts plus double spaces, in sentence order; no suggestion; the score is 100 less 10 per issue while there are fewer than ten, else 0 |
| TextMetrics.AnalyzeGrammar | server/services/aiAnalysis.js:95-126 | the same for the sentences of a text, with their number and order pinned; a text without sentences has no issue and scores 100 |
| Keywords.Candidates | server/services/aiAnalysis.js:132-136 | the filtered tokens are all longer than three letters, letters only, and not stop words |
| Keywords.OccCandidates | server/services/aiAnalysis.js:132-136 | the filter keeps every occurrence of a candidate word |
| Keywords.FirstIndex | server/services/aiAnalysis.js:143-146 | a position holding the word exactly when it occurs, and the length otherwise |
| Keywords.Bump | server/services/aiAnalysis.js:138-141 | one tally step adds one to the word's entry, or appends a new entry with count 1 |
| Keywords.BumpDistinct | server/services/aiAnalysis.js:138-141 | a tally step keeps one entry per word |
| Keywords.BumpSum | server/services/aiAnalysis.js:138-141 | a tally step adds one to the total count |
| Keywords.Tally | server/services/aiAnalysis.js:137-141 | the tally has one entry per distinct word with its number of occurrences, in order of first occurrence, and the counts add up to the number of words |
| Keywords.ExtractKeywords | server/services/aiAnalysis.js:128-149 | at most ten distinct candidate words with their true counts; by descending count, ties by first appearance; when a candidate is left out there are ten, and each occurs more often, or as often and first appears earlier |
| Keywords.TallyAsWrittenAgrees | server/services/aiAnalysis.js:137-141 | without the word "constructor", the plain-object tally as written is the corrected tally |
| Keywords.ConstructorCountIsText | server/services/aiAnalysis.js:137-141 | with it, the as-written count of "constructor" becomes text and is not 1 |
| CodeMetrics.Lines | server/services/aiAnalysis.js:178 | the lines are one more than the newlines, free of newlines, and join back to the code |
| CodeMetrics.PerLine | server/services/aiAnalysis.js:182-201 | the per-line loop makes as many findings as the lines yield kinds, in total |
| CodeMetrics.PerLineMembers | server/services/aiAnalysis.js:182-201 | a finding is listed exactly when its kind is found on the line it names, and every finding names one of the lines |
| CodeMetrics.PerLineLayout | server/services/aiAnalysis.js:182-201 | the findings come line by line and, within a line, in the order the checks run: the j-th kind of line i sits right after the findings of the lines before it |
| CodeMetrics.PerLineCounts | server/services/aiAnalysis.js:182-201 | a scanner yielding one kind per test passed makes as many findings as lines passing each test |
| CodeMetrics.KindFindings | server/services/aiAnalysis.js:182-201 | a kind yielded on exactly the lines passing a test is listed for exactly those lines, numbered from 1 |
| CodeMetrics.FindingKinds | server/services/aiAnalysis.js:182-201 | a scanner whose kinds belong to one section lists only findings of that section |
| CodeMetrics.LineWeight | server/services/aiAnalysis.js:183-189 | a trimmed line adds 1 for "if"/"else", 2 for "for"/"while", 2 for "switch"/"case" and 1 for "try"/"catch", each test counted once; at most 6, and 0 exactly when it names no keyword |
| CodeMetrics.Weight | server/services/aiAnalysis.js:179-189 | the complexity of the lines is at most six per line |
| CodeMetrics.WeightAppend | server/services/aiAnalysis.js:182-189 | the complexity of two blocks of lines is the sum of theirs |
| CodeMetrics.ScanWeight | server/services/aiAnalysis.js:179-189 | the running total over the lines is the summed weight |
| CodeMetrics.ControlLinesBound | server/services/aiAnalysis.js:185-189 | the complexity is at least the number of lines that name a control keyword |
| CodeMetrics.ShapeKinds | server/services/aiAnalysis.js:191-200 | a line is flagged as deeply nested exactly when it is indented more than 8, and as too long exactly when longer than 120 |
| CodeMetrics.CodeLevel | server/services/aiAnalysis.js:203-206 | High above 20, Low at 10 or less, else Medium |
| CodeMetrics.AnalyzeCodeComplexity | server/services/aiAnalysis.js:177-213 | the score is the sum of the line weights, between the number of control lines and six per line; High above 20, Medium above 10; the issues are one deep-nesting finding per line indented more than 8 and one long-line finding, with the length, per line over 120, numbered from 1, and nothing else |
| CodeMetrics.ManyControlLinesNotLow | server/services/aiAnalysis.js:185-206 | code with more than ten control lines never rates Low |
| CodeMetrics.TodoKinds | server/services/aiAnalysis.js:230-232 | a line is flagged for a TODO exactly when it mentions one in any case |
| CodeMetrics.SuggestionKinds | server/services/aiAnalysis.js:225-237 | a line gets a suggestion exactly for commented-out code and for console.log |
| CodeMetrics.Clamped | server/services/aiAnalysis.js:243 | the score is 100 less the penalty, clamped at 0 |
| CodeMetrics.TodoFindings | server/services/aiAnalysis.js:219-232 | one TODO issue per line that mentions "todo" in any case, numbered from 1, and nothing else |
| CodeMetrics.SuggestionFindings | server/services/aiAnalysis.js:219-237 | one suggestion per commented-code line and one per console.log line, numbered from 1, as many as such lines, and nothing else |
| CodeMetrics.AnalyzeCodeQuality | server/services/aiAnalysis.js:215-245 | the issues are the TODO findings and the suggestions the commented-code and console.log findings; the score is 100 less 5 per issue and 2 per suggestion while that stays positive, else 0; 100 exactly when nothing is found |
| CodeMetrics.StyleKinds | server/services/aiAnalysis.js:253-260 | a line is flagged for a single-space indent and for a trailing space exactly when it has them |
| CodeMetrics.AnalyzeCodeStyle | server/services/aiAnalysis.js:247-267 | one finding per single-space-indented line and one per line ending in a space, numbered from 1, and nothing else; the score is 100 less 5 per finding while fewer than twenty, else 0 |
| CodeMetrics.LoneSpaceFlaggedTwice | server/services/aiAnalysis.js:253-259 | a line holding one space is flagged twice and scores 90 |
| CodeMetrics.CalculateCodeMetrics | server/services/aiAnalysis.js:269-286 | the non-blank and comment lines are counted by their predicates; the comment ratio and the mean line length are the rounded quotients by the line count; words and characters are counted; comment lines are at most the non-blank lines, at most all lines; code without a non-space character has no non-blank line and no word |
| CodeMetrics.CommentsAreNonBlank | server/services/aiAnalysis.js:271-272 | every comment line is non-blank |
| CodeMetrics.RatioFigure | server/services/aiAnalysis.js:281 | the rounded comment ratio is whole hundredths in [0, 1] |
| CodeMetrics.BlankLines | server/services/aiAnalysis.js:270-271 | all lines are blank exactly when the code has no non-space character |
| CodeMetrics.AverageWithin | server/services/aiAnalysis.js:284 | the rounded mean line length lies between 0 and the character count, and is the character count for one line |
| Feedback.ToneScore | server/services/aiAnalysis.js:559 | the tone counts 80 exactly when the sentiment is positive, else 60 |
| Feedback.MeanWithin | server/services/aiAnalysis.js:564 | the rounded mean of three numbers lies between the smallest and the largest |
| Feedback.Strengths | server/services/aiAnalysis.js:534-555 | a positive tone, a readability above 70 and a High vocabulary are strengths exactly when they hold, in rule order |
| Feedback.Weaknesses | server/services/aiAnalysis.js:534-548 | a sentiment below -2 and a readability below 30 are weaknesses exactly when they hold, in rule order |
| Feedback.Suggestions | server/services/aiAnalysis.js:534-555 | the two weaknesses and a Low vocabulary each bring their suggestion exactly when they hold, in rule order |
| Feedback.OverallScore | server/services/aiAnalysis.js:557-564 | the overall score is the mean of the tone, readability and complexity scores rounded to the nearest integer, so it lies between the smallest and the largest |
| Feedback.GenerateFeedback | server/services/aiAnalysis.js:526-567 | every remark appears exactly when its rule fires, only in its own list and in rule order; the overall score is the rounded mean of the tone, readability and complexity scores |
| Feedback.AgreeingScores | server/services/aiAnalysis.js:557-564 | when the three scores agree, the overall score is that score |
| Analysis.ParseKind | server/routes/submissions.js:124 | exactly "text", "code" and "mixed" are accepted, each as its own type |
| Analysis.KindName | server/models/Submission.js:20-24 | each type's stored name is accepted back as that type |
| Analysis.ParseKindInverse | server/routes/submissions.js:124 | a string is accepted as a type exactly when it is that type's name |
| Analysis.AnalyzeText | server/services/aiAnalysis.js:14-25 | readability and complexity are present exactly when their word and sentence counts are non-zero; the complexity score then lies in [0, 100] |
| Analysis.AnalyzeCode | server/services/aiAnalysis.js:166-175 | the four code reports: the complexity level follows its score, the quality and style scores lie in [0, 100], and the figures count the characters and lines |
| Analysis.AnalyzeContent | server/routes/submissions.js:483-489 | text analysis exactly for text and mixed content, code analysis exactly for code and mixed |
| Analysis.ComplexityScore | server/routes/submissions.js:515 | the kept score is the text complexity score when present and non-zero, else the code one when present, else 0 |
| Analysis.ComplexityScoreByKind | server/routes/submissions.js:483-515 | text content keeps a score in [0, 100], code content keeps its code complexity score, and a non-zero text score always wins |
| SubmissionSchema.StatusRank | server/models/Submission.js:46-50 | draft comes first; reviewed and rejected are final |
| SubmissionSchema.RatingViolations | server/models/Submission.js:80-84 | an entry is reported exactly when its rating lies outside [1, 5] |
| SubmissionSchema.FieldViolations | server/models/Submission.js:4-19 | each field error is reported exactly when its rule is broken: title required and at most 200, description at most 2000, content required |
| SubmissionSchema.Violations | server/models/Submission.js:3-110 | a record has no schema error exactly when it is valid |
| SubmissionSchema.ViolationsReportEach | server/models/Submission.js:4-84 | each error names a broken rule and each broken rule is reported |
| SubmissionSchema.TrimAll | server/models/Submission.js:42-45 | every tag is stored trimmed, in order |
| SubmissionSchema.ApplySetters | server/models/Submission.js:4-45 | the title and the tags are trimmed and nothing else changes |
| SubmissionSchema.SettersIdempotent | server/models/Submission.js:4-45 | applying the setters twice is the same as once |
| SubmissionSchema.Save | server/models/Submission.js:3-110 | a save succeeds exactly when the trimmed record is valid, stores the trimmed record, and otherwise lists its errors |
| SubmissionSchema.SaveStored | server/models/Submission.js:3-110 | saving a stored record again changes nothing |
| SubmissionSchema.SavedIsStored | server/models/Submission.js:3-110 | whatever a save returns saves again unchanged |
| SubmissionSchema.SaveOr | server/models/Submission.js:3-110 | a save that keeps the id, author and status, or the given refusal |
| SubmissionSchema.StoredIgnoresLifecycle | server/models/Submission.js:46-50 | changing the status, author, analysis or metrics keeps a stored record stored |
| SubmissionSchema.BlankTitleRejected | server/models/Submission.js:4-9 | an all-whitespace title passes a truthiness test but fails the save as missing |
| ReviewSchema.StatusRank | server/models/Review.js:56-60 | draft comes first and approved last |
| ReviewSchema.CategoryViolations | server/models/Review.js:20-35 | a category is reported exactly when its name is missing, its score lies outside [1, 5] or its comment is longer than 500 |
| ReviewSchema.ItemViolations | server/models/Review.js:36-47 | a remark is reported exactly when it is longer than 200 |
| ReviewSchema.RemarkViolations | server/models/Review.js:36-47 | the remark errors of the three lists, none exactly when all remarks fit |
| ReviewSchema.FieldViolations | server/models/Review.js:14-51 | the rating is reported exactly outside [1, 5] and the detailed feedback exactly above 2000 |
| ReviewSchema.Violations | server/models/Review.js:3-82 | a review has no schema error exactly when it is valid |
| ReviewSchema.ViolationsReportEach | server/models/Review.js:14-51 | each error names a broken rule and each broken rule is reported |
| ReviewSchema.Save | server/models/Review.js:3-82 | a save succeeds exactly for a valid review and otherwise lists its errors |
| ReviewSchema.SaveOr | server/models/Review.js:3-82 | a save of a valid review, or the given refusal |
| ReviewSchema.AddKeepsOnePerPair | server/models/Review.js:84-85 | adding a review for a new pair keeps one review per (submission, reviewer) |
| ReviewSchema.ReplaceKeepsOnePerPair | server/models/Review.js:84-85 | replacing a review by one for the same pair keeps the index unique |
| SubmissionRoutes.TrimmedPieces | server/routes/submissions.js:132 | one trimmed piece per comma-separated piece, none with a comma |
| SubmissionRoutes.StringTags | server/routes/submissions.js:131-132 | the tags of a string are its non-empty trimmed comma-separated pieces, every one of them and in order; the empty string gives none |
| SubmissionRoutes.ProcessTags | server/routes/submissions.js:129-135 | a non-empty string gives its non-empty trimmed pieces and an array its non-blank entries, every one and in order; anything else gives nothing |
| SubmissionRoutes.ProcessedTagsStoreFilled | server/routes/submissions.js:129-135 | once the schema trims them, the create route's tags are non-empty and trimmed |
| SubmissionRoutes.FileTags | server/routes/submissions.js:302 | the upload route keeps one trimmed piece per comma-separated piece, blank ones included |
| SubmissionRoutes.BlankPieceKeptWithFiles | server/routes/submissions.js:302 | a blank piece is dropped by the create route but stored as an empty tag by the upload route |
| SubmissionRoutes.BasicMetrics | server/routes/submissions.js:163-170 | the word count is zero exactly for blank content; the characters and lines are counted; the complexity starts at 0 |
| SubmissionRoutes.SaveNew | server/routes/submissions.js:172-173 | a new record with content is stored exactly when its title has a non-space character and fits 200 once trimmed and its description fits 2000; it is stored trimmed, otherwise the route's refusal |
| SubmissionRoutes.Create | server/routes/submissions.js:97-263 | 400 for a missing title or content and for an unknown type, in that order, and only 400s; otherwise a stored draft by the user with the trimmed title, the content, the description or empty, the parsed type, the processed tags trimmed, basic metrics and no analysis |
| SubmissionRoutes.CreateWithFiles | server/routes/submissions.js:266-331 | 400 only for a missing title or content and 500 for any other failure, an unknown type included; success exactly for a known type, a non-blank title of at most 200 and a description of at most 2000; then the trimmed title, the content, the description or empty, the parsed type, the split tags, no analysis and no feedback |
| SubmissionRoutes.Get | server/routes/submissions.js:392-414 | 404 without the record; the record exactly for its author and staff; 403 otherwise |
| SubmissionRoutes.List | server/routes/submissions.js:348-373 | staff see every submission and students exactly their own |
| SubmissionRoutes.Delete | server/routes/submissions.js:535-556 | 404 without the record; removal exactly for its author and admins; 403 otherwise |
| SubmissionRoutes.DeleterCanRead | server/routes/submissions.js:544-547 | everyone who may delete a submission may also read it |
| SubmissionRoutes.Overwrite | server/routes/submissions.js:435-440 | every field the body carries, title, description, content, tags, status, author, analysis, metrics and feedback, replaces the record's; the type is the parsed one; the id never changes |
| SubmissionRoutes.UpdateAsWritten | server/routes/submissions.js:417-463 | 403 for anyone but the author and 400 once reviewed; it succeeds exactly when the type is known and the merged title, description, content and feedback pass the schema; then every field is the body's when present, status, author, analysis, metrics and feedback included, the title and tags trimmed; new non-empty content recounts the metrics but keeps the complexity score the record holds after the copy |
| SubmissionRoutes.Update | server/routes/submissions.js:435-449 | the same refusals, and success exactly when the type is known and the merged title, description and content with the stored feedback pass the schema; the title, description, content, tags and type are the body's, but the status, author, analysis, feedback and complexity score never change; it is the route as written whenever the body has none of those five keys |
| SubmissionRoutes.UpdateAsWrittenSkipsReview | server/routes/submissions.js:435-440 | as written, the author of a draft can mark it reviewed through an update |
| SubmissionRoutes.UpdateAsWrittenHandsOver | server/routes/submissions.js:435-440 | as written, the author can hand the submission to another author |
| SubmissionRoutes.UpdateAsWrittenRewritesRecord | server/routes/submissions.js:435-440 | as written, the author of a submission not yet reviewed can replace its stored analysis (erasing the plagiarism report with null), its metrics and the reviewers' feedback |
| SubmissionRoutes.AsDoc | server/routes/submissions.js:500 | the plagiarism check reads the id, title, author and content |
| SubmissionRoutes.Corpus | server/routes/submissions.js:493-500 | the corpus has one entry per other stored submission of the same type or mixed that has content, and holds no document without content or with the submission's own id |
| SubmissionRoutes.SubmitWith | server/routes/submissions.js:466-532 | 403 for anyone but the author and 400 unless a draft; otherwise submitted with the analysis, the plagiarism report and the kept complexity score, all else unchanged |
| SubmissionRoutes.Submit | server/routes/submissions.js:466-532 | submitting stores the analysis for the submission's type and the plagiarism report against its corpus: text analysis exactly for text and mixed content, code analysis exactly for code and mixed, and for text content a kept complexity score in [0, 100] |
| ReviewRoutes.Factors | server/routes/reviews.js:68-72 | one factor per category with its name and score, explained by the comment or a fixed text |
| ReviewRoutes.QualityScore | server/routes/reviews.js:67 | the rating in percent of 5 is twenty times the rating, from 20 to 100 on the schema's scale |
| ReviewRoutes.AnalysisOf | server/routes/reviews.js:62-78 | a new review's analysis: the sentiment of its feedback, the quality score and factors, and a fixed consistency of 85 |
| ReviewRoutes.Create | server/routes/reviews.js:10-96 | 400 for missing fields, 404 for an unknown submission, 400 for one's own submission and for a second review, in that order; otherwise a valid draft for a new pair holding the body's rating, categories, detailed feedback and remark lists (empty when absent), the anonymity flag and the computed analysis |
| ReviewRoutes.Submit | server/routes/reviews.js:99-117 | 403 for anyone but the reviewer and 400 unless a draft; otherwise only the status becomes submitted |
| ReviewRoutes.Cascade | server/routes/reviews.js:119-124 | a submitted submission moves to under review, any other stays as it is |
| ReviewRoutes.Approve | server/routes/reviews.js:308-321 | 403 for students and 400 unless submitted; otherwise only the status becomes approved |
| ReviewRoutes.ApprovedOf | server/routes/reviews.js:325-328 | exactly the approved reviews of the submission |
| ReviewRoutes.Conclude | server/routes/reviews.js:323-333 | with two approved reviews the submission becomes reviewed, whatever its status; otherwise it stays as it is |
| ReviewRoutes.Overwrite | server/routes/reviews.js:259-270 | the id and the pair never change; the rating, categories, the three remark lists, the feedback, the anonymity flag, the status and the analysis are the body's when present; new non-empty feedback then renews the sentiment of the resulting analysis |
| ReviewRoutes.UpdateAsWritten | server/routes/reviews.js:243-282 | 403 for anyone but the reviewer and 400 once approved; it succeeds exactly when the merged record passes the schema, and is then the merged record, status and analysis included |
| ReviewRoutes.Update | server/routes/reviews.js:259-270 | the same refusals and the same success condition; the rating, categories, remark lists, feedback and anonymity flag are the body's when present, but the status never changes and of the analysis only the sentiment, renewed from new feedback; it is the route as written whenever the body has neither status nor analysis |
| ReviewRoutes.UpdateAsWrittenSelfApproves | server/routes/reviews.js:259-264 | as written, a student reviewer can approve their own draft review |
| ReviewRoutes.UpdateAsWrittenRewritesAnalysis | server/routes/reviews.js:259-264 | as written, a reviewer can replace the stored analysis of their review, quality and consistency scores included |
| ReviewRoutes.Delete | server/routes/reviews.js:285-305 | 404 without the review; removal exactly for its reviewer and admins; 403 otherwise |
| ReviewRoutes.Get | server/routes/reviews.js:215-240 | 404 without the review; the reviewer always sees it; others see it exactly when they wrote the submission or are staff; 500 for others when the submission is gone |
| ReviewRoutes.ListFor | server/routes/reviews.js:140-173 | 404 without the submission; for its author and staff exactly its submitted reviews, anonymous ones only on request; refused for other students |
| ReviewRoutes.ListMine | server/routes/reviews.js:176-212 | exactly the user's own reviews |
| Lifecycle.ApplicationSound | server/routes/submissions.js:97-532 | with both update routes protecting their lifecycle fields, the application's handlers are sound: they create stored drafts and valid reviews for new pairs, keep ids, authors and statuses, and submit only drafts |
| Lifecycle.Ordered | server/routes/submissions.js:493-500 | the corpus snapshot holds every stored submission with an id below the counter and nothing that is not stored |
| Lifecycle.UpdateSubmissionStep | server/routes/submissions.js:417-463 | 404 for an unknown id; a refusal changes nothing; success replaces only that submission |
| Lifecycle.SubmitSubmissionStep | server/routes/submissions.js:466-532 | 404 for an unknown id; a refusal changes nothing; success replaces only that submission |
| Lifecycle.DeleteSubmissionStep | server/routes/submissions.js:535-556 | removal exactly when the user may delete it, which leaves its reviews in place |
| Lifecycle.CreateReviewStep | server/routes/reviews.js:10-96 | a refusal changes nothing; success adds the review under a fresh id |
| Lifecycle.CascadeStep | server/routes/reviews.js:119-124 | the cascade refuses only with a server error, which changes nothing; any change moves only that submission, from submitted to under review |
| Lifecycle.SubmitReviewStep | server/routes/reviews.js:99-137 | 404 for an unknown id; the store changes only for a draft review, which is saved as submitted before the cascade |
| Lifecycle.UpdateReviewStep | server/routes/reviews.js:243-282 | 404 for an unknown id; a refusal changes nothing; success replaces only that review |
| Lifecycle.ConcludeStep | server/routes/reviews.js:323-333 | concluding refuses only with a server error; any change touches only that submission, moves it forward, and needs two approved reviews |
| Lifecycle.ApproveReviewStep | server/routes/reviews.js:308-333 | 403 for students before any lookup, 404 for an unknown id; the store changes only for a submitted review, which is saved as approved before the submission is concluded |
| Lifecycle.DeleteReviewStep | server/routes/reviews.js:285-305 | removal exactly when the user may delete the review |
| Lifecycle.CreateReviewKeepsInv | server/routes/reviews.js:33-46 | creating a review keeps every review valid, one per pair and never by the submission's author |
| Lifecycle.StepKeepsInv | server/routes/reviews.js:33-46 | with sound handlers every request keeps the invariant: ids match keys, records pass their schemas, one review per pair, no self-review |
| Lifecycle.CascadeEffects | server/routes/reviews.js:119-124 | the cascade moves statuses forward only and concludes nothing |
| Lifecycle.SubmitReviewEffects | server/routes/reviews.js:99-124 | submitting a review moves statuses forward only and concludes nothing |
| Lifecycle.ConcludeEffects | server/routes/reviews.js:323-333 | concluding moves statuses forward, touches no review, and marks reviewed only a submission with two approvals |
| Lifecycle.ApproveReviewEffects | server/routes/reviews.js:308-333 | only staff change anything through an approval; it approves only that review and marks reviewed only submissions with two approvals |
| Lifecycle.StepEffects | server/routes/reviews.js:99-333 | with sound handlers every request moves statuses forward only, and only an approval concludes anything |
| Lifecycle.OnlyStaffApprove | server/routes/reviews.js:308 | with sound handlers a review becomes approved only through the approve route, called by staff on that review |
| Lifecycle.ReviewedOnlyByApprovals | server/routes/reviews.js:323-333 | with sound handlers a submission becomes reviewed only through a staff approval, once it has two approved reviews |
| Lifecycle.RefusalChangesNothing | server/routes/reviews.js:99-124 | a request refused with anything but a server error leaves the store unchanged |
| Lifecycle.ApplicationAsWritten | server/routes/submissions.js:435-440 | the application as written uses both update routes as written |
| Lifecycle.HandOverBreaksNoSelfReview | server/routes/submissions.js:435-440 | an update that gives a submission to one of its reviewers leaves a self-review behind |
| Lifecycle.AsWrittenBreaksNoSelfReview | server/routes/submissions.js:435-440 | as written, the author of any reviewed-against submission can break the no-self-review invariant |
| Lifecycle.AsWrittenSkipsReview | server/routes/submissions.js:435-440 | as written, a draft can become reviewed without any review |
| Lifecycle.AsWrittenSelfApproval | server/routes/reviews.js:259-264 | as written, a student reviewer can approve their own review in one update |

## Left out

- The tokenizer, the Porter stemmer and the sentiment lexicon are parameters (`Nlp.Toolkit`), not models of those libraries.
- `extractEntities` (server/services/aiAnalysis.js:151-163) is left out: it only passes on what the compromise library finds.
- Lower-casing and the capital-letter test cover ASCII letters only, and there is no Unicode case mapping.
- Floating-point arithmetic is exact real arithmetic. NaN and rounding error are not modelled.
- TextMetrics.AnalyzeReadability: requires non-zero word and sentence counts where the source would compute NaN. `Analysis.AnalyzeText` models that path as `None`.
- TextMetrics.AnalyzeComplexity: requires non-zero token and sentence counts for the same reason.
- The grammar check's "its" test (server/services/aiAnalysis.js:116-118) has an empty body and adds nothing, so it is not modelled.
- The following are not modelled: persistence, HTTP, authentication tokens, logging, file storage, and the `setTimeout` plagiarism job after a create (server/routes/submissions.js:176-221), which runs outside the request.
- List pagination, query filters, text search, sorting and population of referenced records are not modelled; the lists are the sets of records a user may see.
- The stored schema has no `analysis.text` or `analysis.code` paths. Mongoose's strict mode would therefore drop those parts of what the submit route assigns. The model keeps the value the route assigns.
- Review creation does not check the submission's status, and neither does the model.
- The quality score of a review is set only at creation. A later rating update leaves it stale, in the source and in the model.
- The duplicate-key reply (11000) of the create route is not modelled: the submission schema has no unique index, so it cannot occur.
- SubmissionRoutes.Overwrite: carries the title, description, content, type, tags, status, author, analysis, metrics and feedback of an update body. It leaves out the language, course, assignment, files, `_id` and timestamps, which the model does not hold. A patch's status and type are already parsed enum values, and a patch's metrics and analysis are already well-formed records, so Mongoose's casting of them is not modelled.
- ReviewRoutes.Overwrite: carries the rating, categories, the three remark lists, the detailed feedback, the anonymity flag, the status and the analysis of an update body; `_id` and the timestamps are left out for the same reason.
- String lengths are counted in characters. JavaScript's `.length` counts UTF-16 code units, so a character outside the Basic Multilingual Plane (an emoji such as U+1F600) counts 2 in the source and 1 in the model. This touches the character counts (server/routes/submissions.js:167, server/services/aiAnalysis.js:275), the 120-column check (server/services/aiAnalysis.js:198), the word lengths of the complexity figures (server/services/aiAnalysis.js:75) and the schema limits of 200, 2000 and 500 characters (server/models/Submission.js:8-13, server/models/Review.js:33-50).
- Ratings and category scores are whole numbers; a fractional rating is not modelled.
- Keywords.Inherited: only "constructor" is treated as an inherited property of the tally object. This holds because the tokenizer receives the lower-cased text (server/services/aiAnalysis.js:129) and returns pieces of it, and "constructor" is the only key of Object.prototype made of lower-case letters. The model's `tokenize` is an arbitrary function and is not constrained to return lower-case pieces; a token such as "toString" would reach another inherited property in the source.
- ReviewRoutes.ListFor: `includeAnonymous` is a boolean. The source reads a query string, and any non-empty value counts as true (`?includeAnonymous=false` included), while an empty value (`?includeAnonymous=`) or an absent one counts as false. How the query string maps to that boolean is not modelled.
- Plagiarism.DetectPlagiarism: the order among sources of equal similarity is the corpus order, by `Sorting.SortIsStable`. The report states only the descending order.
- Plagiarism.TopSpans: the order among matches of equal similarity is not stated. Matches can repeat, so there is no rank to order them by; the contract gives the descending order and the multiset bound.
- The list route leaves out each submission's content (`.select('-content')`, server/routes/submissions.js:373). `SubmissionRoutes.List` returns whole records, because projection is a storage concern.
- The submission schema stores only `score` and the sources' `url`, `similarity` and `text` of a plagiarism report (server/models/Submission.js:65-72). Mongoose drops `totalSources`, `checkedSources`, `error` and the other source fields when it casts the report. The model stores the whole report the route assigns.
- The `analysis` route file and the client are not part of this model.

## Findings

| source | as written | input that shows it | evidently intended | confidence | as-written member | corrected member |
|---|---|---|---|---|---|---|
| server/services/aiAnalysis.js:137-141 | the tally is a plain `{}`, so `wordFreq[word] \|\| 0` reads inherited properties | text containing "constructor" once: its count becomes the string "function Object() { [native code] }1" | every keyword's count is its number of occurrences | high (not executed) | Keywords.ConstructorCountIsText | Keywords.ExtractKeywords |
| server/routes/reviews.js:259-264 | the update copies every body key except `submission` and `reviewer`, `status` included | a student reviewer sends `{"status": "approved"}` for their own draft review | only the approve route, open to staff, approves a review | high (not executed) | ReviewRoutes.UpdateAsWrittenSelfApproves | ReviewRoutes.Update |
| server/routes/submissions.js:435-440 | the update copies every body key, `status` and `author` included | the author of a draft sends `{"status": "reviewed"}`, or `{"author": <a reviewer's id>}` | status changes only through submit, review and approval; the author never changes | high (not executed) | SubmissionRoutes.UpdateAsWrittenSkipsReview | SubmissionRoutes.Update |
| server/routes/submissions.js:435-440 | the update copies every body key, `analysis`, `metrics` and `feedback` included | the author of a submitted draft sends `{"analysis": null}`, erasing the plagiarism report, or a `feedback` list of invented reviews rated 5 | the analysis, the complexity score and the feedback are written only by the submit and review routes | high (not executed) | SubmissionRoutes.UpdateAsWrittenRewritesRecord | SubmissionRoutes.Update |
| server/routes/reviews.js:259-264 | the update copies every body key except `submission` and `reviewer`, `aiAnalysis` included | a reviewer sends `{"aiAnalysis": {"qualityScore": 100, ...}}` | the analysis is computed by the service; an update renews only its sentiment | high (not executed) | ReviewRoutes.UpdateAsWrittenRewritesAnalysis | ReviewRoutes.Update |

- The first row's corrected tally is `Keywords.Tally`. `Keywords.TallyAsWrittenAgrees` proves that the tally as written is the corrected one for every text without the word "constructor".
- Against the second to fifth rows, `Lifecycle.ApplicationSound` proves that the corrected routes are sound.
- `SubmissionRoutes.Update` and `ReviewRoutes.Update` state the corrected promise of the fourth and fifth rows: the stored analysis, feedback and complexity score are kept, and of a review's analysis only the sentiment is renewed.
- `Lifecycle.StepKeepsInv`, `Lifecycle.OnlyStaffApprove` and `Lifecycle.ReviewedOnlyByApprovals` then hold for the whole application.
- The as-written routes break these properties, as shown by:
  - `Lifecycle.AsWrittenSelfApproval`;
  - `Lifecycle.AsWrittenSkipsReview`;
  - `Lifecycle.AsWrittenBreaksNoSelfReview`.

=== FILE: analysis.dfy ===
/** analyzeText and analyzeCode: the per-kind bundles of metrics that the submit route
    stores, and the choice of bundles by content type. */
module Analysis {
  import opened Wrappers
  import opened Strings
  import opened Nlp
  import TextMetrics
  import Keywords
  import CodeMetrics

  /** The content type of a submission. */
  datatype Kind = Text | Code | Mixed

  /** The check `['text', 'code', 'mixed'].includes(type)` together with the enum
      value it admits. */
  function ParseKind(s: string): (r: Option<Kind>)
    ensures r == Some(Text) <==> s == "text"
    ensures r == Some(Code) <==> s == "code"
    ensures r == Some(Mixed) <==> s == "mixed"
    ensures r.None? <==> s !in {"text", "code", "mixed"}
  {
    if s == "text" then Some(Text)
    else if s == "code" then Some(Code)
    else if s == "mixed" then Some(Mixed)
    else None
  }

  /** The enum string a type is stored as. */
  function KindName(k: Kind): (r: string)
    ensures ParseKind(r) == Some(k)
  {
    match k
    case Text => "text"
    case Code => "code"
    case Mixed => "mixed"
  }

  /** The accepted strings are exactly the names of the types. */
  lemma ParseKindInverse(s: string, k: Kind)
    ensures ParseKind(s) == Some(k) <==> s == KindName(k)
  {
  }

  /** analyzeText. Readability and complexity divide by the word and sentence counts;
      where those are zero the source produces NaN figures, here `None`. */
  datatype TextAnalysis = TextAnalysis(
    sentiment: TextMetrics.Sentiment,
    readability: Option<TextMetrics.Readability>,
    complexity: Option<TextMetrics.Complexity>,
    grammar: TextMetrics.Grammar,
    keywords: seq<Keywords.Entry>)

  function AnalyzeText(tk: Toolkit, text: string): (r: TextAnalysis)
    ensures r.sentiment == TextMetrics.AnalyzeSentiment(tk, text)
    ensures r.readability.Some? <==> |tk.tokenize(text)| > 0 && TextMetrics.Sentences(text) != []
    ensures r.readability.Some? ==> r.readability.value == TextMetrics.AnalyzeReadability(tk, text)
    ensures r.complexity.Some? <==> |tk.tokenize(Lower(text))| > 0 && TextMetrics.Sentences(text) != []
    ensures r.complexity.Some? ==> r.complexity.value == TextMetrics.AnalyzeComplexity(tk, text)
    ensures r.complexity.Some? ==> 0 <= r.complexity.value.score <= 100
    ensures r.grammar == TextMetrics.AnalyzeGrammar(text)
    ensures r.keywords == Keywords.ExtractKeywords(tk, text)
  {
    TextAnalysis(
      TextMetrics.AnalyzeSentiment(tk, text),
      ReadabilityPart(tk, text),
      ComplexityPart(tk, text),
      TextMetrics.AnalyzeGrammar(text),
      Keywords.ExtractKeywords(tk, text))
  }

  // The two reports that need a word and a sentence to divide by.

  function ReadabilityPart(tk: Toolkit, text: string): (r: Option<TextMetrics.Readability>)
    ensures r.Some? <==> |tk.tokenize(text)| > 0 && TextMetrics.Sentences(text) != []
    ensures r.Some? ==> r.value == TextMetrics.AnalyzeReadability(tk, text)
  {
    if |tk.tokenize(text)| > 0 && TextMetrics.Sentences(text) != [] then Some(TextMetrics.AnalyzeReadability(tk, text)) else None
  }

  function ComplexityPart(tk: Toolkit, text: string): (r: Option<TextMetrics.Complexity>)
    ensures r.Some? <==> |tk.tokenize(Lower(text))| > 0 && TextMetrics.Sentences(text) != []
    ensures r.Some? ==> r.value == TextMetrics.AnalyzeComplexity(tk, text)
    ensures r.Some? ==> 0 <= r.value.score <= 100
  {
    if |tk.tokenize(Lower(text))| > 0 && TextMetrics.Sentences(text) != [] then Some(TextMetrics.AnalyzeComplexity(tk, text)) else None
  }

  /** analyzeCode: the four code reports. */
  datatype CodeAnalysis = CodeAnalysis(
    complexity: CodeMetrics.CodeComplexity,
    quality: CodeMetrics.CodeQuality,
    style: CodeMetrics.CodeStyle,
    metrics: CodeMetrics.CodeFigures)

  function AnalyzeCode(code: string): (r: CodeAnalysis)
    ensures r.complexity == CodeMetrics.AnalyzeCodeComplexity(code)
    ensures r.quality == CodeMetrics.AnalyzeCodeQuality(code)
    ensures r.style == CodeMetrics.AnalyzeCodeStyle(code)
    ensures r.metrics == CodeMetrics.CalculateCodeMetrics(code)
    ensures r.complexity.level == TextMetrics.High <==> r.complexity.score > 20
    ensures 0 <= r.quality.score <= 100 && 0 <= r.style.score <= 100
    ensures r.metrics.characterCount == |code| && r.metrics.totalLines == Occurrences(code, '\n') + 1
  {
    CodeAnalysis(
      CodeMetrics.AnalyzeCodeComplexity(code),
      CodeMetrics.AnalyzeCodeQuality(code),
      CodeMetrics.AnalyzeCodeStyle(code),
      CodeMetrics.CalculateCodeMetrics(code))
  }

  /** The `analysis` object of a submitted submission, without its plagiarism part. */
  datatype ContentAnalysis = ContentAnalysis(text: Option<TextAnalysis>, code: Option<CodeAnalysis>)

  /** Text analysis for text and mixed content, code analysis for code and mixed. */
  function AnalyzeContent(tk: Toolkit, content: string, kind: Kind): (r: ContentAnalysis)
    ensures r.text.Some? <==> kind == Text || kind == Mixed
    ensures r.code.Some? <==> kind == Code || kind == Mixed
    ensures r.text.Some? ==> r.text.value == AnalyzeText(tk, content)
    ensures r.code.Some? ==> r.code.value == AnalyzeCode(content)
  {
    ContentAnalysis(
      if kind == Text || kind == Mixed then Some(AnalyzeText(tk, content)) else None,
      if kind == Code || kind == Mixed then Some(AnalyzeCode(content)) else None)
  }

  /** The text complexity score, when there is one. */
  function TextScore(a: ContentAnalysis): Option<int> {
    if a.text.Some? && a.text.value.complexity.Some? then Some(a.text.value.complexity.value.score) else None
  }

  /** The code complexity score, when there is one. */
  function CodeScore(a: ContentAnalysis): Option<int> {
    if a.code.Some? then Some(a.code.value.complexity.score) else None
  }

  /** The complexity score kept in a submission's metrics: the first of the text and
      code complexity scores that is present and non-zero (a missing or zero score is
      falsy), else 0. */
  function ComplexityScore(a: ContentAnalysis): (r: int)
    ensures TextScore(a).Some? && TextScore(a).value != 0 ==> r == TextScore(a).value
    ensures (TextScore(a).None? || TextScore(a).value == 0) && CodeScore(a).Some? ==> r == CodeScore(a).value
    ensures r == 0 || Some(r) == TextScore(a) || Some(r) == CodeScore(a)
  {
    if TextScore(a).Some? && TextScore(a).value != 0 then TextScore(a).value
    else if CodeScore(a).Some? then CodeScore(a).value
    else 0
  }

  /** For text content the kept score is the text complexity score or 0, in [0, 100];
      for code content it is the code complexity score. */
  lemma ComplexityScoreByKind(tk: Toolkit, content: string, kind: Kind)
    ensures kind == Text ==> 0 <= ComplexityScore(AnalyzeContent(tk, content, kind)) <= 100
    ensures kind == Code ==>
      ComplexityScore(AnalyzeContent(tk, content, kind)) == CodeMetrics.AnalyzeCodeComplexity(content).score
    ensures (kind != Code && |tk.tokenize(Lower(content))| > 0 && TextMetrics.Sentences(content) != [] &&
               TextMetrics.AnalyzeComplexity(tk, content).score != 0) ==>
      ComplexityScore(AnalyzeContent(tk, content, kind)) == TextMetrics.AnalyzeComplexity(tk, content).score
  {
    TextKindScore(tk, content, kind);
    CodeKindScore(tk, content, kind);
    TextScoreKept(tk, content, kind);
  }

  // The three cases of ComplexityScoreByKind, each proved on its own.

  lemma TextKindScore(tk: Toolkit, content: string, kind: Kind)
    ensures kind == Text ==> 0 <= ComplexityScore(AnalyzeContent(tk, content, kind)) <= 100
  {
  }

  lemma CodeKindScore(tk: Toolkit, content: string, kind: Kind)
    ensures kind == Code ==>
      ComplexityScore(AnalyzeContent(tk, content, kind)) == CodeMetrics.AnalyzeCodeComplexity(content).score
  {
  }

  lemma TextScoreKept(tk: Toolkit, content: string, kind: Kind)
    ensures (kind != Code && |tk.tokenize(Lower(content))| > 0 && TextMetrics.Sentences(content) != [] &&
               TextMetrics.AnalyzeComplexity(tk, content).score != 0) ==>
      ComplexityScore(AnalyzeContent(tk, content, kind)) == TextMetrics.AnalyzeComplexity(tk, content).score
  {
  }
}

=== FILE: code_metrics.dfy ===
/** The code analysers: line-based complexity, quality and style scanners and the
    line/comment/word figures. Every scanner reads the code as its '\n'-separated
    lines and reports findings tagged with 1-based line numbers. */
module CodeMetrics {
  import opened Strings
  import opened Numeric
  import opened Collections
  import TextMetrics

  /** `code.split('\n')`. */
  function Lines(code: string): (r: seq<string>)
    ensures |r| == Occurrences(code, '\n') + 1
    ensures Join(r, "\n") == code
    ensures forall i :: 0 <= i < |r| ==> '\n' !in r[i]
  {
    JoinSplitOn(code, '\n');
    SplitOn(code, '\n')
  }

  /** What a scanner found on a line. */
  datatype Kind =
    | DeepNesting
    | TooLong(length: nat)
    | TodoComment
    | CommentedCode
    | ConsoleLog
    | InconsistentIndent
    | TrailingSpace

  /** The result list a kind is reported in: the complexity issues, the quality
      issues, the quality suggestions or the style issues. */
  datatype Section = ComplexityIssue | QualityIssue | QualitySuggestion | StyleIssue

  function SectionOf(c: Kind): Section {
    match c
    case DeepNesting | TooLong(_) => ComplexityIssue
    case TodoComment => QualityIssue
    case CommentedCode | ConsoleLog => QualitySuggestion
    case InconsistentIndent | TrailingSpace => StyleIssue
  }

  /** A finding at a 1-based line number; the source renders it as
      `Line <line>: <message>`. */
  datatype Finding = Finding(line: nat, kind: Kind)

  // ---------------------------------------------------------------------------
  // Findings line by line

  /** The findings of line `n`. */
  function Tag(n: nat, ks: seq<Kind>): (r: seq<Finding>)
    ensures |r| == |ks|
    ensures forall i :: 0 <= i < |r| ==> r[i] == Finding(n, ks[i])
  {
    seq(|ks|, i requires 0 <= i < |ks| => Finding(n, ks[i]))
  }

  /** What `f` finds on each line, the first line numbered `k`, in line order: the
      `lines.forEach((line, index) => ... push(...))` of every scanner. One finding
      per kind per line; PerLineLayout and PerLineMembers say where each one sits. */
  function PerLine(f: string -> seq<Kind>, k: nat, lines: seq<string>): (r: seq<Finding>)
    ensures |r| == KindsBefore(f, lines, |lines|)
    decreases |lines|
  {
    if lines == [] then []
    else Tag(k, f(lines[0])) + PerLine(f, k + 1, lines[1..])
  }

  /** A finding is listed exactly when its kind is found on the line it names. */
  lemma {:induction false} PerLineMembers(f: string -> seq<Kind>, k: nat, lines: seq<string>)
    ensures forall n: nat, c :: Finding(n, c) in PerLine(f, k, lines) <==> k <= n < k + |lines| && c in f(lines[n - k])
    ensures forall x :: x in PerLine(f, k, lines) ==> k <= x.line < k + |lines|
    decreases |lines|
  {
    if lines != [] {
      var rest := PerLine(f, k + 1, lines[1..]);
      PerLineMembers(f, k + 1, lines[1..]);
      PerLineStep(f, k, lines, rest);
      assert PerLine(f, k, lines) == Tag(k, f(lines[0])) + rest;
    }
  }

  lemma PerLineStep(f: string -> seq<Kind>, k: nat, lines: seq<string>, rest: seq<Finding>)
    requires lines != []
    requires forall n: nat, c :: Finding(n, c) in rest <==> k + 1 <= n < k + |lines| && c in f(lines[1..][n - (k + 1)])
    requires forall x :: x in rest ==> k + 1 <= x.line < k + |lines|
    ensures forall n: nat, c :: Finding(n, c) in Tag(k, f(lines[0])) + rest <==> k <= n < k + |lines| && c in f(lines[n - k])
    ensures forall x :: x in Tag(k, f(lines[0])) + rest ==> k <= x.line < k + |lines|
  {
    var head := Tag(k, f(lines[0]));
    forall n: nat, c
      ensures Finding(n, c) in head + rest <==> k <= n < k + |lines| && c in f(lines[n - k])
    {
      if n == k {
        assert Finding(n, c) !in rest;
        if c in f(lines[0]) {
          var i :| 0 <= i < |f(lines[0])| && f(lines[0])[i] == c;
          assert head[i] == Finding(n, c);
        }
      } else {
        assert Finding(n, c) !in head;
        if k + 1 <= n < k + |lines| {
          assert lines[1..][n - (k + 1)] == lines[n - k];
        }
      }
    }
  }

  /** A line yielding at most `b` kinds makes at most `b` findings per line. */
  lemma {:induction false} PerLineLength(f: string -> seq<Kind>, k: nat, lines: seq<string>, b: nat)
    requires forall l :: |f(l)| <= b
    ensures |PerLine(f, k, lines)| <= b * |lines|
    decreases |lines|
  {
    if lines != [] {
      PerLineLength(f, k + 1, lines[1..], b);
      MulSucc(b, |lines[1..]|);
    }
  }

  /** How many findings `f` makes on the first `i` lines. */
  function KindsBefore(f: string -> seq<Kind>, lines: seq<string>, i: nat): (r: nat)
    requires i <= |lines|
    decreases i
  {
    if i == 0 then 0 else |f(lines[0])| + KindsBefore(f, lines[1..], i - 1)
  }

  /** The `j`-th kind `f` yields on line `i` is listed right after the findings of
      the lines before it, tagged with the line's number. */
  predicate Placed(f: string -> seq<Kind>, k: nat, lines: seq<string>, i: nat, j: nat)
    requires i < |lines| && j < |f(lines[i])|
  {
    KindsBefore(f, lines, i) + j < |PerLine(f, k, lines)| &&
    PerLine(f, k, lines)[KindsBefore(f, lines, i) + j] == Finding(k + i, f(lines[i])[j])
  }

  /** The findings come line by line and, within a line, in the order `f` yields
      them, and there are no others. */
  lemma PerLineLayout(f: string -> seq<Kind>, k: nat, lines: seq<string>)
    ensures forall i: nat, j: nat :: i < |lines| && j < |f(lines[i])| ==> Placed(f, k, lines, i, j)
  {
    forall i: nat, j: nat | i < |lines| && j < |f(lines[i])|
      ensures Placed(f, k, lines, i, j)
    {
      PerLineAt(f, k, lines, i, j);
    }
  }

  /** The `j`-th kind of line `i` sits after the findings of the lines before it. */
  lemma {:induction false} PerLineAt(f: string -> seq<Kind>, k: nat, lines: seq<string>, i: nat, j: nat)
    requires i < |lines| && j < |f(lines[i])|
    ensures Placed(f, k, lines, i, j)
    decreases i
  {
    var head := Tag(k, f(lines[0]));
    var rest := PerLine(f, k + 1, lines[1..]);
    assert PerLine(f, k, lines) == head + rest;
    if i == 0 {
      AppendIndex(head, rest, j);
      assert head[j] == Finding(k, f(lines[0])[j]);
    } else {
      var before := KindsBefore(f, lines[1..], i - 1);
      assert KindsBefore(f, lines, i) == |head| + before;
      assert lines[1..][i - 1] == lines[i];
      PerLineAt(f, k + 1, lines[1..], i - 1, j);
      AppendIndex(head, rest, |head| + before + j);
    }
  }

  /** A scanner that yields one kind for each of two tests a line passes makes as many
      findings as there are lines passing the first test plus lines passing the
      second. */
  lemma {:induction false} PerLineCounts(f: string -> seq<Kind>, p: string -> bool, q: string -> bool, k: nat, lines: seq<string>)
    requires forall l :: |f(l)| == (if p(l) then 1 else 0) + (if q(l) then 1 else 0)
    ensures |PerLine(f, k, lines)| == Count(p, lines) + Count(q, lines)
    decreases |lines|
  {
    if lines != [] {
      PerLineCounts(f, p, q, k + 1, lines[1..]);
    }
  }

  /** A kind that `f` yields on exactly the lines passing `p` is listed for exactly
      those lines. */
  lemma KindFindings(f: string -> seq<Kind>, c: Kind, p: string -> bool, lines: seq<string>)
    requires forall l :: c in f(l) <==> p(l)
    ensures forall n: nat :: Finding(n, c) in PerLine(f, 1, lines) <==> 1 <= n <= |lines| && p(lines[n - 1])
  {
    PerLineMembers(f, 1, lines);
    forall n: nat
      ensures Finding(n, c) in PerLine(f, 1, lines) <==> 1 <= n <= |lines| && p(lines[n - 1])
    {
      if 1 <= n <= |lines| {
        assert c in f(lines[n - 1]) <==> p(lines[n - 1]);
      }
    }
  }

  /** A scanner whose kinds all belong to one section lists only findings of that
      section. */
  lemma FindingKinds(f: string -> seq<Kind>, section: Section, lines: seq<string>)
    requires forall l, c :: c in f(l) ==> SectionOf(c) == section
    ensures forall x :: x in PerLine(f, 1, lines) ==> SectionOf(x.kind) == section
  {
    PerLineMembers(f, 1, lines);
    forall x | x in PerLine(f, 1, lines)
      ensures SectionOf(x.kind) == section
    {
      assert Finding(x.line, x.kind) in PerLine(f, 1, lines);
      assert x.kind in f(lines[x.line - 1]);
    }
  }

  // ---------------------------------------------------------------------------
  // Complexity

  /** The keyword tests, each a case-sensitive substring test on the trimmed line. */
  predicate HasBranch(t: string) { Contains(t, "if") || Contains(t, "else") }
  predicate HasLoop(t: string) { Contains(t, "for") || Contains(t, "while") }
  predicate HasSwitch(t: string) { Contains(t, "switch") || Contains(t, "case") }
  predicate HasTry(t: string) { Contains(t, "try") || Contains(t, "catch") }

  /** The line mentions some control keyword. */
  predicate HasControl(line: string) {
    var t := Trim(line);
    HasBranch(t) || HasLoop(t) || HasSwitch(t) || HasTry(t)
  }

  /** A control rule: a trimmed line containing either keyword adds the weight. */
  datatype Rule = Rule(first: string, second: string, weight: nat)

  /** The four rules, in the order the source applies them. */
  const ControlRules: seq<Rule> := [
    Rule("if", "else", 1), Rule("for", "while", 2), Rule("switch", "case", 2), Rule("try", "catch", 1)]

  predicate Fires(rule: Rule, t: string) { Contains(t, rule.first) || Contains(t, rule.second) }

  /** The summed weight of the rules that fire on `t`. */
  function RulesWeight(rules: seq<Rule>, t: string): (w: nat)
    ensures w == 0 <==> forall i :: 0 <= i < |rules| ==> rules[i].weight == 0 || !Fires(rules[i], t)
  {
    if rules == [] then 0
    else
      assert forall i :: 1 <= i < |rules| ==> rules[i] == rules[1..][i - 1];
      (if Fires(rules[0], t) then rules[0].weight else 0) + RulesWeight(rules[1..], t)
  }

  /** What one line adds to the complexity: 1 for a branch, 2 for a loop, 2 for a
      switch, 1 for a try, each counted once however often its keywords occur. */
  function LineWeight(line: string): (w: nat)
    ensures var t := Trim(line);
      w == (if HasBranch(t) then 1 else 0) + (if HasLoop(t) then 2 else 0)
        + (if HasSwitch(t) then 2 else 0) + (if HasTry(t) then 1 else 0)
    ensures w <= 6
    ensures w == 0 <==> !HasControl(line)
  {
    var t := Trim(line);
    var rs := ControlRules;
    assert rs[1..][0] == rs[1] && rs[1..][1..] == rs[2..];
    assert rs[2..][0] == rs[2] && rs[2..][1..] == rs[3..];
    assert rs[3..][0] == rs[3] && rs[3..][1..] == [];
    assert RulesWeight(rs[3..], t) == if HasTry(t) then 1 else 0;
    assert RulesWeight(rs[2..], t) == (if HasSwitch(t) then 2 else 0) + RulesWeight(rs[3..], t);
    assert RulesWeight(rs[1..], t) == (if HasLoop(t) then 2 else 0) + RulesWeight(rs[2..], t);
    RulesWeight(rs, t)
  }

  /** The complexity of a list of lines: the sum of their weights. */
  function Weight(lines: seq<string>): (r: nat)
    ensures r <= 6 * |lines|
  {
    if lines == [] then 0 else LineWeight(lines[0]) + Weight(lines[1..])
  }

  /** The weight of two blocks of lines is the sum of their weights. */
  lemma {:induction false} WeightAppend(a: seq<string>, b: seq<string>)
    ensures Weight(a + b) == Weight(a) + Weight(b)
  {
    if a != [] {
      WeightAppend(a[1..], b);
      AppendTail(a, b);
    } else {
      assert a + b == b;
    }
  }

  /** The scan of analyzeCodeComplexity: a running total over the lines. */
  method ScanWeight(lines: seq<string>) returns (total: nat)
    ensures total == Weight(lines)
  {
    total := 0;
    var i := 0;
    while i < |lines|
      invariant 0 <= i <= |lines|
      invariant total == Weight(lines[..i])
    {
      WeightAppend(lines[..i], [lines[i]]);
      TakeSnoc(lines, i);
      assert Weight([lines[i]]) == LineWeight(lines[i]) + Weight([]);
      total := total + LineWeight(lines[i]);
      i := i + 1;
    }
    assert lines[..|lines|] == lines;
  }

  /** Every line with a control keyword adds at least one. */
  lemma {:induction false} ControlLinesBound(lines: seq<string>)
    ensures Count(HasControl, lines) <= Weight(lines)
  {
    if lines != [] {
      ControlLinesBound(lines[1..]);
    }
  }

  /** Indented by more than eight whitespace characters. */
  predicate DeepLine(line: string) { LeadingSpaces(line) > 8 }

  /** Longer than 120 characters. */
  predicate LongLine(line: string) { |line| > 120 }

  /** The deep-nesting and long-line findings of a line. */
  function ShapeKinds(line: string): (r: seq<Kind>)
    ensures |r| == (if DeepLine(line) then 1 else 0) + (if LongLine(line) then 1 else 0)
    ensures DeepNesting in r <==> DeepLine(line)
    ensures forall c :: c in r <==>
      (c == DeepNesting && LeadingSpaces(line) > 8) || (c == TooLong(|line|) && |line| > 120)
  {
    (if LeadingSpaces(line) > 8 then [DeepNesting] else [])
      + (if |line| > 120 then [TooLong(|line|)] else [])
  }

  datatype CodeComplexity = CodeComplexity(score: nat, level: TextMetrics.ComplexityLevel, issues: seq<Finding>)

  /** The level for a complexity score: High above 20, Medium above 10, else Low. */
  function CodeLevel(score: nat): (l: TextMetrics.ComplexityLevel)
    ensures l == TextMetrics.High <==> score > 20
    ensures l == TextMetrics.Low <==> score <= 10
  {
    if score > 20 then TextMetrics.High
    else if score > 10 then TextMetrics.Medium
    else TextMetrics.Low
  }

  /** analyzeCodeComplexity: the keyword weights summed over the lines, the level they
      reach, and the deep-nesting and long-line findings. */
  function AnalyzeCodeComplexity(code: string): (r: CodeComplexity)
    ensures r.score == Weight(Lines(code))
    ensures r.score <= 6 * |Lines(code)|
    ensures Count(HasControl, Lines(code)) <= r.score
    ensures r.level == TextMetrics.High <==> r.score > 20
    ensures r.level == TextMetrics.Medium <==> 10 < r.score <= 20
    ensures |r.issues| == Count(DeepLine, Lines(code)) + Count(LongLine, Lines(code))
    ensures forall n: nat :: Finding(n, DeepNesting) in r.issues <==>
      1 <= n <= |Lines(code)| && LeadingSpaces(Lines(code)[n - 1]) > 8
    ensures forall n: nat, m: nat :: Finding(n, TooLong(m)) in r.issues <==>
      1 <= n <= |Lines(code)| && m == |Lines(code)[n - 1]| > 120
    ensures forall x :: x in r.issues ==> x.kind.DeepNesting? || x.kind.TooLong?
  {
    var lines := Lines(code);
    ControlLinesBound(lines);
    ShapeFindings(lines);
    PerLineCounts(ShapeKinds, DeepLine, LongLine, 1, lines);
    var score := Weight(lines);
    CodeComplexity(score, CodeLevel(score), PerLine(ShapeKinds, 1, lines))
  }

  /** The deep-nesting and long-line findings of a list of lines, numbered from one. */
  lemma ShapeFindings(lines: seq<string>)
    ensures |PerLine(ShapeKinds, 1, lines)| <= 2 * |lines|
    ensures forall n: nat :: Finding(n, DeepNesting) in PerLine(ShapeKinds, 1, lines) <==>
      1 <= n <= |lines| && LeadingSpaces(lines[n - 1]) > 8
    ensures forall n: nat, m: nat :: Finding(n, TooLong(m)) in PerLine(ShapeKinds, 1, lines) <==>
      1 <= n <= |lines| && m == |lines[n - 1]| > 120
    ensures forall x :: x in PerLine(ShapeKinds, 1, lines) ==> x.kind.DeepNesting? || x.kind.TooLong?
  {
    PerLineLength(ShapeKinds, 1, lines, 2);
    KindFindings(ShapeKinds, DeepNesting, DeepLine, lines);
    TooLongFindings(lines);
    var issues := PerLine(ShapeKinds, 1, lines);
    PerLineMembers(ShapeKinds, 1, lines);
    forall x | x in issues
      ensures x.kind.DeepNesting? || x.kind.TooLong?
    {
      assert Finding(x.line, x.kind) in issues;
      assert x.kind in ShapeKinds(lines[x.line - 1]);
    }
  }

  lemma TooLongFindings(lines: seq<string>)
    ensures forall n: nat, m: nat :: Finding(n, TooLong(m)) in PerLine(ShapeKinds, 1, lines) <==>
      1 <= n <= |lines| && m == |lines[n - 1]| > 120
  {
    PerLineMembers(ShapeKinds, 1, lines);
    forall n: nat, m: nat
      ensures Finding(n, TooLong(m)) in PerLine(ShapeKinds, 1, lines) <==> 1 <= n <= |lines| && m == |lines[n - 1]| > 120
    {
      if 1 <= n <= |lines| {
        assert TooLong(m) in ShapeKinds(lines[n - 1]) <==> m == |lines[n - 1]| > 120;
      }
    }
  }

  /** More than ten lines with control keywords never rate Low. */
  lemma ManyControlLinesNotLow(code: string)
    requires Count(HasControl, Lines(code)) > 10
    ensures AnalyzeCodeComplexity(code).level != TextMetrics.Low
    ensures AnalyzeCodeComplexity(code).score > 10
  {
  }

  // ---------------------------------------------------------------------------
  // Quality

  /** A `//` comment line with something after the slashes. */
  predicate IsCommentedCode(line: string) {
    var t := Trim(line);
    StartsWith(t, "//") && |t| > 2
  }

  /** "todo" in any letter case. */
  predicate HasTodo(line: string) { Contains(Lower(Trim(line)), "todo") }

  predicate HasConsoleLog(line: string) { Contains(Trim(line), "console.log") }

  function TodoKinds(line: string): (r: seq<Kind>)
    ensures |r| == if HasTodo(line) then 1 else 0
    ensures TodoComment in r <==> HasTodo(line)
    ensures forall c :: c in r ==> SectionOf(c) == QualityIssue
  {
    if HasTodo(line) then [TodoComment] else []
  }

  /** A line's suggestions: commented code first, then console.log. */
  function SuggestionKinds(line: string): (r: seq<Kind>)
    ensures |r| == (if IsCommentedCode(line) then 1 else 0) + (if HasConsoleLog(line) then 1 else 0)
    ensures CommentedCode in r <==> IsCommentedCode(line)
    ensures ConsoleLog in r <==> HasConsoleLog(line)
    ensures forall c :: c in r ==> SectionOf(c) == QualitySuggestion
  {
    (if IsCommentedCode(line) then [CommentedCode] else [])
      + (if HasConsoleLog(line) then [ConsoleLog] else [])
  }

  datatype CodeQuality = CodeQuality(issues: seq<Finding>, suggestions: seq<Finding>, score: int)

  /** A score of 100 less `penalty`, never below zero. */
  function Clamped(penalty: nat): (s: int)
    ensures 0 <= s <= 100
    ensures s == 100 <==> penalty == 0
    ensures s == 0 <==> penalty >= 100
    ensures s > 0 ==> s + penalty == 100
  {
    Max(0, 100 - penalty)
  }

  /** The TODO findings of analyzeCodeQuality: one per line whose trimmed text contains
      "todo" in any letter case. */
  function TodoFindings(code: string): (r: seq<Finding>)
    ensures |r| == Count(HasTodo, Lines(code))
    ensures forall n: nat :: Finding(n, TodoComment) in r <==>
      1 <= n <= |Lines(code)| && HasTodo(Lines(code)[n - 1])
    ensures forall x :: x in r ==> SectionOf(x.kind) == QualityIssue
  {
    TodosOf(Lines(code));
    PerLine(TodoKinds, 1, Lines(code))
  }

  lemma TodosOf(lines: seq<string>)
    ensures |PerLine(TodoKinds, 1, lines)| == Count(HasTodo, lines)
    ensures forall n: nat :: Finding(n, TodoComment) in PerLine(TodoKinds, 1, lines) <==>
      1 <= n <= |lines| && HasTodo(lines[n - 1])
    ensures forall x :: x in PerLine(TodoKinds, 1, lines) ==> SectionOf(x.kind) == QualityIssue
  {
    PerLineCounts(TodoKinds, HasTodo, _ => false, 1, lines);
    KindFindings(TodoKinds, TodoComment, HasTodo, lines);
    FindingKinds(TodoKinds, QualityIssue, lines);
  }

  /** The suggestions of analyzeCodeQuality: commented-out code and console.log calls. */
  function SuggestionFindings(code: string): (r: seq<Finding>)
    ensures |r| == Count(IsCommentedCode, Lines(code)) + Count(HasConsoleLog, Lines(code))
    ensures forall n: nat :: Finding(n, CommentedCode) in r <==>
      1 <= n <= |Lines(code)| && IsCommentedCode(Lines(code)[n - 1])
    ensures forall n: nat :: Finding(n, ConsoleLog) in r <==>
      1 <= n <= |Lines(code)| && HasConsoleLog(Lines(code)[n - 1])
    ensures forall x :: x in r ==> SectionOf(x.kind) == QualitySuggestion
  {
    SuggestionsOf(Lines(code));
    PerLine(SuggestionKinds, 1, Lines(code))
  }

  lemma SuggestionsOf(lines: seq<string>)
    ensures |PerLine(SuggestionKinds, 1, lines)| == Count(IsCommentedCode, lines) + Count(HasConsoleLog, lines)
    ensures forall n: nat :: Finding(n, CommentedCode) in PerLine(SuggestionKinds, 1, lines) <==>
      1 <= n <= |lines| && IsCommentedCode(lines[n - 1])
    ensures forall n: nat :: Finding(n, ConsoleLog) in PerLine(SuggestionKinds, 1, lines) <==>
      1 <= n <= |lines| && HasConsoleLog(lines[n - 1])
    ensures forall x :: x in PerLine(SuggestionKinds, 1, lines) ==> SectionOf(x.kind) == QualitySuggestion
  {
    PerLineCounts(SuggestionKinds, IsCommentedCode, HasConsoleLog, 1, lines);
    KindFindings(SuggestionKinds, CommentedCode, IsCommentedCode, lines);
    KindFindings(SuggestionKinds, ConsoleLog, HasConsoleLog, lines);
    FindingKinds(SuggestionKinds, QualitySuggestion, lines);
  }

  /** analyzeCodeQuality: each issue costs 5 points and each suggestion 2, and the score
      stays in [0, 100]. */
  function AnalyzeCodeQuality(code: string): (r: CodeQuality)
    ensures r.issues == TodoFindings(code) && r.suggestions == SuggestionFindings(code)
    ensures r.score == (if 5 * |r.issues| + 2 * |r.suggestions| < 100 then 100 - 5 * |r.issues| - 2 * |r.suggestions| else 0)
    ensures 0 <= r.score <= 100
    ensures r.score == 100 <==> r.issues == [] && r.suggestions == []
  {
    var issues := TodoFindings(code);
    var suggestions := SuggestionFindings(code);
    CodeQuality(issues, suggestions, Clamped(5 * |issues| + 2 * |suggestions|))
  }

  // ---------------------------------------------------------------------------
  // Style

  /** One leading space not followed by another; on a one-character line the second
      character is missing, which also counts as "not a space". */
  predicate BadIndent(line: string) {
    |line| > 0 && line[0] == ' ' && (|line| == 1 || line[1] != ' ')
  }

  predicate TrailingBlank(line: string) { EndsWith(line, " ") }

  function StyleKinds(line: string): (r: seq<Kind>)
    ensures |r| == (if BadIndent(line) then 1 else 0) + (if TrailingBlank(line) then 1 else 0)
    ensures InconsistentIndent in r <==> BadIndent(line)
    ensures TrailingSpace in r <==> TrailingBlank(line)
    ensures forall c :: c in r ==> SectionOf(c) == StyleIssue
  {
    (if BadIndent(line) then [InconsistentIndent] else [])
      + (if TrailingBlank(line) then [TrailingSpace] else [])
  }

  datatype CodeStyle = CodeStyle(issues: seq<Finding>, score: int)

  /** analyzeCodeStyle: single-space indents and trailing spaces, 5 points each. */
  function AnalyzeCodeStyle(code: string): (r: CodeStyle)
    ensures |r.issues| == Count(BadIndent, Lines(code)) + Count(TrailingBlank, Lines(code))
    ensures forall n: nat :: Finding(n, InconsistentIndent) in r.issues <==>
      1 <= n <= |Lines(code)| && BadIndent(Lines(code)[n - 1])
    ensures forall n: nat :: Finding(n, TrailingSpace) in r.issues <==>
      1 <= n <= |Lines(code)| && TrailingBlank(Lines(code)[n - 1])
    ensures forall x :: x in r.issues ==> SectionOf(x.kind) == StyleIssue
    ensures 0 <= r.score <= 100
    ensures r.score == (if |r.issues| < 20 then 100 - 5 * |r.issues| else 0)
    ensures r.score == 100 <==> r.issues == []
  {
    StylesOf(Lines(code));
    var issues := PerLine(StyleKinds, 1, Lines(code));
    CodeStyle(issues, Clamped(5 * |issues|))
  }

  lemma StylesOf(lines: seq<string>)
    ensures |PerLine(StyleKinds, 1, lines)| == Count(BadIndent, lines) + Count(TrailingBlank, lines)
    ensures forall n: nat :: Finding(n, InconsistentIndent) in PerLine(StyleKinds, 1, lines) <==>
      1 <= n <= |lines| && BadIndent(lines[n - 1])
    ensures forall n: nat :: Finding(n, TrailingSpace) in PerLine(StyleKinds, 1, lines) <==>
      1 <= n <= |lines| && TrailingBlank(lines[n - 1])
    ensures forall x :: x in PerLine(StyleKinds, 1, lines) ==> SectionOf(x.kind) == StyleIssue
  {
    PerLineCounts(StyleKinds, BadIndent, TrailingBlank, 1, lines);
    KindFindings(StyleKinds, InconsistentIndent, BadIndent, lines);
    KindFindings(StyleKinds, TrailingSpace, TrailingBlank, lines);
    FindingKinds(StyleKinds, StyleIssue, lines);
  }

  /** A line holding one space is flagged twice: its missing second character is not a
      space, and it ends in a space. */
  lemma LoneSpaceFlaggedTwice()
    ensures Finding(1, InconsistentIndent) in AnalyzeCodeStyle(" ").issues
    ensures Finding(1, TrailingSpace) in AnalyzeCodeStyle(" ").issues
    ensures AnalyzeCodeStyle(" ").score == 90
  {
    assert Lines(" ") == [" "];
    assert BadIndent(" ") && TrailingBlank(" ");
    assert |AnalyzeCodeStyle(" ").issues| == 2;
  }

  // ---------------------------------------------------------------------------
  // Figures

  /** A line with something besides whitespace. */
  predicate IsNonBlank(line: string) { Trim(line) != [] }

  /** A line whose trimmed text opens a line or block comment. */
  predicate IsComment(line: string) {
    StartsWith(Trim(line), "//") || StartsWith(Trim(line), "/*")
  }

  datatype CodeFigures = CodeFigures(
    totalLines: nat, nonEmptyLines: nat, commentLines: nat, commentRatio: real,
    wordCount: nat, characterCount: nat, avgLineLength: int)

  /** calculateCodeMetrics: the line counts, the comment share rounded to two
      decimals, the whitespace-separated words, the characters and the rounded mean
      line length. */
  function CalculateCodeMetrics(code: string): (r: CodeFigures)
    ensures r.totalLines == Occurrences(code, '\n') + 1
    ensures r.nonEmptyLines == Count(IsNonBlank, Lines(code))
    ensures r.commentLines == Count(IsComment, Lines(code))
    ensures r.commentRatio == Round2(r.commentLines as real / r.totalLines as real)
    ensures r.wordCount == |Words(code)|
    ensures r.avgLineLength == Round(|code| as real / r.totalLines as real)
    ensures r.commentLines <= r.nonEmptyLines <= r.totalLines
    ensures r.nonEmptyLines == 0 <==> !HasNonSpace(code)
    ensures 0.0 <= r.commentRatio <= 1.0 && WholePercent(r.commentRatio)
    ensures r.wordCount == 0 <==> !HasNonSpace(code)
    ensures r.characterCount == |code|
    ensures 0 <= r.avgLineLength <= |code|
    ensures r.totalLines == 1 ==> r.avgLineLength == |code|
  {
    var lines := Lines(code);
    var total := |lines|;
    var comments := Count(IsComment, lines);
    CommentsAreNonBlank(lines);
    RatioFigure(comments, total);
    WordsEmptyIff(code);
    BlankLines(code);
    AverageWithin(|code|, total);
    CodeFigures(total, Count(IsNonBlank, lines), comments, Round2(comments as real / total as real),
      |Words(code)|, |code|, Round(|code| as real / total as real))
  }

  /** Every comment line is non-blank, so there are no more comment lines than
      non-blank ones. */
  lemma CommentsAreNonBlank(lines: seq<string>)
    ensures Count(IsComment, lines) <= Count(IsNonBlank, lines)
  {
    forall l | IsComment(l)
      ensures IsNonBlank(l)
    {
      assert |Trim(l)| >= 2;
    }
    CountMonotone(IsComment, IsNonBlank, lines);
  }

  /** The rounded comment ratio is a whole percentage in [0, 1]. */
  lemma RatioFigure(comments: nat, total: nat)
    requires comments <= total && total >= 1
    ensures 0.0 <= Round2(comments as real / total as real) <= 1.0
    ensures WholePercent(Round2(comments as real / total as real))
  {
    RatioUnit(comments, total);
    Round2Unit(comments as real / total as real);
    Round2WholePercent(comments as real / total as real);
  }

  /** The lines are all blank exactly when the code is. */
  lemma BlankLines(code: string)
    ensures Count(IsNonBlank, Lines(code)) == 0 <==> !HasNonSpace(code)
  {
    var lines := Lines(code);
    forall j | 0 <= j < |lines|
      ensures IsNonBlank(lines[j]) <==> HasNonSpace(lines[j])
    {
      TrimNonEmptyIff(lines[j]);
    }
    JoinHasNonSpace(lines);
  }

  /** Joining with newlines adds no non-space character. */
  lemma {:induction false} JoinHasNonSpace(lines: seq<string>)
    ensures HasNonSpace(Join(lines, "\n")) <==> exists j :: 0 <= j < |lines| && HasNonSpace(lines[j])
  {
    if |lines| > 1 {
      JoinHasNonSpace(lines[1..]);
      HasNonSpaceAppend(lines[0], "\n");
      HasNonSpaceAppend(lines[0] + "\n", Join(lines[1..], "\n"));
      assert !HasNonSpace("\n") by { assert IsSpace("\n"[0]); }
      assert forall j :: 1 <= j < |lines| ==> lines[j] == lines[1..][j - 1];
    }
  }

  /** The rounded average line length lies between 0 and the character count, and is
      the character count for a single line. */
  lemma AverageWithin(chars: nat, lines: nat)
    requires lines >= 1
    ensures 0 <= Round(chars as real / lines as real) <= chars
    ensures lines == 1 ==> Round(chars as real / lines as real) == chars
  {
    assert chars as real / lines as real <= chars as real;
    RoundWithin(chars as real / lines as real, 0, chars);
    if lines == 1 {
      RoundOfInt(chars);
    }
  }
}

=== FILE: collections.dfy ===
/** Counting over sequences, shared by the analysers. */
module Collections {
  import opened Wrappers

  /** How many of `xs` satisfy `p`: the length of `xs.filter(p)`. */
  function Count<A>(p: A -> bool, xs: seq<A>): (r: nat)
    ensures r <= |xs|
    ensures r == 0 <==> forall k :: 0 <= k < |xs| ==> !p(xs[k])
  {
    if xs == [] then 0
    else
      assert forall k :: 1 <= k < |xs| ==> xs[k] == xs[1..][k - 1];
      (if p(xs[0]) then 1 else 0) + Count(p, xs[1..])
  }

  /** A weaker filter keeps at least as many elements. */
  lemma {:induction false} CountMonotone<A>(p: A -> bool, q: A -> bool, xs: seq<A>)
    requires forall x :: p(x) ==> q(x)
    ensures Count(p, xs) <= Count(q, xs)
  {
    if xs != [] {
      CountMonotone(p, q, xs[1..]);
    }
  }

  /** A sequence with an element that fails `p` has fewer than `|xs|` that satisfy it. */
  lemma {:induction false} CountMissing<A>(p: A -> bool, xs: seq<A>, i: nat)
    requires i < |xs| && !p(xs[i])
    ensures Count(p, xs) < |xs|
  {
    if i > 0 {
      CountMissing(p, xs[1..], i - 1);
    }
  }

  /** The indices of the elements of `xs` that satisfy `p`, ascending. */
  function Positions<A>(xs: seq<A>, p: A -> bool): (r: seq<nat>)
    ensures |r| <= |xs|
    ensures forall i: nat :: i in r <==> i < |xs| && p(xs[i])
    ensures forall j :: 0 <= j < |r| ==> r[j] < |xs|
  {
    if xs == [] then []
    else
      var init := xs[..|xs| - 1];
      assert forall i :: 0 <= i < |init| ==> init[i] == xs[i];
      Positions(init, p) + (if p(xs[|xs| - 1]) then [|xs| - 1] else [])
  }

  /** No position is listed exactly when no element satisfies `p`. */
  lemma PositionsEmpty<A>(xs: seq<A>, p: A -> bool)
    ensures Positions(xs, p) == [] <==> forall i :: 0 <= i < |xs| ==> !p(xs[i])
  {
    var ps := Positions(xs, p);
    if ps != [] {
      assert ps[0] in ps;
    } else {
      forall i | 0 <= i < |xs|
        ensures !p(xs[i])
      {
        assert i !in ps;
      }
    }
  }

  /** `xs.filter(p)`: the elements of `xs` that satisfy `p`, in their order. Each
      passing element sits at the index given by the passing elements before it
      (`KeptAt`), so with the length the result is fixed element by element. */
  function Filter<A(==,!new)>(p: A -> bool, xs: seq<A>): (r: seq<A>)
    ensures |r| == Count(p, xs)
    ensures forall x :: x in r <==> x in xs && p(x)
    ensures forall k :: 0 <= k < |xs| ==> KeptAt(p, xs, r, k)
  {
    if xs == [] then []
    else
      var rest := Filter(p, xs[1..]);
      assert forall x :: x in xs <==> x == xs[0] || x in xs[1..];
      var r := (if p(xs[0]) then [xs[0]] else []) + rest;
      FilterPlaces(p, xs, rest, r);
      r
  }

  /** When `xs[k]` passes `p`, it sits in `r` after the earlier elements that pass. */
  predicate KeptAt<A(==)>(p: A -> bool, xs: seq<A>, r: seq<A>, k: nat)
    requires k < |xs|
  {
    p(xs[k]) ==> Count(p, xs[..k]) < |r| && r[Count(p, xs[..k])] == xs[k]
  }

  lemma FilterPlaces<A>(p: A -> bool, xs: seq<A>, rest: seq<A>, r: seq<A>)
    requires xs != [] && |rest| == Count(p, xs[1..])
    requires forall k :: 0 <= k < |xs[1..]| ==> KeptAt(p, xs[1..], rest, k)
    requires r == (if p(xs[0]) then [xs[0]] else []) + rest
    ensures forall k :: 0 <= k < |xs| ==> KeptAt(p, xs, r, k)
  {
    forall k | 0 <= k < |xs|
      ensures KeptAt(p, xs, r, k)
    {
      if k == 0 {
        assert xs[..0] == [];
      } else if p(xs[k]) {
        assert KeptAt(p, xs[1..], rest, k - 1);
        CountPrefixStep(p, xs, k);
        assert xs[1..][k - 1] == xs[k];
      }
    }
  }

  /** The `i`-th passing element of `xs`: the one with `i` passing elements before it. */
  lemma {:induction false} NthPassing<A>(p: A -> bool, xs: seq<A>, i: nat) returns (k: nat)
    requires i < Count(p, xs)
    ensures k < |xs| && p(xs[k]) && Count(p, xs[..k]) == i
  {
    if p(xs[0]) && i == 0 {
      k := 0;
      assert xs[..0] == [];
    } else {
      var k' := NthPassing(p, xs[1..], if p(xs[0]) then i - 1 else i);
      k := k' + 1;
      CountPrefixStep(p, xs, k);
      assert xs[1..][k'] == xs[k];
    }
  }

  /** Filter's contract fixes its result: any sequence of the right length that holds
      each passing element where `KeptAt` puts it is `xs.filter(p)`. */
  lemma FilterUnique<A(!new)>(p: A -> bool, xs: seq<A>, r: seq<A>)
    requires |r| == Count(p, xs)
    requires forall k :: 0 <= k < |xs| ==> KeptAt(p, xs, r, k)
    ensures r == Filter(p, xs)
  {
    var f := Filter(p, xs);
    forall i | 0 <= i < |r|
      ensures r[i] == f[i]
    {
      var k := NthPassing(p, xs, i);
      assert KeptAt(p, xs, r, k) && KeptAt(p, xs, f, k);
    }
  }

  /** Filtering a concatenation filters each part. */
  lemma {:induction false} FilterAppend<A(!new)>(p: A -> bool, a: seq<A>, b: seq<A>)
    ensures Filter(p, a + b) == Filter(p, a) + Filter(p, b)
  {
    if a == [] {
      assert a + b == b;
    } else {
      var h := if p(a[0]) then [a[0]] else [];
      var ab := a + b;
      assert ab[0] == a[0] && ab[1..] == a[1..] + b;
      FilterAppend(p, a[1..], b);
      calc {
        Filter(p, ab);
        h + Filter(p, a[1..] + b);
        h + (Filter(p, a[1..]) + Filter(p, b));
        (h + Filter(p, a[1..])) + Filter(p, b);
      }
    }
  }

  /** A sequence whose every element passes is its own filter. */
  lemma {:induction false} FilterAll<A(!new)>(p: A -> bool, xs: seq<A>)
    requires forall k :: 0 <= k < |xs| ==> p(xs[k])
    ensures Filter(p, xs) == xs
  {
    if xs != [] {
      FilterAll(p, xs[1..]);
    }
  }

  /** Counting over a non-empty prefix: its head, then the rest of it. */
  lemma CountPrefixStep<A>(p: A -> bool, xs: seq<A>, k: nat)
    requires 0 < k <= |xs|
    ensures Count(p, xs[..k]) == (if p(xs[0]) then 1 else 0) + Count(p, xs[1..][..k - 1])
  {
    assert xs[..k][0] == xs[0];
    assert xs[..k][1..] == xs[1..][..k - 1];
  }

  /** The test "`f` yields a value". */
  function Yields<A, T>(f: A -> Option<T>): A -> bool {
    x => f(x).Some?
  }

  /** An element of a concatenation comes from the first part or the second. */
  lemma AppendIndex<A>(a: seq<A>, b: seq<A>, n: nat)
    requires n < |a| + |b|
    ensures (a + b)[n] == if n < |a| then a[n] else b[n - |a|]
  {
  }

  /** Dropping the head of a concatenation with a non-empty first part. */
  lemma AppendTail<A>(a: seq<A>, b: seq<A>)
    requires a != []
    ensures (a + b)[0] == a[0]
    ensures (a + b)[1..] == a[1..] + b
  {
  }

  /** A prefix grown by the next element. */
  lemma TakeSnoc<A>(s: seq<A>, i: nat)
    requires i < |s|
    ensures s[..i] + [s[i]] == s[..i + 1]
  {
  }

  /** What is in the tail is in the sequence. */
  lemma InTail<A>(s: seq<A>, x: A)
    requires s != [] && x in s[1..]
    ensures x in s
  {
    var j :| 0 <= j < |s[1..]| && s[1..][j] == x;
    assert s[j + 1] == x;
  }
}

=== FILE: feedback.dfy ===
/** generateFeedback: a small rule table over the sentiment, readability and
    vocabulary results, and an overall score that is the rounded mean of three
    numbers. */
module Feedback {
  import opened Numeric
  import opened TextMetrics

  /** The fixed remarks the rules can emit. */
  datatype Note =
    | PositiveTone        // strength: positive tone and engagement
    | GoodReadability     // strength: good readability level
    | RichVocabulary      // strength: rich vocabulary and complex ideas
    | NegativeTone        // weakness: negative tone
    | HardToRead          // weakness: text is difficult to read
    | NeutralLanguage     // suggestion: use more neutral or positive language
    | SimplerSentences    // suggestion: simplify sentences, use shorter words
    | VariedVocabulary    // suggestion: use more varied vocabulary

  datatype Report = Report(strengths: seq<Note>, weaknesses: seq<Note>, suggestions: seq<Note>, overallScore: int)

  /** Position of a note's rule in the table: sentiment, then readability, then
      vocabulary. */
  function RuleOrder(n: Note): (r: nat)
    ensures r < 3
  {
    match n
    case PositiveTone | NegativeTone | NeutralLanguage => 0
    case GoodReadability | HardToRead | SimplerSentences => 1
    case RichVocabulary | VariedVocabulary => 2
  }

  /** The notes appear in the order of the rules that produced them. */
  predicate InRuleOrder(ns: seq<Note>) {
    forall i, j :: 0 <= i < j < |ns| ==> RuleOrder(ns[i]) < RuleOrder(ns[j])
  }

  /** The sentiment score counted in the mean: 80 for a positive tone, else 60. */
  function ToneScore(s: Sentiment): (r: int)
    ensures r == 80 || r == 60
    ensures r == 80 <==> s.score > 0
  {
    if s.score > 0 then 80 else 60
  }

  /** The rounded mean of three numbers lies between the smallest and the largest. */
  lemma MeanWithin(a: int, b: int, c: int)
    ensures Min(a, Min(b, c)) <= Round((a + b + c) as real / 3.0) <= Max(a, Max(b, c))
  {
    var lo := Min(a, Min(b, c));
    var hi := Max(a, Max(b, c));
    assert 3 * lo <= a + b + c <= 3 * hi;
    assert lo as real <= (a + b + c) as real / 3.0 <= hi as real;
    RoundWithin((a + b + c) as real / 3.0, lo, hi);
  }

  /** The strengths: a positive tone, easy reading, a rich vocabulary. */
  function Strengths(s: Sentiment, rd: Readability, cx: Complexity): (r: seq<Note>)
    ensures PositiveTone in r <==> s.score > 0
    ensures GoodReadability in r <==> rd.score > 70
    ensures RichVocabulary in r <==> cx.level == High
    ensures forall n :: n in r ==> n in {PositiveTone, GoodReadability, RichVocabulary}
    ensures InRuleOrder(r)
  {
    (if s.score > 0 then [PositiveTone] else [])
      + (if rd.score >= 30 && rd.score > 70 then [GoodReadability] else [])
      + (if cx.level == High then [RichVocabulary] else [])
  }

  /** The weaknesses: a clearly negative tone (only when the tone is not positive),
      hard reading. */
  function Weaknesses(s: Sentiment, rd: Readability): (r: seq<Note>)
    ensures NegativeTone in r <==> s.score < -2
    ensures HardToRead in r <==> rd.score < 30
    ensures forall n :: n in r ==> n in {NegativeTone, HardToRead}
    ensures InRuleOrder(r)
  {
    (if s.score <= 0 && s.score < -2 then [NegativeTone] else [])
      + (if rd.score < 30 then [HardToRead] else [])
  }

  /** The suggestions that go with the weaknesses, and one for a plain vocabulary. */
  function Suggestions(s: Sentiment, rd: Readability, cx: Complexity): (r: seq<Note>)
    ensures NeutralLanguage in r <==> s.score < -2
    ensures SimplerSentences in r <==> rd.score < 30
    ensures VariedVocabulary in r <==> cx.level == Low
    ensures forall n :: n in r ==> n in {NeutralLanguage, SimplerSentences, VariedVocabulary}
    ensures InRuleOrder(r)
  {
    (if s.score <= 0 && s.score < -2 then [NeutralLanguage] else [])
      + (if rd.score < 30 then [SimplerSentences] else [])
      + (if cx.level == Low then [VariedVocabulary] else [])
  }

  /** The rounded mean of the tone score and the two analysis scores: the integer
      nearest to a third of their sum, halves rounding up. */
  function OverallScore(s: Sentiment, rd: Readability, cx: Complexity): (r: int)
    ensures 6 * r - 3 <= 2 * (ToneScore(s) + rd.score + cx.score) < 6 * r + 3
    ensures Min(ToneScore(s), Min(rd.score, cx.score)) <= r <= Max(ToneScore(s), Max(rd.score, cx.score))
  {
    MeanWithin(ToneScore(s), rd.score, cx.score);
    Round((ToneScore(s) + rd.score + cx.score) as real / 3.0)
  }

  /** generateFeedback. */
  function GenerateFeedback(s: Sentiment, rd: Readability, cx: Complexity): (r: Report)
    ensures PositiveTone in r.strengths <==> s.score > 0
    ensures NegativeTone in r.weaknesses <==> s.score < -2
    ensures NeutralLanguage in r.suggestions <==> s.score < -2
    ensures HardToRead in r.weaknesses <==> rd.score < 30
    ensures SimplerSentences in r.suggestions <==> rd.score < 30
    ensures GoodReadability in r.strengths <==> rd.score > 70
    ensures RichVocabulary in r.strengths <==> cx.level == High
    ensures VariedVocabulary in r.suggestions <==> cx.level == Low
    ensures forall n :: n in r.strengths ==> n in {PositiveTone, GoodReadability, RichVocabulary}
    ensures forall n :: n in r.weaknesses ==> n in {NegativeTone, HardToRead}
    ensures forall n :: n in r.suggestions ==> n in {NeutralLanguage, SimplerSentences, VariedVocabulary}
    ensures InRuleOrder(r.strengths) && InRuleOrder(r.weaknesses) && InRuleOrder(r.suggestions)
    ensures r.overallScore == Round((ToneScore(s) + rd.score + cx.score) as real / 3.0)
    ensures Min(ToneScore(s), Min(rd.score, cx.score)) <= r.overallScore <= Max(ToneScore(s), Max(rd.score, cx.score))
  {
    Report(Strengths(s, rd, cx), Weaknesses(s, rd), Suggestions(s, rd, cx), OverallScore(s, rd, cx))
  }

  /** When the three scores agree, the overall score is that score. */
  lemma AgreeingScores(s: Sentiment, rd: Readability, cx: Complexity)
    requires rd.score == cx.score == ToneScore(s)
    ensures GenerateFeedback(s, rd, cx).overallScore == rd.score
  {
    MeanWithin(ToneScore(s), rd.score, cx.score);
  }
}

=== FILE: keywords.dfy ===
/** extractKeywords: the lower-cased tokens that are longer than three characters,
    not stop words and made of letters only are tallied in a plain object, whose
    entries are sorted by descending count and cut to the first ten. */
module Keywords {
  import opened Wrappers
  import opened Strings
  import opened Sorting
  import opened Nlp

  /** The fixed stop-word list. */
  const StopWords: set<string> := {
    "the", "a", "an", "and", "or", "but", "in", "on", "at", "to", "for", "of", "with", "by",
    "is", "are", "was", "were", "be", "been", "being", "have", "has", "had", "do", "does",
    "did", "will", "would", "could", "should", "may", "might", "must", "can", "this", "that",
    "these", "those", "i", "you", "he", "she", "it", "we", "they", "me", "him", "her", "us", "them"
  }

  /** Number of keywords returned. */
  const MaxKeywords: nat := 10

  /** The filter: longer than three characters, not a stop word, letters only. */
  predicate IsCandidate(w: string) {
    |w| > 3 && w !in StopWords && forall i :: 0 <= i < |w| ==> IsAsciiLetter(w[i])
  }

  /** The tokens the filter keeps, in order. */
  function Candidates(ws: seq<string>): (r: seq<string>)
    ensures |r| <= |ws|
    ensures forall i :: 0 <= i < |r| ==> IsCandidate(r[i])
  {
    if ws == [] then []
    else Candidates(ws[..|ws| - 1]) + (if IsCandidate(ws[|ws| - 1]) then [ws[|ws| - 1]] else [])
  }

  /** How often `w` occurs in `ws`. */
  function Occ(ws: seq<string>, w: string): (r: nat)
    ensures r <= |ws|
    ensures r > 0 <==> w in ws
  {
    if ws == [] then 0
    else
      assert ws == ws[..|ws| - 1] + [ws[|ws| - 1]];
      Occ(ws[..|ws| - 1], w) + (if ws[|ws| - 1] == w then 1 else 0)
  }

  /** The filter keeps every occurrence of a candidate word. */
  lemma {:induction false} OccCandidates(ws: seq<string>, w: string)
    requires IsCandidate(w)
    ensures Occ(Candidates(ws), w) == Occ(ws, w)
  {
    if ws != [] {
      var p := ws[..|ws| - 1];
      var x := ws[|ws| - 1];
      OccCandidates(p, w);
      var c := Candidates(p);
      if IsCandidate(x) {
        assert (c + [x])[..|c + [x]| - 1] == c;
      } else {
        assert c + [] == c;
      }
    }
  }

  /** Index of the first occurrence of `w`, or `|ws|` when absent. */
  function FirstIndex(ws: seq<string>, w: string): (r: nat)
    ensures r <= |ws|
    ensures r < |ws| <==> w in ws
    ensures r < |ws| ==> ws[r] == w
  {
    if ws == [] then 0 else if ws[0] == w then 0 else 1 + FirstIndex(ws[1..], w)
  }

  /** Appending does not move first occurrences, and a new word comes last. */
  lemma {:induction false} FirstIndexAppend(ws: seq<string>, x: string, w: string)
    ensures w in ws ==> FirstIndex(ws + [x], w) == FirstIndex(ws, w)
    ensures w !in ws && w == x ==> FirstIndex(ws + [x], w) == |ws|
  {
    if ws != [] {
      assert (ws + [x])[1..] == ws[1..] + [x];
      FirstIndexAppend(ws[1..], x, w);
    } else {
      assert [x][0] == x;
    }
  }

  // ---------------------------------------------------------------------------
  // The tally

  /** An own property of the tally object: a word and its count. */
  datatype Entry = Entry(word: string, frequency: nat)

  function Frequency(e: Entry): real { e.frequency as real }

  predicate Has(es: seq<Entry>, w: string) {
    exists i :: 0 <= i < |es| && es[i].word == w
  }

  predicate DistinctWords(es: seq<Entry>) {
    forall i, j :: 0 <= i < j < |es| ==> es[i].word != es[j].word
  }

  /** Sum of the counts. */
  function Sum(es: seq<Entry>): nat {
    if es == [] then 0 else es[0].frequency + Sum(es[1..])
  }

  /** `freq[w] = (freq[w] || 0) + 1` on an object holding only counts: the entry of
      `w` goes up by one, or a new entry with count one is added at the end. */
  function Bump(es: seq<Entry>, w: string): (r: seq<Entry>)
    requires DistinctWords(es)
    ensures |r| == if Has(es, w) then |es| else |es| + 1
    ensures forall i :: 0 <= i < |es| ==>
      r[i].word == es[i].word && r[i].frequency == es[i].frequency + (if es[i].word == w then 1 else 0)
    ensures !Has(es, w) ==> r[|es|] == Entry(w, 1)
  {
    if es == [] then [Entry(w, 1)]
    else if es[0].word == w then
      assert !Has(es[1..], w) by {
        assert forall i :: 0 <= i < |es[1..]| ==> es[1..][i] == es[i + 1];
      }
      [Entry(w, es[0].frequency + 1)] + es[1..]
    else
      var rest := Bump(es[1..], w);
      assert Has(es, w) <==> Has(es[1..], w) by {
        assert forall i :: 0 <= i < |es[1..]| ==> es[1..][i] == es[i + 1];
        if Has(es, w) {
          var i :| 0 <= i < |es| && es[i].word == w;
          assert es[1..][i - 1] == es[i];
        }
      }
      [es[0]] + rest
  }

  /** Bumping keeps the words distinct. */
  lemma BumpDistinct(es: seq<Entry>, w: string)
    requires DistinctWords(es)
    ensures DistinctWords(Bump(es, w))
  {
    var r := Bump(es, w);
    forall i, j | 0 <= i < j < |r|
      ensures r[i].word != r[j].word
    {
      if j == |es| {
        assert !Has(es, w) && r[j].word == w && r[i].word == es[i].word;
      }
    }
  }

  /** Bumping adds one to the sum of the counts. */
  lemma {:induction false} BumpSum(es: seq<Entry>, w: string)
    requires DistinctWords(es)
    ensures Sum(Bump(es, w)) == Sum(es) + 1
  {
    if es != [] && es[0].word != w {
      BumpSum(es[1..], w);
      assert Bump(es, w)[1..] == Bump(es[1..], w);
    } else if es != [] {
      assert Bump(es, w)[1..] == es[1..];
    }
  }

  /** The entries are those of the words of `ws`, each once, with its count, in the
      order the words first appear, and the counts add up to `|ws|`. */
  predicate Tallies(es: seq<Entry>, ws: seq<string>) {
    DistinctWords(es) &&
    (forall i :: 0 <= i < |es| ==> es[i].frequency == Occ(ws, es[i].word) && es[i].word in ws) &&
    (forall w :: w in ws ==> Has(es, w)) &&
    (forall i, j :: 0 <= i < j < |es| ==> FirstIndex(ws, es[i].word) < FirstIndex(ws, es[j].word)) &&
    Sum(es) == |ws|
  }

  /** The forEach over the filtered words, for a tally whose keys are all its own.
      (The object literal `{}` in the source also inherits keys; see TallyAsWritten.) */
  function Tally(ws: seq<string>): (r: seq<Entry>)
    ensures Tallies(r, ws)
  {
    if ws == [] then []
    else
      var p := ws[..|ws| - 1];
      var x := ws[|ws| - 1];
      var r0 := Tally(p);
      var r := Bump(r0, x);
      TallyStep(p, x, r0, r);
      LastSplit(ws);
      r
  }

  lemma LastSplit(ws: seq<string>)
    requires ws != []
    ensures ws[..|ws| - 1] + [ws[|ws| - 1]] == ws
  {
  }

  lemma TallyStep(p: seq<string>, x: string, r0: seq<Entry>, r: seq<Entry>)
    requires Tallies(r0, p)
    requires r == Bump(r0, x)
    ensures Tallies(r, p + [x])
  {
    var ws := p + [x];
    assert ws[..|ws| - 1] == p;
    assert Has(r0, x) <==> x in p;
    BumpDistinct(r0, x);
    BumpSum(r0, x);
    TallyStepCounts(p, x, r0, r);
    TallyStepWords(p, x, r0, r);
    TallyStepOrder(p, x, r0, r);
  }

  lemma TallyStepCounts(p: seq<string>, x: string, r0: seq<Entry>, r: seq<Entry>)
    requires Tallies(r0, p)
    requires r == Bump(r0, x)
    ensures forall i :: 0 <= i < |r| ==> r[i].frequency == Occ(p + [x], r[i].word) && r[i].word in p + [x]
  {
    var ws := p + [x];
    assert Has(r0, x) <==> x in p;
    forall i | 0 <= i < |r|
      ensures r[i].frequency == Occ(ws, r[i].word) && r[i].word in ws
    {
      OccAppend(p, x, r[i].word);
      if i < |r0| {
        assert r[i].word in p;
      } else {
        assert x !in p;
      }
    }
  }

  lemma OccAppend(p: seq<string>, x: string, w: string)
    ensures Occ(p + [x], w) == Occ(p, w) + (if x == w then 1 else 0)
  {
    assert (p + [x])[..|p|] == p;
  }

  lemma TallyStepWords(p: seq<string>, x: string, r0: seq<Entry>, r: seq<Entry>)
    requires Tallies(r0, p)
    requires r == Bump(r0, x)
    ensures forall w :: w in p + [x] ==> Has(r, w)
  {
    forall w | w in p + [x]
      ensures Has(r, w)
    {
      if w in p {
        var i :| 0 <= i < |r0| && r0[i].word == w;
        assert r[i].word == w;
      } else {
        assert r[|r0|].word == w;
      }
    }
  }

  lemma TallyStepOrder(p: seq<string>, x: string, r0: seq<Entry>, r: seq<Entry>)
    requires Tallies(r0, p)
    requires r == Bump(r0, x)
    ensures forall i, j :: 0 <= i < j < |r| ==> FirstIndex(p + [x], r[i].word) < FirstIndex(p + [x], r[j].word)
  {
    assert Has(r0, x) <==> x in p;
    forall i, j | 0 <= i < j < |r|
      ensures FirstIndex(p + [x], r[i].word) < FirstIndex(p + [x], r[j].word)
    {
      assert r[i].word == r0[i].word && r[i].word in p;
      FirstIndexAppend(p, x, r[i].word);
      FirstIndexAppend(p, x, r[j].word);
      if j < |r0| {
        assert r[j].word == r0[j].word && r[j].word in p;
      } else {
        assert j == |r0| && !Has(r0, x);
        assert r[j] == Entry(x, 1);
      }
    }
  }

  /** Sorting keeps the sum of the counts. */
  lemma {:induction false} SumInsert(x: Entry, s: seq<Entry>)
    ensures Sum(Insert(x, s, Frequency)) == x.frequency + Sum(s)
  {
    if s != [] && Frequency(s[0]) > Frequency(x) {
      SumInsert(x, s[1..]);
      assert ([s[0]] + Insert(x, s[1..], Frequency))[1..] == Insert(x, s[1..], Frequency);
    } else {
      assert ([x] + s)[1..] == s;
    }
  }

  lemma {:induction false} SumSort(s: seq<Entry>)
    ensures Sum(SortDesc(s, Frequency)) == Sum(s)
  {
    if s != [] {
      SumSort(s[1..]);
      SumInsert(s[0], SortDesc(s[1..], Frequency));
    }
  }

  /** A prefix holds no more than the whole. */
  lemma {:induction false} SumTake(s: seq<Entry>, n: nat)
    ensures Sum(Take(s, n)) <= Sum(s)
  {
    if n < |s| {
      SumPrefix(s, n);
    }
  }

  lemma {:induction false} SumPrefix(s: seq<Entry>, n: nat)
    requires n <= |s|
    ensures Sum(s[..n]) <= Sum(s)
  {
    if n > 0 {
      SumPrefix(s[1..], n - 1);
      assert s[..n][1..] == s[1..][..n - 1];
    }
  }

  /** extractKeywords. At most ten candidate words, each once and with its number of
      occurrences; by descending count, ties in order of first appearance; any
      candidate left out occurs no more often than each one returned; the counts add
      up to no more than the number of tokens. */
  function ExtractKeywords(tk: Toolkit, text: string): (r: seq<Entry>)
    ensures |r| <= MaxKeywords
    ensures DistinctWords(r)
    ensures forall i :: 0 <= i < |r| ==>
      IsCandidate(r[i].word) && r[i].frequency >= 1 && r[i].frequency == Occ(tk.tokenize(Lower(text)), r[i].word)
    ensures forall i, j :: 0 <= i < j < |r| ==>
      r[i].frequency > r[j].frequency ||
      (r[i].frequency == r[j].frequency &&
       FirstIndex(Candidates(tk.tokenize(Lower(text))), r[i].word) < FirstIndex(Candidates(tk.tokenize(Lower(text))), r[j].word))
    ensures forall w :: IsCandidate(w) && w in tk.tokenize(Lower(text)) && !Has(r, w) ==>
      |r| == MaxKeywords && forall i :: 0 <= i < |r| ==>
        r[i].frequency > Occ(tk.tokenize(Lower(text)), w) ||
        (r[i].frequency == Occ(tk.tokenize(Lower(text)), w) &&
         FirstIndex(Candidates(tk.tokenize(Lower(text))), r[i].word) < FirstIndex(Candidates(tk.tokenize(Lower(text))), w))
    ensures Sum(r) <= |tk.tokenize(Lower(text))|
  {
    var words := tk.tokenize(Lower(text));
    var filtered := Candidates(words);
    var tally := Tally(filtered);
    KeywordsOfTally(words, filtered, tally);
    Take(SortDesc(tally, Frequency), MaxKeywords)
  }

  lemma KeywordsOfTally(words: seq<string>, filtered: seq<string>, tally: seq<Entry>)
    requires filtered == Candidates(words) && Tallies(tally, filtered)
    ensures var r := Take(SortDesc(tally, Frequency), MaxKeywords);
      DistinctWords(r) &&
      (forall i :: 0 <= i < |r| ==> IsCandidate(r[i].word) && r[i].frequency >= 1 && r[i].frequency == Occ(words, r[i].word)) &&
      (forall i, j :: 0 <= i < j < |r| ==>
        r[i].frequency > r[j].frequency ||
        (r[i].frequency == r[j].frequency && FirstIndex(filtered, r[i].word) < FirstIndex(filtered, r[j].word))) &&
      (forall w :: IsCandidate(w) && w in words && !Has(r, w) ==> Outranked(r, filtered, words, w)) &&
      Sum(r) <= |words|
  {
    var sorted := SortDesc(tally, Frequency);
    var r := Take(sorted, MaxKeywords);
    TopOfSorted(tally, MaxKeywords, Frequency);
    KeywordsEntries(words, filtered, tally);
    KeywordsOrder(filtered, tally);
    KeywordsTop(words, filtered, tally);
    SortDistinct(tally);
    TakeDistinct(sorted, MaxKeywords);
    SumSort(tally);
    SumTake(sorted, MaxKeywords);
  }

  lemma KeywordsEntries(words: seq<string>, filtered: seq<string>, tally: seq<Entry>)
    requires filtered == Candidates(words) && Tallies(tally, filtered)
    ensures var r := Take(SortDesc(tally, Frequency), MaxKeywords);
      forall i :: 0 <= i < |r| ==> IsCandidate(r[i].word) && r[i].frequency >= 1 && r[i].frequency == Occ(words, r[i].word)
  {
    var r := Take(SortDesc(tally, Frequency), MaxKeywords);
    TopOfSorted(tally, MaxKeywords, Frequency);
    forall i | 0 <= i < |r|
      ensures IsCandidate(r[i].word) && r[i].frequency >= 1 && r[i].frequency == Occ(words, r[i].word)
    {
      EntryOfTally(words, filtered, tally, r[i]);
    }
  }

  /** An entry of the tally counts a candidate word that occurs in the text. */
  lemma EntryOfTally(words: seq<string>, filtered: seq<string>, tally: seq<Entry>, e: Entry)
    requires filtered == Candidates(words) && Tallies(tally, filtered)
    requires e in tally
    ensures IsCandidate(e.word) && e.frequency >= 1 && e.frequency == Occ(words, e.word)
  {
    var k :| 0 <= k < |tally| && tally[k] == e;
    assert e.word in filtered;
    OccCandidates(words, e.word);
  }

  lemma KeywordsOrder(filtered: seq<string>, tally: seq<Entry>)
    requires Tallies(tally, filtered)
    ensures var r := Take(SortDesc(tally, Frequency), MaxKeywords);
      forall i, j :: 0 <= i < j < |r| ==>
        r[i].frequency > r[j].frequency ||
        (r[i].frequency == r[j].frequency && FirstIndex(filtered, r[i].word) < FirstIndex(filtered, r[j].word))
  {
    var sorted := SortDesc(tally, Frequency);
    var r := Take(sorted, MaxKeywords);
    var rank := (e: Entry) => FirstIndex(filtered, e.word) as int;
    assert RankIncreasing(tally, rank);
    SortIsStable(tally, Frequency, rank);
    assert forall i :: 0 <= i < |r| ==> r[i] == sorted[i];
  }

  /** A full list of keywords, each of which comes before `w`: it occurs more often,
      or as often and first appears earlier. */
  predicate Outranked(r: seq<Entry>, filtered: seq<string>, words: seq<string>, w: string) {
    |r| == MaxKeywords && forall i :: 0 <= i < |r| ==>
      r[i].frequency > Occ(words, w) ||
      (r[i].frequency == Occ(words, w) && FirstIndex(filtered, r[i].word) < FirstIndex(filtered, w))
  }

  /** An entry's rank: the first position of its word among the candidates. */
  function FirstSeen(filtered: seq<string>): Entry -> int {
    (e: Entry) => FirstIndex(filtered, e.word) as int
  }

  lemma KeywordsTop(words: seq<string>, filtered: seq<string>, tally: seq<Entry>)
    requires filtered == Candidates(words) && Tallies(tally, filtered)
    ensures var r := Take(SortDesc(tally, Frequency), MaxKeywords);
      forall w :: IsCandidate(w) && w in words && !Has(r, w) ==> Outranked(r, filtered, words, w)
  {
    var r := Take(SortDesc(tally, Frequency), MaxKeywords);
    assert RankIncreasing(tally, FirstSeen(filtered));
    SortIsStable(tally, Frequency, FirstSeen(filtered));
    forall w | IsCandidate(w) && w in words && !Has(r, w)
      ensures Outranked(r, filtered, words, w)
    {
      KeywordOutranked(words, filtered, tally, w);
    }
  }

  /** A candidate the keywords leave out comes after every one of them in the stable order. */
  lemma KeywordOutranked(words: seq<string>, filtered: seq<string>, tally: seq<Entry>, w: string)
    requires filtered == Candidates(words) && Tallies(tally, filtered)
    requires SortedDescThenRank(SortDesc(tally, Frequency), Frequency, FirstSeen(filtered))
    requires IsCandidate(w) && w in words && !Has(Take(SortDesc(tally, Frequency), MaxKeywords), w)
    ensures Outranked(Take(SortDesc(tally, Frequency), MaxKeywords), filtered, words, w)
  {
    var sorted := SortDesc(tally, Frequency);
    var e := TallyEntryOf(words, filtered, tally, w);
    assert e in multiset(tally);
    assert e in sorted;
    assert e !in Take(sorted, MaxKeywords);
    TakeRankedIsTop(sorted, MaxKeywords, Frequency, FirstSeen(filtered));
    assert FirstSeen(filtered)(e) == FirstIndex(filtered, w) as int;
  }

  /** A candidate word of the text has its entry in the tally, with its count. */
  lemma TallyEntryOf(words: seq<string>, filtered: seq<string>, tally: seq<Entry>, w: string) returns (e: Entry)
    requires filtered == Candidates(words) && Tallies(tally, filtered)
    requires IsCandidate(w) && w in words
    ensures e in tally && e.word == w && e.frequency == Occ(words, w)
  {
    OccCandidates(words, w);
    assert w in filtered;
    var k :| 0 <= k < |tally| && tally[k].word == w;
    e := tally[k];
  }

  /** Inserting an entry whose word is new keeps the words distinct. */
  lemma {:induction false} InsertDistinct(x: Entry, t: seq<Entry>)
    requires DistinctWords(t) && !Has(t, x.word)
    ensures DistinctWords(Insert(x, t, Frequency))
  {
    if t != [] && Frequency(t[0]) > Frequency(x) {
      assert forall k :: 0 <= k < |t[1..]| ==> t[1..][k] == t[k + 1];
      InsertDistinct(x, t[1..]);
      var rest := Insert(x, t[1..], Frequency);
      var r := [t[0]] + rest;
      forall j | 0 <= j < |rest|
        ensures rest[j].word != t[0].word
      {
        assert rest[j] in multiset(t[1..]) + multiset{x};
        if rest[j] != x {
          assert rest[j] in t[1..];
        }
      }
      assert forall j :: 1 <= j < |r| ==> r[j] == rest[j - 1];
    }
  }

  lemma {:induction false} SortDistinct(s: seq<Entry>)
    requires DistinctWords(s)
    ensures DistinctWords(SortDesc(s, Frequency))
  {
    if s != [] {
      assert forall k :: 0 <= k < |s[1..]| ==> s[1..][k] == s[k + 1];
      SortDistinct(s[1..]);
      var t := SortDesc(s[1..], Frequency);
      SameMembers(t, s[1..]);
      forall k | 0 <= k < |t|
        ensures t[k].word != s[0].word
      {
        assert t[k] in s[1..];
        var m :| 0 <= m < |s[1..]| && s[1..][m] == t[k];
        assert s[m + 1] == t[k];
      }
      InsertDistinct(s[0], t);
    }
  }

  lemma TakeDistinct(s: seq<Entry>, n: nat)
    requires DistinctWords(s)
    ensures DistinctWords(Take(s, n))
  {
    assert forall i :: 0 <= i < |Take(s, n)| ==> Take(s, n)[i] == s[i];
  }

  // ---------------------------------------------------------------------------
  // The tally as the source writes it

  /** What a property of the tally object can hold: a count, a string, or the
      function `Object` itself. */
  datatype JsValue = Count(n: nat) | Text(t: string) | ObjectFunction

  /** An own property of the tally object, in insertion order. */
  datatype Prop = Prop(key: string, value: JsValue)

  /** What `String(Object)` gives. */
  const ObjectSource: string := "function Object() { [native code] }"

  /** Keys a fresh `{}` answers through Object.prototype that can pass the keyword
      filter. The tokenizer is given the lower-cased text and returns pieces of it, and
      of the prototype's keys only "constructor" is made of lower-case letters. A
      mixed-case token such as "toString" would reach another inherited property; the
      model takes the tokens to be lower-case. */
  function Inherited(w: string): Option<JsValue> {
    if w == "constructor" then Some(ObjectFunction) else None
  }

  /** The own property `w`, if any. */
  function Lookup(ps: seq<Prop>, w: string): Option<JsValue> {
    if ps == [] then None else if ps[0].key == w then Some(ps[0].value) else Lookup(ps[1..], w)
  }

  /** `obj[w]`: the own property, else the inherited one. */
  function Get(ps: seq<Prop>, w: string): Option<JsValue> {
    if Lookup(ps, w).Some? then Lookup(ps, w) else Inherited(w)
  }

  /** `(v || 0) + 1`: numbers add, a truthy string or function is converted to a
      string and "1" is appended. */
  function PlusOne(v: Option<JsValue>): JsValue {
    match v
    case None => Count(1)
    case Some(Count(n)) => Count(n + 1)
    case Some(Text(t)) => if t == [] then Count(1) else Text(t + "1")
    case Some(ObjectFunction) => Text(ObjectSource + "1")
  }

  /** `obj[w] = v`: overwrite the own property, or add it at the end. */
  function Assign(ps: seq<Prop>, w: string, v: JsValue): seq<Prop> {
    if ps == [] then [Prop(w, v)]
    else if ps[0].key == w then [Prop(w, v)] + ps[1..]
    else [ps[0]] + Assign(ps[1..], w, v)
  }

  /** The source's forEach over the filtered words on `const wordFreq = {}`. */
  function TallyAsWritten(ws: seq<string>): seq<Prop> {
    if ws == [] then []
    else
      var ps := TallyAsWritten(ws[..|ws| - 1]);
      var x := ws[|ws| - 1];
      Assign(ps, x, PlusOne(Get(ps, x)))
  }

  /** The entries as object properties. */
  function Props(es: seq<Entry>): (r: seq<Prop>)
    ensures |r| == |es|
    ensures forall i :: 0 <= i < |es| ==> r[i] == Prop(es[i].word, Count(es[i].frequency))
  {
    if es == [] then [] else [Prop(es[0].word, Count(es[0].frequency))] + Props(es[1..])
  }

  /** For a word other than "constructor", one step of the source's tally is one
      step of Bump. */
  lemma {:induction false} AssignIsBump(es: seq<Entry>, w: string)
    requires DistinctWords(es) && w != "constructor"
    ensures Assign(Props(es), w, PlusOne(Get(Props(es), w))) == Props(Bump(es, w))
  {
    if es != [] && es[0].word != w {
      assert forall k :: 0 <= k < |es[1..]| ==> es[1..][k] == es[k + 1];
      AssignIsBump(es[1..], w);
      assert Props(es)[1..] == Props(es[1..]);
      assert Bump(es, w) == [es[0]] + Bump(es[1..], w);
    } else if es != [] {
      assert Props(es)[1..] == Props(es[1..]);
      assert Bump(es, w) == [Entry(w, es[0].frequency + 1)] + es[1..];
      assert Props(Bump(es, w))[1..] == Props(es[1..]);
    }
  }

  /** Without the word "constructor", the source's tally is the corrected one. */
  lemma {:induction false} TallyAsWrittenAgrees(ws: seq<string>)
    requires "constructor" !in ws
    ensures TallyAsWritten(ws) == Props(Tally(ws))
  {
    if ws != [] {
      var p := ws[..|ws| - 1];
      assert forall k :: 0 <= k < |p| ==> p[k] == ws[k];
      TallyAsWrittenAgrees(p);
      AssignIsBump(Tally(p), ws[|ws| - 1]);
    }
  }

  /** With it, the count turns into a string: one occurrence of "constructor" gets the
      frequency "function Object() { [native code] }1" instead of 1. */
  lemma ConstructorCountIsText(ws: seq<string>)
    requires ws == ["constructor"]
    ensures TallyAsWritten(ws) == [Prop("constructor", Text(ObjectSource + "1"))]
    ensures Tally(ws) == [Entry("constructor", 1)]
  {
    assert ws[..|ws| - 1] == [];
    assert Get([], "constructor") == Some(ObjectFunction);
  }
}

=== FILE: lifecycle.dfy ===
/** The whole application state as a pure transition system: the stored submissions
    and reviews, and one step per state-changing request. The invariants the routes
    keep together are proved here: ids match their keys, every stored record passes
    its schema, one review per reviewer and submission, and nobody reviews their own
    submission; statuses only move forward, only staff approve reviews, and a
    submission becomes reviewed only through its second approval. */
module Lifecycle {
  import opened Wrappers
  import opened Requests
  import opened Nlp
  import S = SubmissionSchema
  import R = ReviewSchema
  import SR = SubmissionRoutes
  import RR = ReviewRoutes

  /** The two collections, keyed by id, and the next fresh id. */
  datatype Store = Store(subs: map<nat, S.Submission>, reviews: map<nat, R.Review>, next: nat)

  /** The empty application. */
  const Empty: Store := Store(map[], map[], 0)

  /** The state-changing requests. */
  datatype Action =
    | CreateSubmission(u: User, q: SR.CreateRequest)
    | CreateSubmissionWithFiles(u: User, fq: SR.FilesRequest)
    | UpdateSubmission(u: User, id: nat, p: SR.Patch)
    | SubmitSubmission(u: User, id: nat)
    | DeleteSubmission(u: User, id: nat)
    | CreateReview(u: User, rq: RR.CreateRequest)
    | SubmitReview(u: User, id: nat)
    | UpdateReview(u: User, id: nat, rp: RR.Patch)
    | ApproveReview(u: User, id: nat)
    | DeleteReview(u: User, id: nat)
  {
    /** Is this a request of the submission routes? */
    predicate OnSubmission() {
      CreateSubmission? || CreateSubmissionWithFiles? || UpdateSubmission? || SubmitSubmission? || DeleteSubmission?
    }
  }

  datatype Outcome = Done | Refused(why: Refusal)

  datatype Reply = Reply(store: Store, outcome: Outcome)

  /** The route handlers that compute a new record from a request, as values. The steps
      below take them as a parameter: `Application` holds the application's own, and
      `Sound` spells out what the invariants need of them. */
  datatype Routes = Routes(
    createSubmission: (nat, User, SR.CreateRequest) -> Result<S.Submission, Refusal>,
    createWithFiles: (nat, User, SR.FilesRequest) -> Result<S.Submission, Refusal>,
    updateSubmission: (User, S.Submission, SR.Patch) -> Result<S.Submission, Refusal>,
    submitSubmission: (User, S.Submission, seq<S.Submission>) -> Result<S.Submission, Refusal>,
    createReview: (nat, User, RR.CreateRequest, Option<S.Submission>, map<nat, R.Review>) -> Result<R.Review, Refusal>,
    updateReview: (User, R.Review, RR.Patch) -> Result<R.Review, Refusal>)

  /** The two update routes as written, or with their lifecycle fields protected. */
  datatype Variant = AsWritten | Corrected

  /** The application's handlers, with the update routes as written or corrected. */
  function Application(tk: Toolkit, v: Variant): (rt: Routes)
  {
    Routes(
      (id: nat, u: User, q: SR.CreateRequest) => SR.Create(id, u, q),
      (id: nat, u: User, q: SR.FilesRequest) => SR.CreateWithFiles(id, u, q),
      if v == AsWritten then (u: User, s: S.Submission, p: SR.Patch) => SR.UpdateAsWritten(u, s, p)
      else (u: User, s: S.Submission, p: SR.Patch) => SR.Update(u, s, p),
      (u: User, s: S.Submission, all: seq<S.Submission>) => SR.Submit(tk, u, s, all),
      (id: nat, u: User, q: RR.CreateRequest, found: Option<S.Submission>, reviews: map<nat, R.Review>) =>
        RR.Create(tk, id, u, q, found, reviews),
      if v == AsWritten then (u: User, rv: R.Review, p: RR.Patch) => RR.UpdateAsWritten(tk, u, rv, p)
      else (u: User, rv: R.Review, p: RR.Patch) => RR.Update(tk, u, rv, p))
  }

  /** A create handler stores a new draft under the id it is given. */
  predicate CreatesDraft(r: Result<S.Submission, Refusal>, id: nat) {
    r.Success? ==> S.Stored(r.value) && r.value.id == id && r.value.status == S.Draft
  }

  /** An update handler keeps the id, the author and the status. */
  predicate KeepsLifecycle(r: Result<S.Submission, Refusal>, s: S.Submission) {
    r.Success? ==>
      S.Stored(r.value) && r.value.id == s.id && r.value.author == s.author && r.value.status == s.status
  }

  /** A submit handler moves a draft to submitted, keeping the id and the author. */
  predicate SubmitsDraft(r: Result<S.Submission, Refusal>, s: S.Submission) {
    r.Success? ==>
      && S.Stored(r.value) && r.value.id == s.id && r.value.author == s.author
      && s.status == S.Draft && r.value.status == S.Submitted
  }

  /** A review create handler stores a valid draft under the id it is given, for the
      stored submission the request names, by someone other than its author, and for a
      new (submission, reviewer) pair. */
  predicate CreatesReview(r: Result<R.Review, Refusal>, id: nat, q: RR.CreateRequest,
                          found: Option<S.Submission>, reviews: map<nat, R.Review>) {
    r.Success? ==>
      && R.Valid(r.value) && r.value.id == id && r.value.status == R.Draft
      && q.submission.Some? && r.value.submission == q.submission.value
      && found.Some? && found.value.author != r.value.reviewer
      && !R.FindPair(reviews, r.value.submission, r.value.reviewer)
  }

  /** A review update handler keeps it valid, with its id, pair and status. */
  predicate KeepsReview(r: Result<R.Review, Refusal>, rv: R.Review) {
    r.Success? ==>
      && R.Valid(r.value) && r.value.id == rv.id && r.value.submission == rv.submission
      && r.value.reviewer == rv.reviewer && r.value.status == rv.status
  }

  /** What the invariants need of the handlers. */
  ghost predicate Sound(rt: Routes) {
    && (forall id, u, q :: CreatesDraft(rt.createSubmission(id, u, q), id))
    && (forall id, u, q :: CreatesDraft(rt.createWithFiles(id, u, q), id))
    && (forall u, s, p :: KeepsLifecycle(rt.updateSubmission(u, s, p), s))
    && (forall u, s, all :: SubmitsDraft(rt.submitSubmission(u, s, all), s))
    && (forall id, u, q, found, reviews ::
          CreatesReview(rt.createReview(id, u, q, found, reviews), id, q, found, reviews))
    && (forall u, rv, p :: KeepsReview(rt.updateReview(u, rv, p), rv))
  }

  /** With the update routes corrected, the application's handlers are sound. */
  lemma ApplicationSound(tk: Toolkit)
    ensures Sound(Application(tk, Corrected))
  {
    var rt := Application(tk, Corrected);
    forall id, u, q
      ensures CreatesDraft(rt.createSubmission(id, u, q), id)
    {
      assert rt.createSubmission(id, u, q) == SR.Create(id, u, q);
    }
    forall id, u, q
      ensures CreatesDraft(rt.createWithFiles(id, u, q), id)
    {
      assert rt.createWithFiles(id, u, q) == SR.CreateWithFiles(id, u, q);
    }
    forall u, s, p
      ensures KeepsLifecycle(rt.updateSubmission(u, s, p), s)
    {
      assert rt.updateSubmission(u, s, p) == SR.Update(u, s, p);
    }
    forall u, s, all
      ensures SubmitsDraft(rt.submitSubmission(u, s, all), s)
    {
      assert rt.submitSubmission(u, s, all) == SR.Submit(tk, u, s, all);
    }
    forall id, u, q, found, reviews
      ensures CreatesReview(rt.createReview(id, u, q, found, reviews), id, q, found, reviews)
    {
      assert rt.createReview(id, u, q, found, reviews) == RR.Create(tk, id, u, q, found, reviews);
    }
    forall u, rv, p
      ensures KeepsReview(rt.updateReview(u, rv, p), rv)
    {
      assert rt.updateReview(u, rv, p) == RR.Update(tk, u, rv, p);
    }
  }

  predicate SubsWellFormed(st: Store) {
    forall k :: k in st.subs ==> st.subs[k].id == k && k < st.next && S.Stored(st.subs[k])
  }

  predicate ReviewsWellFormed(st: Store) {
    forall k :: k in st.reviews ==>
      st.reviews[k].id == k && k < st.next && st.reviews[k].submission < st.next && R.Valid(st.reviews[k])
  }

  /** No stored review is by the author of the submission it reviews. */
  predicate NoSelfReview(st: Store) {
    forall k :: k in st.reviews && st.reviews[k].submission in st.subs ==>
      st.subs[st.reviews[k].submission].author != st.reviews[k].reviewer
  }

  predicate Inv(st: Store) {
    SubsWellFormed(st) && ReviewsWellFormed(st) && R.OnePerPair(st.reviews) && NoSelfReview(st)
  }

  lemma EmptyInv()
    ensures Inv(Empty)
  {
  }

  /** The stored submissions with ids below `n`, in ascending id order. */
  function Ordered(subs: map<nat, S.Submission>, n: nat): (r: seq<S.Submission>)
    ensures |r| <= n
    ensures forall k :: k in subs && k < n ==> subs[k] in r
    ensures forall x :: x in r ==> x in subs.Values
  {
    if n == 0 then []
    else
      var init := Ordered(subs, n - 1);
      assert forall k :: k in subs && k < n - 1 ==> subs[k] in init;
      init + (if n - 1 in subs then [subs[n - 1]] else [])
  }

  /** Stores the result of a submission route under `k`, or reports its refusal. */
  function PutSubmission(st: Store, k: nat, r: Result<S.Submission, Refusal>): (rep: Reply)
    ensures r.Success? ==> rep == Reply(st.(subs := st.subs[k := r.value]), Done)
    ensures r.Failure? ==> rep == Reply(st, Refused(r.error))
  {
    match r
    case Success(s) => Reply(st.(subs := st.subs[k := s]), Done)
    case Failure(e) => Reply(st, Refused(e))
  }

  /** Stores the result of a review route under `k`, or reports its refusal. */
  function PutReview(st: Store, k: nat, r: Result<R.Review, Refusal>): (rep: Reply)
    ensures r.Success? ==> rep == Reply(st.(reviews := st.reviews[k := r.value]), Done)
    ensures r.Failure? ==> rep == Reply(st, Refused(r.error))
  {
    match r
    case Success(v) => Reply(st.(reviews := st.reviews[k := v]), Done)
    case Failure(e) => Reply(st, Refused(e))
  }

  /** Adds a new record under the next id. */
  function Fresh(st: Store, r: Result<S.Submission, Refusal>): (rep: Reply)
    ensures r.Success? ==> rep == Reply(st.(subs := st.subs[st.next := r.value], next := st.next + 1), Done)
    ensures r.Failure? ==> rep == Reply(st, Refused(r.error))
  {
    match r
    case Success(s) => Reply(st.(subs := st.subs[st.next := s], next := st.next + 1), Done)
    case Failure(e) => Reply(st, Refused(e))
  }

  /** Looks a key up. */
  function Find<V>(m: map<nat, V>, k: nat): (r: Option<V>)
    ensures r.Some? <==> k in m
    ensures r.Some? ==> r.value == m[k]
  {
    if k in m then Some(m[k]) else None
  }

  /** The submission a review request names, when it is stored. */
  function Named(st: Store, q: RR.CreateRequest): (r: Option<S.Submission>)
    ensures r.Some? <==> q.submission.Some? && q.submission.value in st.subs
    ensures r.Some? ==> r.value == st.subs[q.submission.value]
  {
    if q.submission.Some? then Find(st.subs, q.submission.value) else None
  }

  /** `st'` is `st` with stored submission `k` replaced. */
  predicate SubMoved(st: Store, st': Store, k: nat) {
    k in st.subs && k in st'.subs && st' == st.(subs := st.subs[k := st'.subs[k]])
  }

  /** `st'` is `st` with stored review `k` replaced. */
  predicate ReviewMoved(st: Store, st': Store, k: nat) {
    k in st.reviews && k in st'.reviews && st' == st.(reviews := st.reviews[k := st'.reviews[k]])
  }

  /** `PUT /submissions/:id`. */
  function UpdateSubmissionStep(rt: Routes, st: Store, u: User, id: nat, p: SR.Patch): (rep: Reply)
    ensures id !in st.subs ==> rep == Reply(st, Refused(NotFound))
    ensures rep.outcome.Refused? ==> rep.store == st
    ensures rep.outcome == Done ==>
      SubMoved(st, rep.store, id) && Success(rep.store.subs[id]) == rt.updateSubmission(u, st.subs[id], p)
  {
    if id !in st.subs then Reply(st, Refused(NotFound))
    else PutSubmission(st, id, rt.updateSubmission(u, st.subs[id], p))
  }

  /** `POST /submissions/:id/submit`, the corpus being the stored submissions in id
      order. */
  function SubmitSubmissionStep(rt: Routes, st: Store, u: User, id: nat): (rep: Reply)
    ensures id !in st.subs ==> rep == Reply(st, Refused(NotFound))
    ensures rep.outcome.Refused? ==> rep.store == st
    ensures rep.outcome == Done ==>
      && SubMoved(st, rep.store, id)
      && Success(rep.store.subs[id]) == rt.submitSubmission(u, st.subs[id], Ordered(st.subs, st.next))
  {
    if id !in st.subs then Reply(st, Refused(NotFound))
    else PutSubmission(st, id, rt.submitSubmission(u, st.subs[id], Ordered(st.subs, st.next)))
  }

  /** `DELETE /submissions/:id`; the submission's reviews stay. */
  function DeleteSubmissionStep(st: Store, u: User, id: nat): (rep: Reply)
    ensures rep.outcome == Done <==> id in st.subs && SR.CanDelete(u, st.subs[id])
    ensures rep.outcome == Done ==> rep.store == st.(subs := st.subs - {id})
    ensures rep.outcome != Done ==> rep.store == st
  {
    match SR.Delete(u, Find(st.subs, id))
    case None => Reply(st.(subs := st.subs - {id}), Done)
    case Some(e) => Reply(st, Refused(e))
  }

  /** `POST /reviews`: a new review under the next id. */
  function CreateReviewStep(rt: Routes, st: Store, u: User, q: RR.CreateRequest): (rep: Reply)
    ensures rep.outcome.Refused? ==> rep.store == st
    ensures rep.outcome == Done ==>
      && rt.createReview(st.next, u, q, Named(st, q), st.reviews).Success?
      && rep.store == st.(reviews := st.reviews[st.next := rt.createReview(st.next, u, q, Named(st, q), st.reviews).value],
                          next := st.next + 1)
  {
    match rt.createReview(st.next, u, q, Named(st, q), st.reviews)
    case Success(v) => Reply(st.(reviews := st.reviews[st.next := v], next := st.next + 1), Done)
    case Failure(e) => Reply(st, Refused(e))
  }

  /** The cascade of a submitted review onto its submission `sid`: a submitted
      submission moves to under_review; a missing one ends the request in a server
      error. */
  function CascadeStep(st: Store, sid: nat): (rep: Reply)
    ensures rep.outcome.Refused? ==> rep.outcome.why == ServerError && rep.store == st
    ensures rep.outcome == Done && rep.store != st ==>
      SubMoved(st, rep.store, sid) && st.subs[sid].status == S.Submitted && rep.store.subs[sid].status == S.UnderReview
  {
    if sid !in st.subs then Reply(st, Refused(ServerError))
    else
      var sub := st.subs[sid];
      if sub.status == S.Submitted then PutSubmission(st, sid, S.SaveOr(RR.Cascade(sub), ServerError))
      else Reply(st, Done)
  }

  /** `POST /reviews/:id/submit`: the review is saved first, then cascades onto its
      submission. */
  function SubmitReviewStep(st: Store, u: User, id: nat): (rep: Reply)
    ensures id !in st.reviews ==> rep == Reply(st, Refused(NotFound))
    ensures rep.store != st ==>
      && id in st.reviews && st.reviews[id].status == R.Draft
      && rep == CascadeStep(st.(reviews := st.reviews[id := st.reviews[id].(status := R.Submitted)]), st.reviews[id].submission)
  {
    if id !in st.reviews then Reply(st, Refused(NotFound))
    else match RR.Submit(u, st.reviews[id])
      case Failure(e) => Reply(st, Refused(e))
      case Success(v) => CascadeStep(st.(reviews := st.reviews[id := v]), v.submission)
  }

  /** `PUT /reviews/:id`. */
  function UpdateReviewStep(rt: Routes, st: Store, u: User, id: nat, p: RR.Patch): (rep: Reply)
    ensures id !in st.reviews ==> rep == Reply(st, Refused(NotFound))
    ensures rep.outcome.Refused? ==> rep.store == st
    ensures rep.outcome == Done ==>
      ReviewMoved(st, rep.store, id) && Success(rep.store.reviews[id]) == rt.updateReview(u, st.reviews[id], p)
  {
    if id !in st.reviews then Reply(st, Refused(NotFound))
    else PutReview(st, id, rt.updateReview(u, st.reviews[id], p))
  }

  /** After an approval onto submission `sid`: once it has two approved reviews it
      becomes reviewed. Reaching that count for a submission that is gone ends the
      request in a server error. */
  function ConcludeStep(st: Store, sid: nat): (rep: Reply)
    ensures rep.outcome.Refused? ==> rep.outcome.why == ServerError && rep.store == st
    ensures rep.outcome == Done && rep.store != st ==>
      && SubMoved(st, rep.store, sid) && |RR.ApprovedOf(st.reviews, sid)| >= RR.ApprovalsNeeded
      && S.StatusRank(st.subs[sid].status) <= S.StatusRank(rep.store.subs[sid].status)
  {
    if |RR.ApprovedOf(st.reviews, sid)| < RR.ApprovalsNeeded then Reply(st, Done)
    else if sid !in st.subs then Reply(st, Refused(ServerError))
    else PutSubmission(st, sid, S.SaveOr(RR.Conclude(st.subs[sid], st.reviews), ServerError))
  }

  /** `POST /reviews/:id/approve`: staff only, checked before the review is looked up;
      the review is saved, then the submission concluded. */
  function ApproveReviewStep(st: Store, u: User, id: nat): (rep: Reply)
    ensures u.role == Student ==> rep == Reply(st, Refused(Forbidden))
    ensures u.role != Student && id !in st.reviews ==> rep == Reply(st, Refused(NotFound))
    ensures rep.store != st ==>
      && u.role != Student && id in st.reviews && st.reviews[id].status == R.Submitted
      && rep == ConcludeStep(st.(reviews := st.reviews[id := st.reviews[id].(status := R.Approved)]), st.reviews[id].submission)
  {
    if u.role == Student then Reply(st, Refused(Forbidden))
    else if id !in st.reviews then Reply(st, Refused(NotFound))
    else match RR.Approve(u, st.reviews[id])
      case Failure(e) => Reply(st, Refused(e))
      case Success(v) => ConcludeStep(st.(reviews := st.reviews[id := v]), v.submission)
  }

  /** `DELETE /reviews/:id`. */
  function DeleteReviewStep(st: Store, u: User, id: nat): (rep: Reply)
    ensures rep.outcome == Done <==> id in st.reviews && RR.CanDelete(u, st.reviews[id])
    ensures rep.outcome == Done ==> rep.store == st.(reviews := st.reviews - {id})
    ensures rep.outcome != Done ==> rep.store == st
  {
    match RR.Delete(u, Find(st.reviews, id))
    case None => Reply(st.(reviews := st.reviews - {id}), Done)
    case Some(e) => Reply(st, Refused(e))
  }

  /** One request. */
  function Step(rt: Routes, st: Store, a: Action): (rep: Reply)
    ensures rep.store.next == st.next || rep.store.next == st.next + 1
  {
    match a
    case CreateSubmission(u, q) => Fresh(st, rt.createSubmission(st.next, u, q))
    case CreateSubmissionWithFiles(u, fq) => Fresh(st, rt.createWithFiles(st.next, u, fq))
    case UpdateSubmission(u, id, p) => UpdateSubmissionStep(rt, st, u, id, p)
    case SubmitSubmission(u, id) => SubmitSubmissionStep(rt, st, u, id)
    case DeleteSubmission(u, id) => DeleteSubmissionStep(st, u, id)
    case CreateReview(u, q) => CreateReviewStep(rt, st, u, q)
    case SubmitReview(u, id) => SubmitReviewStep(st, u, id)
    case UpdateReview(u, id, p) => UpdateReviewStep(rt, st, u, id, p)
    case ApproveReview(u, id) => ApproveReviewStep(st, u, id)
    case DeleteReview(u, id) => DeleteReviewStep(st, u, id)
  }

  // ---------------------------------------------------------------------------
  // The invariant, action by action

  /** Adding a new stored submission under the next id keeps the invariant. */
  lemma FreshKeepsInv(st: Store, r: Result<S.Submission, Refusal>)
    requires Inv(st)
    requires CreatesDraft(r, st.next)
    ensures Inv(Fresh(st, r).store)
  {
    if r.Success? {
      var st' := Fresh(st, r).store;
      forall k | k in st'.reviews && st'.reviews[k].submission in st'.subs
        ensures st'.subs[st'.reviews[k].submission].author != st'.reviews[k].reviewer
      {
        assert st'.reviews[k].submission != st.next;
      }
    }
  }

  /** Replacing a stored submission by a stored one with the same id and author keeps
      the invariant. */
  lemma PutSubmissionKeepsInv(st: Store, k: nat, r: Result<S.Submission, Refusal>)
    requires Inv(st) && k in st.subs
    requires r.Success? ==> S.Stored(r.value) && r.value.id == k && r.value.author == st.subs[k].author
    ensures Inv(PutSubmission(st, k, r).store)
  {
    if r.Success? {
      var st' := st.(subs := st.subs[k := r.value]);
      assert SubsWellFormed(st');
      assert ReviewsWellFormed(st');
      forall j | j in st'.reviews && st'.reviews[j].submission in st'.subs
        ensures st'.subs[st'.reviews[j].submission].author != st'.reviews[j].reviewer
      {
        var sid := st'.reviews[j].submission;
        assert st'.subs[sid].author == st.subs[sid].author;
      }
    }
  }

  /** Replacing a stored review by a valid one with the same id, submission and
      reviewer keeps the invariant. */
  lemma PutReviewKeepsInv(st: Store, k: nat, r: Result<R.Review, Refusal>)
    requires Inv(st) && k in st.reviews
    requires r.Success? ==>
      R.Valid(r.value) && r.value.id == k &&
      r.value.submission == st.reviews[k].submission && r.value.reviewer == st.reviews[k].reviewer
    ensures Inv(PutReview(st, k, r).store)
  {
    if r.Success? {
      R.ReplaceKeepsOnePerPair(st.reviews, k, r.value);
    }
  }

  lemma CreateReviewKeepsInv(rt: Routes, st: Store, u: User, q: RR.CreateRequest)
    requires Sound(rt) && Inv(st)
    ensures Inv(CreateReviewStep(rt, st, u, q).store)
  {
    var r := rt.createReview(st.next, u, q, Named(st, q), st.reviews);
    assert CreatesReview(r, st.next, q, Named(st, q), st.reviews);
    if r.Success? {
      var v := r.value;
      assert v.submission in st.subs && st.subs[v.submission].author != v.reviewer;
      R.AddKeepsOnePerPair(st.reviews, st.next, v);
    }
  }

  lemma CascadeKeepsInv(st: Store, sid: nat)
    requires Inv(st)
    ensures Inv(CascadeStep(st, sid).store)
  {
    if sid in st.subs && st.subs[sid].status == S.Submitted {
      var sub := st.subs[sid];
      S.StoredIgnoresLifecycle(sub, S.UnderReview, sub.author, sub.analysis, sub.metrics);
      PutSubmissionKeepsInv(st, sid, S.SaveOr(RR.Cascade(sub), ServerError));
    }
  }

  lemma SubmitReviewKeepsInv(st: Store, u: User, id: nat)
    requires Inv(st)
    ensures Inv(SubmitReviewStep(st, u, id).store)
  {
    if id in st.reviews {
      var r := RR.Submit(u, st.reviews[id]);
      if r.Success? {
        PutReviewKeepsInv(st, id, r);
        CascadeKeepsInv(st.(reviews := st.reviews[id := r.value]), r.value.submission);
      }
    }
  }

  lemma ConcludeKeepsInv(st: Store, sid: nat)
    requires Inv(st)
    ensures Inv(ConcludeStep(st, sid).store)
  {
    if sid in st.subs && |RR.ApprovedOf(st.reviews, sid)| >= RR.ApprovalsNeeded {
      var sub := st.subs[sid];
      S.StoredIgnoresLifecycle(sub, S.Reviewed, sub.author, sub.analysis, sub.metrics);
      PutSubmissionKeepsInv(st, sid, S.SaveOr(RR.Conclude(sub, st.reviews), ServerError));
    }
  }

  lemma ApproveReviewKeepsInv(st: Store, u: User, id: nat)
    requires Inv(st)
    ensures Inv(ApproveReviewStep(st, u, id).store)
  {
    if u.role != Student && id in st.reviews {
      var r := RR.Approve(u, st.reviews[id]);
      if r.Success? {
        PutReviewKeepsInv(st, id, r);
        ConcludeKeepsInv(st.(reviews := st.reviews[id := r.value]), r.value.submission);
      }
    }
  }

  lemma UpdateSubmissionKeepsInv(rt: Routes, st: Store, u: User, id: nat, p: SR.Patch)
    requires Sound(rt) && Inv(st)
    ensures Inv(UpdateSubmissionStep(rt, st, u, id, p).store)
  {
    if id in st.subs {
      assert KeepsLifecycle(rt.updateSubmission(u, st.subs[id], p), st.subs[id]);
      PutSubmissionKeepsInv(st, id, rt.updateSubmission(u, st.subs[id], p));
    }
  }

  lemma SubmitSubmissionKeepsInv(rt: Routes, st: Store, u: User, id: nat)
    requires Sound(rt) && Inv(st)
    ensures Inv(SubmitSubmissionStep(rt, st, u, id).store)
  {
    if id in st.subs {
      var all := Ordered(st.subs, st.next);
      assert SubmitsDraft(rt.submitSubmission(u, st.subs[id], all), st.subs[id]);
      PutSubmissionKeepsInv(st, id, rt.submitSubmission(u, st.subs[id], all));
    }
  }

  lemma UpdateReviewKeepsInv(rt: Routes, st: Store, u: User, id: nat, p: RR.Patch)
    requires Sound(rt) && Inv(st)
    ensures Inv(UpdateReviewStep(rt, st, u, id, p).store)
  {
    if id in st.reviews {
      assert KeepsReview(rt.updateReview(u, st.reviews[id], p), st.reviews[id]);
      PutReviewKeepsInv(st, id, rt.updateReview(u, st.reviews[id], p));
    }
  }

  lemma SubmissionStepKeepsInv(rt: Routes, st: Store, a: Action)
    requires Sound(rt) && Inv(st) && a.OnSubmission()
    ensures Inv(Step(rt, st, a).store)
  {
    match a
    case CreateSubmission(u, q) =>
      assert CreatesDraft(rt.createSubmission(st.next, u, q), st.next);
      FreshKeepsInv(st, rt.createSubmission(st.next, u, q));
    case CreateSubmissionWithFiles(u, fq) =>
      assert CreatesDraft(rt.createWithFiles(st.next, u, fq), st.next);
      FreshKeepsInv(st, rt.createWithFiles(st.next, u, fq));
    case UpdateSubmission(u, id, p) => UpdateSubmissionKeepsInv(rt, st, u, id, p);
    case SubmitSubmission(u, id) => SubmitSubmissionKeepsInv(rt, st, u, id);
    case DeleteSubmission(u, id) =>
    case _ =>
  }

  lemma ReviewStepKeepsInv(rt: Routes, st: Store, a: Action)
    requires Sound(rt) && Inv(st) && !a.OnSubmission()
    ensures Inv(Step(rt, st, a).store)
  {
    match a
    case CreateReview(u, q) => CreateReviewKeepsInv(rt, st, u, q);
    case SubmitReview(u, id) => SubmitReviewKeepsInv(st, u, id);
    case UpdateReview(u, id, p) => UpdateReviewKeepsInv(rt, st, u, id, p);
    case ApproveReview(u, id) => ApproveReviewKeepsInv(st, u, id);
    case DeleteReview(u, id) =>
    case _ =>
  }

  /** Every request keeps the invariant when the handlers are sound; with
      `ApplicationSound`, the application with its update routes corrected does. */
  lemma StepKeepsInv(rt: Routes, st: Store, a: Action)
    requires Sound(rt) && Inv(st)
    ensures Inv(Step(rt, st, a).store)
  {
    if a.OnSubmission() {
      SubmissionStepKeepsInv(rt, st, a);
    } else {
      ReviewStepKeepsInv(rt, st, a);
    }
  }

  // ---------------------------------------------------------------------------
  // Statuses

  /** No stored record's status moves backwards. */
  predicate Advances(st: Store, st': Store) {
    && (forall k :: k in st.subs && k in st'.subs ==>
          S.StatusRank(st.subs[k].status) <= S.StatusRank(st'.subs[k].status))
    && (forall k :: k in st.reviews && k in st'.reviews ==>
          R.StatusRank(st.reviews[k].status) <= R.StatusRank(st'.reviews[k].status))
  }

  /** No review becomes approved and no submission becomes reviewed. */
  predicate NoConclusion(st: Store, st': Store) {
    && (forall k :: k in st'.reviews && st'.reviews[k].status == R.Approved ==>
          k in st.reviews && st.reviews[k].status == R.Approved)
    && (forall k :: k in st'.subs && st'.subs[k].status == S.Reviewed ==>
          k in st.subs && st.subs[k].status == S.Reviewed)
  }

  /** Replacing one submission moves statuses forward when its own status does, and
      concludes nothing unless it becomes reviewed. */
  lemma SubMovedEffects(st: Store, st': Store, k: nat)
    requires SubMoved(st, st', k)
    ensures S.StatusRank(st.subs[k].status) <= S.StatusRank(st'.subs[k].status) ==> Advances(st, st')
    ensures st'.subs[k].status != S.Reviewed ==> NoConclusion(st, st')
  {
  }

  /** Replacing one review moves statuses forward when its own status does, and
      concludes nothing unless it becomes approved. */
  lemma ReviewMovedEffects(st: Store, st': Store, k: nat)
    requires ReviewMoved(st, st', k)
    ensures R.StatusRank(st.reviews[k].status) <= R.StatusRank(st'.reviews[k].status) ==> Advances(st, st')
    ensures st'.reviews[k].status != R.Approved ==> NoConclusion(st, st')
  {
  }

  lemma AdvancesTransitive(st: Store, st1: Store, st2: Store)
    requires Advances(st, st1) && Advances(st1, st2)
    requires st.subs.Keys <= st1.subs.Keys && st.reviews.Keys <= st1.reviews.Keys
    ensures Advances(st, st2)
  {
  }

  lemma NoConclusionTransitive(st: Store, st1: Store, st2: Store)
    requires NoConclusion(st, st1) && NoConclusion(st1, st2)
    ensures NoConclusion(st, st2)
  {
  }

  /** The cascade moves one submission from submitted to under_review, at most. */
  lemma CascadeEffects(st: Store, sid: nat)
    ensures Advances(st, CascadeStep(st, sid).store) && NoConclusion(st, CascadeStep(st, sid).store)
  {
    var rep := CascadeStep(st, sid);
    if rep.store != st {
      SubMovedEffects(st, rep.store, sid);
    }
  }

  /** Submitting a review moves it from draft to submitted and cascades. */
  lemma SubmitReviewEffects(st: Store, u: User, id: nat)
    ensures Advances(st, SubmitReviewStep(st, u, id).store)
    ensures NoConclusion(st, SubmitReviewStep(st, u, id).store)
  {
    var rep := SubmitReviewStep(st, u, id);
    if rep.store != st {
      var rv := st.reviews[id];
      var st1 := st.(reviews := st.reviews[id := rv.(status := R.Submitted)]);
      assert ReviewMoved(st, st1, id);
      ReviewMovedEffects(st, st1, id);
      CascadeEffects(st1, rv.submission);
      AdvancesTransitive(st, st1, rep.store);
      NoConclusionTransitive(st, st1, rep.store);
    }
  }

  /** Of the reviews, only review `id` can have become approved from `st` to `st'`. */
  predicate OnlyApproved(st: Store, st': Store, id: nat) {
    forall k :: k in st'.reviews && st'.reviews[k].status == R.Approved && (k !in st.reviews || st.reviews[k].status != R.Approved) ==>
      k == id
  }

  /** Every submission that has become reviewed from `st` to `st'` has two approved
      reviews in `st'`. */
  predicate ReviewedWithApprovals(st: Store, st': Store) {
    forall k :: k in st'.subs && st'.subs[k].status == S.Reviewed && (k !in st.subs || st.subs[k].status != S.Reviewed) ==>
      |RR.ApprovedOf(st'.reviews, k)| >= RR.ApprovalsNeeded
  }

  /** Concluding a submission moves its status forward, touches no review, and makes it
      reviewed only when it has two approved reviews. */
  lemma ConcludeEffects(st: Store, sid: nat)
    ensures Advances(st, ConcludeStep(st, sid).store)
    ensures ConcludeStep(st, sid).store.reviews == st.reviews
    ensures ReviewedWithApprovals(st, ConcludeStep(st, sid).store)
  {
    var st' := ConcludeStep(st, sid).store;
    if st' != st {
      SubMovedEffects(st, st', sid);
      MovedWithApprovals(st, st', sid);
    }
  }

  /** Replacing only submission `sid`, which has two approved reviews, makes no other
      submission reviewed. */
  lemma MovedWithApprovals(st: Store, st': Store, sid: nat)
    requires SubMoved(st, st', sid) && |RR.ApprovedOf(st.reviews, sid)| >= RR.ApprovalsNeeded
    ensures ReviewedWithApprovals(st, st')
  {
    forall k | k in st'.subs && st'.subs[k].status == S.Reviewed && (k !in st.subs || st.subs[k].status != S.Reviewed)
      ensures |RR.ApprovedOf(st'.reviews, k)| >= RR.ApprovalsNeeded
    {
      assert k == sid;
    }
  }

  /** An approval moves one review from submitted to approved, and its submission, once
      it has two approved reviews, to reviewed: nothing else concludes. */
  lemma ApproveReviewEffects(st: Store, u: User, id: nat)
    ensures ApproveReviewStep(st, u, id).store != st ==> u.role != Student
    ensures Advances(st, ApproveReviewStep(st, u, id).store)
    ensures OnlyApproved(st, ApproveReviewStep(st, u, id).store, id)
    ensures ReviewedWithApprovals(st, ApproveReviewStep(st, u, id).store)
  {
    var rep := ApproveReviewStep(st, u, id);
    if rep.store != st {
      var rv := st.reviews[id];
      var st1 := st.(reviews := st.reviews[id := rv.(status := R.Approved)]);
      assert ReviewMoved(st, st1, id);
      ReviewMovedEffects(st, st1, id);
      ConcludeEffects(st1, rv.submission);
      AdvancesTransitive(st, st1, rep.store);
      assert OnlyApproved(st, st1, id);
    }
  }

  /** A new draft under a fresh id moves no status and concludes nothing. */
  lemma FreshEffects(st: Store, r: Result<S.Submission, Refusal>)
    requires st.next !in st.subs
    requires CreatesDraft(r, st.next)
    ensures Advances(st, Fresh(st, r).store) && NoConclusion(st, Fresh(st, r).store)
  {
    if r.Success? {
      var st' := Fresh(st, r).store;
      assert st'.subs == st.subs[st.next := r.value] && st'.reviews == st.reviews;
      assert forall k :: k in st.subs ==> st'.subs[k] == st.subs[k];
    }
  }

  lemma UpdateSubmissionEffects(rt: Routes, st: Store, u: User, id: nat, p: SR.Patch)
    requires Sound(rt)
    ensures Advances(st, UpdateSubmissionStep(rt, st, u, id, p).store)
    ensures NoConclusion(st, UpdateSubmissionStep(rt, st, u, id, p).store)
  {
    var st' := UpdateSubmissionStep(rt, st, u, id, p).store;
    if st' != st {
      assert KeepsLifecycle(rt.updateSubmission(u, st.subs[id], p), st.subs[id]);
      SubMovedEffects(st, st', id);
    }
  }

  lemma SubmitSubmissionEffects(rt: Routes, st: Store, u: User, id: nat)
    requires Sound(rt)
    ensures Advances(st, SubmitSubmissionStep(rt, st, u, id).store)
    ensures NoConclusion(st, SubmitSubmissionStep(rt, st, u, id).store)
  {
    var st' := SubmitSubmissionStep(rt, st, u, id).store;
    if st' != st {
      assert SubmitsDraft(rt.submitSubmission(u, st.subs[id], Ordered(st.subs, st.next)), st.subs[id]);
      SubMovedEffects(st, st', id);
    }
  }

  lemma DeleteSubmissionEffects(st: Store, u: User, id: nat)
    ensures Advances(st, DeleteSubmissionStep(st, u, id).store)
    ensures NoConclusion(st, DeleteSubmissionStep(st, u, id).store)
  {
    var st' := DeleteSubmissionStep(st, u, id).store;
    assert st'.reviews == st.reviews && st'.subs.Keys <= st.subs.Keys;
    assert forall k :: k in st'.subs ==> st'.subs[k] == st.subs[k];
  }

  lemma CreateReviewEffects(rt: Routes, st: Store, u: User, q: RR.CreateRequest)
    requires Sound(rt) && Inv(st)
    ensures Advances(st, CreateReviewStep(rt, st, u, q).store)
    ensures NoConclusion(st, CreateReviewStep(rt, st, u, q).store)
  {
    var r := rt.createReview(st.next, u, q, Named(st, q), st.reviews);
    assert CreatesReview(r, st.next, q, Named(st, q), st.reviews);
  }

  lemma UpdateReviewEffects(rt: Routes, st: Store, u: User, id: nat, p: RR.Patch)
    requires Sound(rt)
    ensures Advances(st, UpdateReviewStep(rt, st, u, id, p).store)
    ensures NoConclusion(st, UpdateReviewStep(rt, st, u, id, p).store)
  {
    var st' := UpdateReviewStep(rt, st, u, id, p).store;
    if st' != st {
      assert KeepsReview(rt.updateReview(u, st.reviews[id], p), st.reviews[id]);
      ReviewMovedEffects(st, st', id);
    }
  }

  lemma SubmissionStepEffects(rt: Routes, st: Store, a: Action)
    requires Sound(rt) && Inv(st) && a.OnSubmission()
    ensures Advances(st, Step(rt, st, a).store) && NoConclusion(st, Step(rt, st, a).store)
  {
    match a
    case CreateSubmission(u, q) =>
      assert CreatesDraft(rt.createSubmission(st.next, u, q), st.next);
      FreshEffects(st, rt.createSubmission(st.next, u, q));
    case CreateSubmissionWithFiles(u, fq) =>
      assert CreatesDraft(rt.createWithFiles(st.next, u, fq), st.next);
      FreshEffects(st, rt.createWithFiles(st.next, u, fq));
    case UpdateSubmission(u, id, p) => UpdateSubmissionEffects(rt, st, u, id, p);
    case SubmitSubmission(u, id) => SubmitSubmissionEffects(rt, st, u, id);
    case DeleteSubmission(u, id) => DeleteSubmissionEffects(st, u, id);
    case _ =>
  }

  lemma ReviewStepEffects(rt: Routes, st: Store, a: Action)
    requires Sound(rt) && Inv(st) && !a.OnSubmission() && !a.ApproveReview?
    ensures Advances(st, Step(rt, st, a).store) && NoConclusion(st, Step(rt, st, a).store)
  {
    match a
    case CreateReview(u, q) => CreateReviewEffects(rt, st, u, q);
    case SubmitReview(u, id) => SubmitReviewEffects(st, u, id);
    case UpdateReview(u, id, p) => UpdateReviewEffects(rt, st, u, id, p);
    case DeleteReview(u, id) =>
    case _ =>
  }

  /** With sound handlers, every request moves statuses forward only; a review becomes
      approved only through the approve route, called by an instructor or an admin,
      and a submission becomes reviewed only through the approval of one of its
      reviews, once two of them are approved. */
  lemma StepEffects(rt: Routes, st: Store, a: Action)
    requires Sound(rt) && Inv(st)
    ensures Advances(st, Step(rt, st, a).store)
    ensures !a.ApproveReview? ==> NoConclusion(st, Step(rt, st, a).store)
    ensures a.ApproveReview? ==>
      && (Step(rt, st, a).store != st ==> a.u.role != Student)
      && OnlyApproved(st, Step(rt, st, a).store, a.id)
      && ReviewedWithApprovals(st, Step(rt, st, a).store)
  {
    if a.OnSubmission() {
      SubmissionStepEffects(rt, st, a);
    } else if a.ApproveReview? {
      ApproveReviewEffects(st, a.u, a.id);
    } else {
      ReviewStepEffects(rt, st, a);
    }
  }

  /** With sound handlers, a review that becomes approved does so through the approve
      route, called by an instructor or an admin. */
  lemma OnlyStaffApprove(rt: Routes, st: Store, a: Action, k: nat)
    requires Sound(rt) && Inv(st)
    requires k in Step(rt, st, a).store.reviews && Step(rt, st, a).store.reviews[k].status == R.Approved
    requires k !in st.reviews || st.reviews[k].status != R.Approved
    ensures a.ApproveReview? && a.id == k && a.u.role != Student
  {
    StepEffects(rt, st, a);
  }

  /** With sound handlers, a submission that becomes reviewed does so through the
      approval of one of its reviews, once two of them are approved. */
  lemma ReviewedOnlyByApprovals(rt: Routes, st: Store, a: Action, k: nat)
    requires Sound(rt) && Inv(st)
    requires k in Step(rt, st, a).store.subs && Step(rt, st, a).store.subs[k].status == S.Reviewed
    requires k !in st.subs || st.subs[k].status != S.Reviewed
    ensures a.ApproveReview? && a.u.role != Student
    ensures |RR.ApprovedOf(Step(rt, st, a).store.reviews, k)| >= RR.ApprovalsNeeded
  {
    StepEffects(rt, st, a);
  }

  /** A refused request changes nothing, except where the source saves one record before
      failing on a missing submission, which ends in a server error. */
  lemma RefusalChangesNothing(rt: Routes, st: Store, a: Action)
    requires Step(rt, st, a).outcome.Refused?
    requires Step(rt, st, a).outcome.why != ServerError
    ensures Step(rt, st, a).store == st
  {
    match a
    case CreateSubmission(u, q) =>
    case CreateSubmissionWithFiles(u, fq) =>
    case UpdateSubmission(u, id, p) =>
    case SubmitSubmission(u, id) =>
    case DeleteSubmission(u, id) =>
    case CreateReview(u, q) =>
    case SubmitReview(u, id) =>
    case UpdateReview(u, id, p) =>
    case ApproveReview(u, id) =>
    case DeleteReview(u, id) =>
  }

  // ---------------------------------------------------------------------------
  // The update routes as written

  /** Handlers whose submission update route is the one as written. */
  ghost predicate SubmissionUpdateAsWritten(rt: Routes) {
    forall u, s, p {:trigger rt.updateSubmission(u, s, p)} :: rt.updateSubmission(u, s, p) == SR.UpdateAsWritten(u, s, p)
  }

  /** Handlers whose review update route is the one as written. */
  ghost predicate ReviewUpdateAsWritten(rt: Routes, tk: Toolkit) {
    forall u, rv, p {:trigger rt.updateReview(u, rv, p)} :: rt.updateReview(u, rv, p) == RR.UpdateAsWritten(tk, u, rv, p)
  }

  /** The application's handlers as written have both update routes as written. */
  lemma ApplicationAsWritten(tk: Toolkit)
    ensures SubmissionUpdateAsWritten(Application(tk, AsWritten))
    ensures ReviewUpdateAsWritten(Application(tk, AsWritten), tk)
  {
  }

  lemma SubmissionAgrees(rt: Routes, u: User, s: S.Submission, p: SR.Patch)
    requires SubmissionUpdateAsWritten(rt)
    ensures rt.updateSubmission(u, s, p) == SR.UpdateAsWritten(u, s, p)
  {
  }

  lemma ReviewAgrees(rt: Routes, tk: Toolkit, u: User, rv: R.Review, p: RR.Patch)
    requires ReviewUpdateAsWritten(rt, tk)
    ensures rt.updateReview(u, rv, p) == RR.UpdateAsWritten(tk, u, rv, p)
  {
  }

  /** An update that gives submission `k` to the reviewer of one of its reviews leaves a
      stored review of its reviewer's own submission. */
  lemma HandOverBreaksNoSelfReview(rt: Routes, st: Store, u: User, k: nat, j: nat, p: SR.Patch)
    requires k in st.subs && j in st.reviews && st.reviews[j].submission == k
    requires rt.updateSubmission(u, st.subs[k], p).Success?
    requires rt.updateSubmission(u, st.subs[k], p).value.author == st.reviews[j].reviewer
    ensures !NoSelfReview(UpdateSubmissionStep(rt, st, u, k, p).store)
  {
    var st' := UpdateSubmissionStep(rt, st, u, k, p).store;
    assert st'.subs[k] == rt.updateSubmission(u, st.subs[k], p).value && st'.reviews == st.reviews;
  }

  /** With the submission update as written, the author of any submission that has a
      review can hand it to the reviewer, after which a stored review is of its
      reviewer's own submission. */
  lemma AsWrittenBreaksNoSelfReview(rt: Routes, st: Store, k: nat, j: nat)
    requires SubmissionUpdateAsWritten(rt) && Inv(st)
    requires k in st.subs && j in st.reviews && st.reviews[j].submission == k
    requires st.subs[k].status != S.Reviewed
    ensures !NoSelfReview(UpdateSubmissionStep(rt, st,
      User(st.subs[k].author, Student), k,
      SR.Unchanged.(author := Some(st.reviews[j].reviewer))).store)
  {
    var s := st.subs[k];
    var u := User(s.author, Student);
    var p := SR.Unchanged.(author := Some(st.reviews[j].reviewer));
    assert SubsWellFormed(st);
    SR.UpdateAsWrittenHandsOver(s, st.reviews[j].reviewer);
    SubmissionAgrees(rt, u, s, p);
    HandOverBreaksNoSelfReview(rt, st, u, k, j, p);
  }

  /** With the submission update as written, the author of a draft submission can make
      it reviewed in one request, with no approved review. */
  lemma AsWrittenSkipsReview(rt: Routes, st: Store, k: nat)
    requires SubmissionUpdateAsWritten(rt) && Inv(st)
    requires k in st.subs && st.subs[k].status == S.Draft
    ensures UpdateSubmissionStep(rt, st,
      User(st.subs[k].author, Student), k,
      SR.Unchanged.(status := Some(S.Reviewed))).store.subs[k].status == S.Reviewed
  {
    var s := st.subs[k];
    assert SubsWellFormed(st);
    assert S.Stored(s);
    SR.UpdateAsWrittenSkipsReview(s);
    SubmissionAgrees(rt, User(s.author, Student), s, SR.Unchanged.(status := Some(S.Reviewed)));
  }

  /** With the review update as written, a student reviewer can approve their own draft
      review. */
  lemma AsWrittenSelfApproval(rt: Routes, tk: Toolkit, st: Store, j: nat)
    requires ReviewUpdateAsWritten(rt, tk) && Inv(st)
    requires j in st.reviews && st.reviews[j].status == R.Draft
    ensures UpdateReviewStep(rt, st,
      User(st.reviews[j].reviewer, Student), j,
      RR.Unchanged.(status := Some(R.Approved))).store.reviews[j].status
      == R.Approved
  {
    var rv := st.reviews[j];
    assert R.Valid(rv);
    RR.UpdateAsWrittenSelfApproves(tk, rv);
    ReviewAgrees(rt, tk, User(rv.reviewer, Student), rv, RR.Unchanged.(status := Some(R.Approved)));
  }
}

=== FILE: nlp.dfy ===
/** The natural-language collaborators the analysis service delegates to. Their
    algorithms (a word tokenizer, the Porter stemmer and a sentiment lexicon) are not
    part of this model, so they are carried around as opaque functions. */
module Nlp {

  /** `tokenize`: natural's WordTokenizer; `stem`: natural's PorterStemmer;
      `sentimentScore` and `comparative`: the sentiment library's score and its
      per-token average for a text. */
  datatype Toolkit = Toolkit(
    tokenize: string -> seq<string>,
    stem: string -> string,
    sentimentScore: string -> int,
    comparative: string -> real)
}

=== FILE: normalize.dfy ===
// Text cleaning before similarity scoring: bold markup removal
// (`replace(/\*\*([^*]+)\*\*/g, '$1')`), whitespace collapsing
// (`replace(/\s+/g, ' ')`) and `trim()`.
module Normalize {
  import opened Strings
  import Collections

  /** Length of the longest prefix of `s` free of '*'. */
  function StarFreePrefix(s: string): (n: nat)
    ensures n <= |s|
    ensures forall i :: 0 <= i < n ==> s[i] != '*'
    ensures n == |s| || s[n] == '*'
  {
    if s == [] || s[0] == '*' then 0 else 1 + StarFreePrefix(s[1..])
  }

  /** The global bold-markup replacement: scanning left to right, each `**x**` with a
      non-empty star-free `x` is replaced by `x`; other characters are copied. */
  function StripBold(s: string): string
    decreases |s|
  {
    if s == [] then []
    else if |s| >= 2 && s[0] == '*' && s[1] == '*' && BoldEnd(s) > 0 then
      s[2..BoldEnd(s) - 2] + StripBold(s[BoldEnd(s)..])
    else [s[0]] + StripBold(s[1..])
  }

  /** When `s` starts with a bold match `**x**`, the index just past it; otherwise 0. */
  function BoldEnd(s: string): (e: nat)
    requires |s| >= 2 && s[0] == '*' && s[1] == '*'
    ensures e == 0 || (5 <= e <= |s| && s[e - 2] == '*' && s[e - 1] == '*')
  {
    var k := StarFreePrefix(s[2..]);
    if k > 0 && 2 + k + 1 < |s| && s[2 + k + 1] == '*' then 2 + k + 2 else 0
  }

  /** A bold span `**x**` is replaced by its star-free content. */
  lemma BoldPairIsUnwrapped(x: string, rest: string)
    requires x != [] && '*' !in x
    ensures StripBold("**" + x + "**" + rest) == x + StripBold(rest)
  {
    var s := "**" + x + "**" + rest;
    assert s[2..] == x + ("**" + rest);
    assert StarFreePrefix(s[2..]) == |x| by {
      StarFreePrefixOf(x, "**" + rest);
    }
    assert BoldEnd(s) == |x| + 4;
    assert s[2..|x| + 2] == x;
    assert s[|x| + 4..] == rest;
  }

  /** The star-free prefix of `x + t` is `x` when `t` starts with '*'. */
  lemma {:induction false} StarFreePrefixOf(x: string, t: string)
    requires '*' !in x && t != [] && t[0] == '*'
    ensures StarFreePrefix(x + t) == |x|
  {
    if x != [] {
      assert (x + t)[1..] == x[1..] + t;
      assert '*' !in x[1..];
      StarFreePrefixOf(x[1..], t);
    }
  }

  /** Text without '*' is left unchanged. */
  lemma {:induction false} StarFreeUnchanged(s: string)
    requires '*' !in s
    ensures StripBold(s) == s
  {
    if s != [] {
      assert '*' !in s[1..];
      StarFreeUnchanged(s[1..]);
      HeadSplit(s);
    }
  }

  /** Whitespace is normal: every whitespace character is a plain space, no two are
      adjacent, and there is none at either end. */
  predicate WhitespaceNormal(t: string) {
    && (forall i :: 0 <= i < |t| && IsSpace(t[i]) ==> t[i] == ' ')
    && (forall i :: 0 <= i < |t| - 1 ==> !(IsSpace(t[i]) && IsSpace(t[i + 1])))
    && (t == [] || (!IsSpace(t[0]) && !IsSpace(t[|t| - 1])))
  }

  /** `replace(/\s+/g, ' ').trim()`: the words of `s`, separated by single spaces. */
  function NormalizeSpace(s: string): (r: string)
    ensures WhitespaceNormal(r)
    ensures Words(r) == Words(s)
    ensures r == Join(Words(s), " ")
  {
    var c := Collapse(s);
    TrimCollapsed(c);
    WordsCollapse(s);
    WordsTrim(c);
    NormalIsJoinedWords(Trim(c));
    Trim(c)
  }

  /** Text with normal whitespace is its words joined by single spaces. */
  lemma NormalIsJoinedWords(t: string)
    requires WhitespaceNormal(t)
    ensures t == Join(Words(t), " ")
  {
    CollapseNormalFixed(t);
    JoinSplitRunsIsCollapse(t);
    var p := SplitRuns(t, IsSpace);
    if t == [] {
      assert p == [[]];
      assert Words(t) == [];
    } else {
      ShapeAllFilled(t, p);
      Collections.FilterAll(Filled, p);
    }
  }

  /** A split whose input neither starts nor ends with a separator has no empty piece. */
  lemma ShapeAllFilled(t: string, p: seq<string>)
    requires t != [] && !IsSpace(t[0]) && !IsSpace(t[|t| - 1])
    requires Shape(t, p, IsSpace)
    ensures forall k :: 0 <= k < |p| ==> Filled(p[k])
  {
  }

  /** Trimming a string with single plain-space runs leaves normal whitespace. */
  lemma TrimCollapsed(c: string)
    requires forall i :: 0 <= i < |c| && IsSpace(c[i]) ==> c[i] == ' '
    requires forall i :: 0 <= i < |c| - 1 ==> !(IsSpace(c[i]) && IsSpace(c[i + 1]))
    ensures WhitespaceNormal(Trim(c))
  {
    TrimIsSlice(c);
    SliceKeepsSpacing(c, LeadingSpaces(c), LeadingSpaces(c) + |Trim(c)|, Trim(c));
  }

  /** A slice of a string with single plain-space runs has single plain-space runs. */
  lemma SliceKeepsSpacing(c: string, a: nat, b: nat, r: string)
    requires a <= b <= |c| && r == c[a..b]
    requires forall i :: 0 <= i < |c| && IsSpace(c[i]) ==> c[i] == ' '
    requires forall i :: 0 <= i < |c| - 1 ==> !(IsSpace(c[i]) && IsSpace(c[i + 1]))
    ensures forall i :: 0 <= i < |r| && IsSpace(r[i]) ==> r[i] == ' '
    ensures forall i :: 0 <= i < |r| - 1 ==> !(IsSpace(r[i]) && IsSpace(r[i + 1]))
  {
    forall i | 0 <= i < |r| && IsSpace(r[i])
      ensures r[i] == ' '
    {
      assert r[i] == c[a + i];
    }
    forall i | 0 <= i < |r| - 1
      ensures !(IsSpace(r[i]) && IsSpace(r[i + 1]))
    {
      assert r[i] == c[a + i] && r[i + 1] == c[a + i + 1];
    }
  }

  /** Text whose whitespace is already normal is a fixed point of collapsing. */
  lemma {:induction false} CollapseNormalFixed(t: string)
    requires forall i :: 0 <= i < |t| && IsSpace(t[i]) ==> t[i] == ' '
    requires forall i :: 0 <= i < |t| - 1 ==> !(IsSpace(t[i]) && IsSpace(t[i + 1]))
    ensures Collapse(t) == t
  {
    if t != [] {
      CollapseNormalFixed(t[1..]);
      if IsSpace(t[0]) {
        assert DropWhile(t[1..], IsSpace) == t[1..];
      }
      HeadSplit(t);
    }
  }

  /** Normalising whitespace twice is the same as once. */
  lemma NormalizeSpaceIdempotent(s: string)
    ensures NormalizeSpace(NormalizeSpace(s)) == NormalizeSpace(s)
  {
    var t := NormalizeSpace(s);
    CollapseNormalFixed(t);
    assert TrimStart(t) == t;
    assert TrimEnd(t) == t;
  }

  /** The cleaning applied to both the candidate and every corpus document: markup
      removed, whitespace runs collapsed to one space, ends trimmed. */
  function Clean(s: string): (r: string)
    ensures WhitespaceNormal(r)
    ensures Words(r) == Words(StripBold(s))
    ensures r == Join(Words(StripBold(s)), " ")
  {
    NormalizeSpace(StripBold(s))
  }

  /** Every character of `s` is whitespace (vacuously so for the empty string). */
  predicate AllSpace(s: string) {
    forall i :: 0 <= i < |s| ==> IsSpace(s[i])
  }

  /** Cleaning gives the empty string exactly when the de-marked text is all whitespace. */
  lemma CleanEmptyIff(s: string)
    ensures Clean(s) == [] <==> AllSpace(StripBold(s))
  {
    var b := StripBold(s);
    TrimEmptyIff(Collapse(b));
    CollapseAllSpace(b);
  }

  /** The collapsed text is all whitespace exactly when the input is. */
  lemma {:induction false} CollapseAllSpace(s: string)
    ensures AllSpace(Collapse(s)) <==> AllSpace(s)
    decreases |s|
  {
    if s != [] {
      var c := Collapse(s);
      if IsSpace(s[0]) {
        var d := DropWhile(s[1..], IsSpace);
        assert d == DropWhile(s, IsSpace);
        CollapseAllSpace(d);
        assert c == [' '] + Collapse(d);
        assert IsSpace(' ');
        AllSpaceConcat([' '], Collapse(d));
        AllSpaceSuffix(s, |s| - |d|);
      } else {
        assert !IsSpace(c[0]);
      }
    }
  }

  /** Past a whitespace prefix, the rest is all whitespace exactly when the whole is. */
  lemma AllSpaceSuffix(s: string, n: nat)
    requires n <= |s| && forall i :: 0 <= i < n ==> IsSpace(s[i])
    ensures AllSpace(s) <==> AllSpace(s[n..])
  {
    if AllSpace(s[n..]) {
      forall i | n <= i < |s|
        ensures IsSpace(s[i])
      {
        assert s[i] == s[n..][i - n];
      }
    }
  }

  lemma AllSpaceConcat(a: string, b: string)
    requires AllSpace(a)
    ensures AllSpace(a + b) <==> AllSpace(b)
  {
    if AllSpace(b) {
      assert forall i :: 0 <= i < |a + b| ==> (a + b)[i] == if i < |a| then a[i] else b[i - |a|];
    }
    if AllSpace(a + b) {
      assert forall i :: 0 <= i < |b| ==> b[i] == (a + b)[i + |a|];
    }
  }

  /** `chunk.toLowerCase().replace(/\s+/g, ' ').trim()`, the chunk normalisation. */
  function NormalizeChunk(s: string): (r: string)
    ensures WhitespaceNormal(r)
    ensures Words(r) == Words(Lower(s))
    ensures r == Join(Words(Lower(s)), " ")
  {
    NormalizeSpace(Lower(s))
  }
}

=== FILE: numeric.dfy ===
/** Rounding as JavaScript's Math.round and the `Math.round(x * 100) / 100` idiom,
    over exact reals. */
module Numeric {

  /** Math.round: the nearest integer, halves rounded towards +infinity. */
  function Round(x: real): (r: int)
    ensures r as real <= x + 0.5 < r as real + 1.0
  {
    (x + 0.5).Floor
  }

  /** Math.round(x * 100) / 100: x rounded to two decimals. */
  function Round2(x: real): (r: real)
    ensures 100.0 * r == Round(x * 100.0) as real
    ensures 100.0 * x - 0.5 < 100.0 * r <= 100.0 * x + 0.5
  {
    Round(x * 100.0) as real / 100.0
  }

  function Max(a: int, b: int): int { if a < b then b else a }

  function Min(a: int, b: int): int { if a < b then a else b }

  /** One more row of `b`. */
  lemma MulSucc(b: int, n: int)
    ensures b * (n + 1) == b * n + b
  {
  }

  /** A ratio of a count to a positive bound at least as large lies in [0, 1]. */
  lemma RatioUnit(k: int, m: int)
    requires 0 <= k <= m && m > 0
    ensures 0.0 <= k as real / m as real <= 1.0
  {
  }

  /** A positive count over itself is 1. */
  lemma RatioSelf(k: int)
    requires k > 0
    ensures k as real / k as real == 1.0
  {
  }

  /** Rounding an integer-valued real gives that integer back. */
  lemma RoundOfInt(k: int)
    ensures Round(k as real) == k
  {
  }

  /** Rounding is monotone. */
  lemma RoundMonotone(x: real, y: real)
    requires x <= y
    ensures Round(x) <= Round(y)
  {
  }

  /** Rounding a value within integer bounds stays within them. */
  lemma RoundWithin(x: real, lo: int, hi: int)
    requires lo as real <= x <= hi as real
    ensures lo <= Round(x) <= hi
  {
    RoundOfInt(lo);
    RoundOfInt(hi);
    RoundMonotone(lo as real, x);
    RoundMonotone(x, hi as real);
  }

  /** A value above 0.05 and at most 1 stays within [0.05, 1] at two decimals. */
  lemma Round2AboveFive(x: real)
    requires 0.05 < x <= 1.0
    ensures 0.05 <= Round2(x) <= 1.0
  {
    RoundWithin(x * 100.0, 5, 100);
  }

  /** `x` is a whole number of hundredths. */
  predicate WholePercent(x: real) {
    Round(x * 100.0) as real == x * 100.0
  }

  /** Rounding to two decimals yields whole hundredths. */
  lemma Round2WholePercent(x: real)
    ensures WholePercent(Round2(x))
  {
    RoundOfInt(Round(x * 100.0));
  }

  /** Whole hundredths in [0.05, 1] are 5 to 100 percent. */
  lemma PercentWithin(x: real)
    requires WholePercent(x) && 0.05 <= x <= 1.0
    ensures 5 <= Round(x * 100.0) <= 100
  {
  }

  /** A ratio in [0, 1] keeps two-decimal rounding in [0, 1]. */
  lemma Round2Unit(x: real)
    requires 0.0 <= x <= 1.0
    ensures 0.0 <= Round2(x) <= 1.0
  {
    RoundWithin(x * 100.0, 0, 100);
  }
}

=== FILE: plagiarism.dfy ===
/** detectPlagiarism and its helpers: every corpus document is cleaned, tokenised,
    stemmed and scored against the candidate; documents above 5% become sources, with
    matching 25-word chunk pairs as evidence; the report carries the best score. */
module Plagiarism {
  import opened Wrappers
  import opened Strings
  import opened Nlp
  import opened Normalize
  import opened Similarity
  import opened Sorting
  import opened Numeric
  import opened Collections

  /** A corpus document is reported when its similarity exceeds this. */
  const ReportThreshold: real := 0.05
  /** A chunk pair is kept as evidence when its similarity exceeds this. */
  const SpanThreshold: real := 0.3
  /** Words per chunk in findMatchingText. */
  const ChunkSize: nat := 25
  /** Chunk pairs returned per source. */
  const MaxSpans: nat := 5

  /** A previous submission offered for comparison; `content` is None when missing. */
  datatype Doc = Doc(id: nat, title: string, author: nat, content: Option<string>)

  /** A matching chunk pair: the candidate's chunk, the document's chunk, and their
      similarity rounded to two decimals. */
  datatype Span = Span(text: string, matchedText: string, similarity: real)

  /** A reported corpus document. */
  datatype Source = Source(submissionId: nat, title: string, author: nat, similarity: real, matchingText: seq<Span>)

  datatype Report = Report(score: int, sources: seq<Source>, totalSources: nat, checkedSources: nat, error: Option<string>)

  function SpanKey(m: Span): real { m.similarity }

  function SourceKey(s: Source): real { s.similarity }

  // ---------------------------------------------------------------------------
  // Chunks

  /** The concatenation of a list of word lists. */
  function Flatten(cs: seq<seq<string>>): seq<string> {
    if cs == [] then [] else cs[0] + Flatten(cs[1..])
  }

  /** Consecutive slices of `n` words, the last one possibly shorter. */
  function ChunkWords(ws: seq<string>, n: nat): (r: seq<seq<string>>)
    requires n > 0
    ensures forall i :: 0 <= i < |r| ==> 0 < |r[i]| <= n
    ensures forall i :: 0 <= i < |r| - 1 ==> |r[i]| == n
    ensures Flatten(r) == ws
    decreases |ws|
  {
    if ws == [] then []
    else if |ws| <= n then
      assert Flatten([ws]) == ws + Flatten([]);
      [ws]
    else
      var rest := ChunkWords(ws[n..], n);
      var r := [ws[..n]] + rest;
      assert r[1..] == rest;
      assert ws == ws[..n] + ws[n..];
      r
  }

  /** createTextChunks: the whitespace-split words of `text`, `n` at a time, each
      chunk re-joined with single spaces. */
  function CreateTextChunks(text: string, n: nat): (r: seq<string>)
    requires n > 0
    ensures |r| == |ChunkWords(SplitRuns(text, IsSpace), n)|
    ensures forall i :: 0 <= i < |r| ==> r[i] == Join(ChunkWords(SplitRuns(text, IsSpace), n)[i], " ")
  {
    var cs := ChunkWords(SplitRuns(text, IsSpace), n);
    seq(|cs|, i requires 0 <= i < |cs| => Join(cs[i], " "))
  }

  /** Joining two non-empty lists joins their joins. */
  lemma {:induction false} JoinAppend(x: seq<string>, y: seq<string>, d: string)
    requires x != [] && y != []
    ensures Join(x + y, d) == Join(x, d) + d + Join(y, d)
  {
    if |x| == 1 {
      assert (x + y)[1..] == y;
    } else {
      assert (x + y)[1..] == x[1..] + y;
      JoinAppend(x[1..], y, d);
    }
  }

  /** Re-joining the chunks of `text` gives `text` with whitespace runs collapsed. */
  lemma ChunksRejoin(text: string, n: nat)
    requires n > 0
    ensures Join(CreateTextChunks(text, n), " ") == Collapse(text)
  {
    var ws := SplitRuns(text, IsSpace);
    var cs := ChunkWords(ws, n);
    JoinOfJoins(cs, CreateTextChunks(text, n));
    JoinSplitRunsIsCollapse(text);
  }

  lemma {:induction false} JoinOfJoins(cs: seq<seq<string>>, js: seq<string>)
    requires forall i :: 0 <= i < |cs| ==> cs[i] != []
    requires |js| == |cs| && forall i :: 0 <= i < |cs| ==> js[i] == Join(cs[i], " ")
    ensures Join(js, " ") == Join(Flatten(cs), " ")
  {
    if |cs| == 1 {
      assert Flatten(cs) == cs[0] + Flatten(cs[1..]);
      assert Flatten(cs) == cs[0];
    } else if |cs| > 1 {
      JoinOfJoins(cs[1..], js[1..]);
      FlattenNonEmpty(cs[1..]);
      JoinAppend(cs[0], Flatten(cs[1..]), " ");
    }
  }

  lemma {:induction false} FlattenNonEmpty(cs: seq<seq<string>>)
    requires cs != [] && cs[0] != []
    ensures Flatten(cs) != []
  {
  }

  // ---------------------------------------------------------------------------
  // Matching chunk pairs

  /** Similarity of two raw chunks: each is lower-cased and whitespace-normalised,
      then tokenised (not stemmed). */
  function ChunkSimilarity(tk: Toolkit, x: string, y: string): (r: real)
    ensures 0.0 <= r <= 1.0
  {
    Composite(tk.tokenize(NormalizeChunk(x)), tk.tokenize(NormalizeChunk(y)))
  }

  /** The evidence record for a chunk pair. */
  function SpanOf(tk: Toolkit, x: string, y: string): Span {
    Span(x, y, Round2(ChunkSimilarity(tk, x, y)))
  }

  /** The evidence for a chunk pair: its record when it is above the threshold. */
  function Evidence(tk: Toolkit, x: string, y: string): (r: Option<Span>)
    ensures r.Some? <==> ChunkSimilarity(tk, x, y) > SpanThreshold
    ensures r.Some? ==> r.value.text == x && r.value.matchedText == y
    ensures r.Some? ==> 100.0 * r.value.similarity == Round(100.0 * ChunkSimilarity(tk, x, y)) as real
  {
    var sim := ChunkSimilarity(tk, x, y);
    if sim > SpanThreshold then Some(Span(x, y, Round2(sim))) else None
  }

  /** The evidence test as a function of a chunk pair. */
  function EvidenceOf(tk: Toolkit): (string, string) -> Option<Span> {
    (x, y) => Evidence(tk, x, y)
  }

  /** `f` with its first argument fixed to `x`. */
  function Against<T>(f: (string, string) -> Option<T>, x: string): string -> Option<T> {
    y => f(x, y)
  }

  /** `m` is produced by `f` on some `x` in `xs` paired with some `y` in `ys`. */
  predicate Produced<T(==)>(f: (string, string) -> Option<T>, xs: seq<string>, ys: seq<string>, m: T) {
    exists i, j :: 0 <= i < |xs| && 0 <= j < |ys| && f(xs[i], ys[j]) == Some(m)
  }

  /** The inner loop: what `f` produces for `x` with each of `ys`, in order; the value
      for `ys[j]` comes after those for the earlier `ys` that produce one. */
  function Row<T(==,!new)>(f: (string, string) -> Option<T>, x: string, ys: seq<string>): (r: seq<T>)
    ensures |r| == Count(Yields(Against(f, x)), ys)
    ensures forall m :: m in r <==> Produced(f, [x], ys, m)
  {
    var g := Against(f, x);
    var r := Collect(g, ys);
    forall m
      ensures m in r <==> Produced(f, [x], ys, m)
    {
      if m in r {
        var j :| 0 <= j < |ys| && g(ys[j]) == Some(m);
        assert [x][0] == x;
      }
      if Produced(f, [x], ys, m) {
        var i, j :| 0 <= i < 1 && 0 <= j < |ys| && f([x][i], ys[j]) == Some(m);
        assert g(ys[j]) == Some(m);
      }
    }
    r
  }

  /** The value `f` produces for `x` with `ys[j]` follows those for the earlier `ys`
      that produce one. */
  lemma RowLayout<T(!new)>(f: (string, string) -> Option<T>, x: string, ys: seq<string>, j: nat)
    requires j < |ys| && f(x, ys[j]).Some?
    ensures Count(Yields(Against(f, x)), ys[..j]) < |Row(f, x, ys)|
    ensures Row(f, x, ys)[Count(Yields(Against(f, x)), ys[..j])] == f(x, ys[j]).value
  {
    assert Against(f, x)(ys[j]) == f(x, ys[j]);
    assert PlacedAt(Against(f, x), ys, Row(f, x, ys), j);
  }

  /** Both loops: what `f` produces for every pair, in row-major order. */
  function Grid<T(==,!new)>(f: (string, string) -> Option<T>, xs: seq<string>, ys: seq<string>): (r: seq<T>)
    ensures |r| <= |xs| * |ys|
    ensures forall m :: m in r <==> Produced(f, xs, ys, m)
  {
    if xs == [] then []
    else
      var row := Row(f, xs[0], ys);
      var rest := Grid(f, xs[1..], ys);
      GridStep(f, xs, ys, row, rest);
      GridBound(|row|, |rest|, |xs|, |ys|);
      row + rest
  }

  lemma GridBound(row: nat, rest: nat, n: nat, w: nat)
    requires n > 0 && row <= w && rest <= (n - 1) * w
    ensures row + rest <= n * w
  {
    assert n * w == w + (n - 1) * w;
  }

  lemma GridStep<T>(f: (string, string) -> Option<T>, xs: seq<string>, ys: seq<string>, row: seq<T>, rest: seq<T>)
    requires xs != []
    requires forall m :: m in row <==> Produced(f, [xs[0]], ys, m)
    requires forall m :: m in rest <==> Produced(f, xs[1..], ys, m)
    ensures forall m :: m in row + rest <==> Produced(f, xs, ys, m)
  {
    forall m
      ensures m in row + rest <==> Produced(f, xs, ys, m)
    {
      if Produced(f, xs, ys, m) {
        var i, j :| 0 <= i < |xs| && 0 <= j < |ys| && f(xs[i], ys[j]) == Some(m);
        if i == 0 {
          assert [xs[0]][0] == xs[i];
          assert Produced(f, [xs[0]], ys, m);
        } else {
          assert xs[1..][i - 1] == xs[i];
          assert Produced(f, xs[1..], ys, m);
        }
      }
      if m in row {
        var i, j :| 0 <= i < 1 && 0 <= j < |ys| && f([xs[0]][i], ys[j]) == Some(m);
        assert Produced(f, xs, ys, m);
      }
      if m in rest {
        var i, j :| 0 <= i < |xs[1..]| && 0 <= j < |ys| && f(xs[1..][i], ys[j]) == Some(m);
        assert xs[1..][i] == xs[i + 1];
        assert Produced(f, xs, ys, m);
      }
    }
  }

  /** The grid of a concatenation is the grids of its parts, one after the other. */
  lemma {:induction false} GridAppend<T(!new)>(f: (string, string) -> Option<T>, a: seq<string>, b: seq<string>, ys: seq<string>)
    ensures Grid(f, a + b, ys) == Grid(f, a, ys) + Grid(f, b, ys)
  {
    if a == [] {
      assert a + b == b;
    } else {
      assert (a + b)[0] == a[0];
      assert (a + b)[1..] == a[1..] + b;
      GridAppend(f, a[1..], b, ys);
    }
  }

  /** Row-major order: the row of `xs[i]` follows the rows of the chunks before it and
      precedes those of the chunks after it. */
  lemma GridRows<T(!new)>(f: (string, string) -> Option<T>, xs: seq<string>, ys: seq<string>, i: nat)
    requires i < |xs|
    ensures Grid(f, xs, ys) == Grid(f, xs[..i], ys) + Row(f, xs[i], ys) + Grid(f, xs[i + 1..], ys)
  {
    var c := [xs[i]] + xs[i + 1..];
    assert xs == xs[..i] + c;
    GridAppend(f, xs[..i], c, ys);
    assert c[0] == xs[i] && c[1..] == xs[i + 1..];
  }

  /** Every chunk pair of `text1` and `text2` above the evidence threshold, row by row:
      the pairs of the `i`-th chunk of `text1` follow those of the chunks before it. */
  function AllMatches(tk: Toolkit, text1: string, text2: string): (r: seq<Span>)
    ensures forall m :: m in r <==> Produced(EvidenceOf(tk), CreateTextChunks(text1, ChunkSize), CreateTextChunks(text2, ChunkSize), m)
    ensures forall i :: 0 <= i < |CreateTextChunks(text1, ChunkSize)| ==>
      r == Grid(EvidenceOf(tk), CreateTextChunks(text1, ChunkSize)[..i], CreateTextChunks(text2, ChunkSize))
        + Row(EvidenceOf(tk), CreateTextChunks(text1, ChunkSize)[i], CreateTextChunks(text2, ChunkSize))
        + Grid(EvidenceOf(tk), CreateTextChunks(text1, ChunkSize)[i + 1..], CreateTextChunks(text2, ChunkSize))
  {
    var cs1 := CreateTextChunks(text1, ChunkSize);
    var cs2 := CreateTextChunks(text2, ChunkSize);
    forall i | 0 <= i < |cs1|
      ensures Grid(EvidenceOf(tk), cs1, cs2) ==
        Grid(EvidenceOf(tk), cs1[..i], cs2) + Row(EvidenceOf(tk), cs1[i], cs2) + Grid(EvidenceOf(tk), cs1[i + 1..], cs2)
    {
      GridRows(EvidenceOf(tk), cs1, cs2, i);
    }
    Grid(EvidenceOf(tk), cs1, cs2)
  }

  /** findMatchingText: at most five kept chunk pairs, highest similarity first, drawn
      from the kept pairs without repetition beyond theirs; any kept pair left out ranks
      no higher than every pair returned. */
  function FindMatchingText(tk: Toolkit, text1: string, text2: string): (r: seq<Span>)
    ensures |r| == if |AllMatches(tk, text1, text2)| < MaxSpans then |AllMatches(tk, text1, text2)| else MaxSpans
    ensures multiset(r) <= multiset(AllMatches(tk, text1, text2))
    ensures SortedDesc(r, SpanKey)
    ensures forall k :: 0 <= k < |r| ==> r[k] in AllMatches(tk, text1, text2)
    ensures forall m :: m in AllMatches(tk, text1, text2) && m !in r ==>
      |r| == MaxSpans && forall k :: 0 <= k < |r| ==> SpanKey(r[k]) >= SpanKey(m)
  {
    TopSpans(AllMatches(tk, text1, text2))
  }

  /** The five best-ranked spans of `all`: five of them, or all when there are fewer. */
  function TopSpans(all: seq<Span>): (r: seq<Span>)
    ensures |r| == if MaxSpans <= |all| then MaxSpans else |all|
    ensures multiset(r) <= multiset(all)
    ensures SortedDesc(r, SpanKey)
    ensures forall k :: 0 <= k < |r| ==> r[k] in all
    ensures forall m :: m in all && m !in r ==>
      |r| == MaxSpans && forall k :: 0 <= k < |r| ==> SpanKey(r[k]) >= SpanKey(m)
  {
    var sorted := SortDesc(all, SpanKey);
    TopOfSorted(all, MaxSpans, SpanKey);
    Take(sorted, MaxSpans)
  }

  // ---------------------------------------------------------------------------
  // Scoring the corpus

  /** The values `f` yields along `xs`, in order: a `for` loop with `continue`s and a
      `push`. The value of `xs[k]` sits after those of the earlier elements that yield
      one. */
  function Collect<A, T(==,!new)>(f: A -> Option<T>, xs: seq<A>): (r: seq<T>)
    ensures |r| == Count(Yields(f), xs)
    ensures forall k :: 0 <= k < |xs| ==> PlacedAt(f, xs, r, k)
    ensures forall m :: m in r <==> exists k :: 0 <= k < |xs| && f(xs[k]) == Some(m)
    ensures (forall k :: 0 <= k < |xs| ==> f(xs[k]).None?) ==> r == []
  {
    if xs == [] then []
    else
      var rest := Collect(f, xs[1..]);
      assert forall k :: 0 <= k < |xs[1..]| ==> xs[1..][k] == xs[k + 1];
      assert forall m :: (exists k :: 0 <= k < |xs[1..]| && f(xs[1..][k]) == Some(m)) ==>
        exists k :: 0 <= k < |xs| && f(xs[k]) == Some(m) by {
        forall m | exists k :: 0 <= k < |xs[1..]| && f(xs[1..][k]) == Some(m)
          ensures exists k :: 0 <= k < |xs| && f(xs[k]) == Some(m)
        {
          var k :| 0 <= k < |xs[1..]| && f(xs[1..][k]) == Some(m);
          assert f(xs[k + 1]) == Some(m);
        }
      }
      var r := if f(xs[0]).Some? then [f(xs[0]).value] + rest else rest;
      CollectPlaces(f, xs, rest, r);
      r
  }

  /** When `xs[k]` yields a value, it sits in `r` after the values of the earlier
      elements that yield one. */
  predicate PlacedAt<A, T(==)>(f: A -> Option<T>, xs: seq<A>, r: seq<T>, k: nat)
    requires k < |xs|
  {
    f(xs[k]).Some? ==> Count(Yields(f), xs[..k]) < |r| && r[Count(Yields(f), xs[..k])] == f(xs[k]).value
  }

  lemma CollectPlaces<A, T>(f: A -> Option<T>, xs: seq<A>, rest: seq<T>, r: seq<T>)
    requires xs != [] && |rest| == Count(Yields(f), xs[1..])
    requires forall k :: 0 <= k < |xs[1..]| ==> PlacedAt(f, xs[1..], rest, k)
    requires r == if f(xs[0]).Some? then [f(xs[0]).value] + rest else rest
    ensures forall k :: 0 <= k < |xs| ==> PlacedAt(f, xs, r, k)
  {
    forall k | 0 <= k < |xs|
      ensures PlacedAt(f, xs, r, k)
    {
      if k == 0 {
        assert xs[..0] == [];
      } else if f(xs[k]).Some? {
        assert PlacedAt(f, xs[1..], rest, k - 1);
        CountPrefixStep(Yields(f), xs, k);
        assert xs[1..][k - 1] == xs[k];
      }
    }
  }

  /** Only elements meeting `q` yield values, so no more values than such elements. */
  lemma {:induction false} CollectBound<A, T(!new)>(f: A -> Option<T>, q: A -> bool, xs: seq<A>)
    requires forall x :: f(x).Some? ==> q(x)
    ensures |Collect(f, xs)| <= Count(q, xs)
  {
    if xs != [] {
      CollectBound(f, q, xs[1..]);
    }
  }

  /** A document's content, empty when missing. */
  function Content(d: Doc): string {
    d.content.GetOr("")
  }

  /** Stems of the tokens of a cleaned text, lower-cased. */
  function StemsOf(tk: Toolkit, clean: string): (r: seq<string>)
    ensures |r| == |tk.tokenize(Lower(clean))|
    ensures forall i :: 0 <= i < |r| ==> r[i] == tk.stem(tk.tokenize(Lower(clean))[i])
  {
    var toks := tk.tokenize(Lower(clean));
    seq(|toks|, i requires 0 <= i < |toks| => tk.stem(toks[i]))
  }

  /** Similarity of a document to the candidate text, on their cleaned and stemmed tokens. */
  function DocSimilarity(tk: Toolkit, text: string, d: Doc): (r: real)
    ensures 0.0 <= r <= 1.0
  {
    Composite(StemsOf(tk, Clean(text)), StemsOf(tk, Clean(Content(d))))
  }

  /** The body of the corpus loop for one document: a source exactly when its cleaned
      content is non-empty, differs from the cleaned candidate, has tokens, and is more
      than 5% similar; the source carries the similarity rounded to two decimals and
      the matching chunks of the raw texts. */
  function Verdict(tk: Toolkit, text: string, d: Doc): (r: Option<Source>)
    ensures r.Some? <==>
      Clean(Content(d)) != [] && Clean(Content(d)) != Clean(text) &&
      tk.tokenize(Lower(Clean(Content(d)))) != [] && DocSimilarity(tk, text, d) > ReportThreshold
    ensures r.Some? ==> r.value.submissionId == d.id && r.value.title == d.title && r.value.author == d.author
    ensures r.Some? ==> r.value.similarity == Round2(DocSimilarity(tk, text, d))
    ensures r.Some? ==> r.value.matchingText == FindMatchingText(tk, text, Content(d))
    ensures r.Some? ==> d.content.Some? && d.content.value != []
  {
    var c := Clean(Content(d));
    if c == [] || c == Clean(text) || tk.tokenize(Lower(c)) == [] then None
    else
      var sim := DocSimilarity(tk, text, d);
      if sim > ReportThreshold then
        Some(Source(d.id, d.title, d.author, Round2(sim), FindMatchingText(tk, text, Content(d))))
      else None
  }

  /** A stored similarity: between 0.05 and 1, in whole hundredths. */
  predicate Stored(x: real) {
    0.05 <= x <= 1.0 && WholePercent(x)
  }

  /** Every reported similarity is a stored one. */
  lemma VerdictBounds(tk: Toolkit, text: string, d: Doc)
    requires Verdict(tk, text, d).Some?
    ensures Stored(Verdict(tk, text, d).value.similarity)
  {
    var sim := DocSimilarity(tk, text, d);
    Round2AboveFive(sim);
    Round2WholePercent(sim);
  }

  /** The documents `checkedSources` counts: those with non-empty content. */
  predicate HasContent(d: Doc) {
    d.content.Some? && d.content.value != []
  }

  /** The largest similarity among the sources found. */
  function MaxSimilarity(found: seq<Source>): (r: real)
    requires found != []
    ensures exists k :: 0 <= k < |found| && found[k].similarity == r
    ensures forall k :: 0 <= k < |found| ==> found[k].similarity <= r
  {
    if |found| == 1 then found[0].similarity
    else
      var m := MaxSimilarity(found[1..]);
      assert forall k :: 1 <= k < |found| ==> found[k] == found[1..][k - 1];
      if found[0].similarity < m then m else found[0].similarity
  }

  /** The corpus loop's verdict as a function of the document. */
  function VerdictOf(tk: Toolkit, text: string): Doc -> Option<Source> {
    d => Verdict(tk, text, d)
  }

  /** The sources found by the corpus loop, in corpus order: one per reporting
      document, each after those of the reporting documents before it. */
  function Found(tk: Toolkit, text: string, corpus: seq<Doc>): (r: seq<Source>)
    ensures |r| == Count(Yields(VerdictOf(tk, text)), corpus)
    ensures forall k :: 0 <= k < |corpus| ==> PlacedAt(VerdictOf(tk, text), corpus, r, k)
    ensures |r| <= Count(HasContent, corpus)
    ensures forall s :: s in r <==> exists k :: 0 <= k < |corpus| && Verdict(tk, text, corpus[k]) == Some(s)
    ensures forall k :: 0 <= k < |r| ==> Stored(r[k].similarity)
    ensures (forall k :: 0 <= k < |corpus| ==> Verdict(tk, text, corpus[k]).None?) ==> r == []
  {
    var r := Collect(VerdictOf(tk, text), corpus);
    CollectBound(VerdictOf(tk, text), HasContent, corpus);
    assert forall k :: 0 <= k < |corpus| ==> VerdictOf(tk, text)(corpus[k]) == Verdict(tk, text, corpus[k]);
    CollectStored(tk, text, corpus, r);
    r
  }

  /** Each source the corpus loop collects carries a stored similarity. */
  lemma CollectStored(tk: Toolkit, text: string, corpus: seq<Doc>, r: seq<Source>)
    requires forall s :: s in r <==> exists k :: 0 <= k < |corpus| && Verdict(tk, text, corpus[k]) == Some(s)
    ensures forall k :: 0 <= k < |r| ==> Stored(r[k].similarity)
  {
    forall k | 0 <= k < |r|
      ensures Stored(r[k].similarity)
    {
      assert r[k] in r;
      var i :| 0 <= i < |corpus| && Verdict(tk, text, corpus[i]) == Some(r[k]);
      VerdictBounds(tk, text, corpus[i]);
    }
  }

  /** The report for the sources found: sorted by descending similarity, scored by
      the best of them in percent. */
  function Assemble(found: seq<Source>, total: nat, checked: nat): (r: Report)
    requires |found| <= checked <= total
    requires found != [] ==> Stored(MaxSimilarity(found))
    ensures r.error.None? && r.totalSources == total && r.checkedSources == checked
    ensures multiset(r.sources) == multiset(found)
    ensures forall s :: s in r.sources <==> s in found
    ensures SortedDesc(r.sources, SourceKey)
    ensures r.sources == [] ==> r.score == 0
    ensures r.sources != [] ==> 5 <= r.score <= 100 && r.score as real == 100.0 * r.sources[0].similarity
  {
    var sources := SortDesc(found, SourceKey);
    var score := if found == [] then 0 else Round(MaxSimilarity(found) * 100.0);
    ScoreOfSorted(found, sources, score);
    SameMembers(sources, found);
    Report(score, sources, total, checked, None)
  }

  /** detectPlagiarism. */
  function DetectPlagiarism(tk: Toolkit, text: string, corpus: seq<Doc>): (r: Report)
    ensures Clean(text) == [] ==> r == Report(0, [], 0, 0, Some("Invalid text provided"))
    ensures Clean(text) != [] && tk.tokenize(Lower(Clean(text))) == [] ==>
      r == Report(0, [], |corpus|, 0, Some("No valid text content"))
    ensures r.error.None? <==> Clean(text) != [] && tk.tokenize(Lower(Clean(text))) != []
    ensures r.error.None? ==> Reports(tk, text, corpus, r)
    ensures |r.sources| <= r.checkedSources <= r.totalSources
    ensures SortedDesc(r.sources, SourceKey)
    ensures r.sources == [] ==> r.score == 0
    ensures (forall k :: 0 <= k < |corpus| ==> Verdict(tk, text, corpus[k]).None?) ==> r.sources == [] && r.score == 0
  {
    var clean := Clean(text);
    if clean == [] then Report(0, [], 0, 0, Some("Invalid text provided"))
    else if tk.tokenize(Lower(clean)) == [] then Report(0, [], |corpus|, 0, Some("No valid text content"))
    else Scan(tk, text, corpus)
  }

  /** What a successful scan of `corpus` reports: every document counted, the documents
      with content checked, the sources exactly the verdicts the corpus yields, sorted
      by similarity, and the score the best of them in percent. */
  ghost predicate Reports(tk: Toolkit, text: string, corpus: seq<Doc>, r: Report) {
    && r.error.None? && r.totalSources == |corpus| && r.checkedSources == Count(HasContent, corpus)
    && |r.sources| <= r.checkedSources <= r.totalSources
    && SortedDesc(r.sources, SourceKey)
    && multiset(r.sources) == multiset(Found(tk, text, corpus))
    && (forall s :: s in r.sources <==> exists k :: 0 <= k < |corpus| && Verdict(tk, text, corpus[k]) == Some(s))
    && (r.sources == [] ==> r.score == 0)
    && (r.sources != [] ==> 5 <= r.score <= 100 && r.score as real == 100.0 * r.sources[0].similarity)
    && ((forall k :: 0 <= k < |corpus| ==> Verdict(tk, text, corpus[k]).None?) ==> r.sources == [])
  }

  /** The corpus loop and the report it yields, once the text has passed validation. */
  function Scan(tk: Toolkit, text: string, corpus: seq<Doc>): (r: Report)
    ensures Reports(tk, text, corpus, r)
  {
    var found := Found(tk, text, corpus);
    MaxIsStored(found);
    Assemble(found, |corpus|, Count(HasContent, corpus))
  }

  /** The score is the best stored similarity in percent, which heads the sorted list. */
  lemma ScoreOfSorted(found: seq<Source>, sources: seq<Source>, score: int)
    requires found != [] ==> Stored(MaxSimilarity(found))
    requires sources == SortDesc(found, SourceKey)
    requires score == if found == [] then 0 else Round(MaxSimilarity(found) * 100.0)
    ensures sources == [] ==> score == 0
    ensures sources != [] ==> 5 <= score <= 100 && score as real == 100.0 * sources[0].similarity
  {
    if sources != [] {
      assert found != [] && sources[0].similarity == MaxSimilarity(found) by {
        TopIsMax(found, sources);
      }
      StoredPercent(MaxSimilarity(found), sources[0].similarity);
    } else {
      assert |found| == |multiset(found)| == |multiset(sources)| == 0;
    }
  }

  /** A stored similarity is a whole percentage between 5 and 100. */
  lemma StoredPercent(m: real, top: real)
    requires Stored(m) && top == m
    ensures 5 <= Round(m * 100.0) <= 100
    ensures Round(m * 100.0) as real == 100.0 * top
  {
    PercentWithin(m);
  }

  lemma MaxIsStored(found: seq<Source>)
    requires forall k :: 0 <= k < |found| ==> Stored(found[k].similarity)
    ensures found != [] ==> Stored(MaxSimilarity(found))
  {
    if found == [] { return; }
    var j :| 0 <= j < |found| && found[j].similarity == MaxSimilarity(found);
    assert Stored(found[j].similarity);
  }

  /** The head of the sorted sources carries the largest similarity. */
  lemma TopIsMax(found: seq<Source>, sources: seq<Source>)
    requires sources == SortDesc(found, SourceKey) && sources != []
    ensures found != [] && sources[0].similarity == MaxSimilarity(found)
  {
    assert |found| == |sources|;
    var m := MaxSimilarity(found);
    SameMembers(sources, found);
    assert sources[0].similarity <= m by {
      assert sources[0] in found;
      var i :| 0 <= i < |found| && found[i] == sources[0];
    }
    assert sources[0].similarity >= m by {
      var j :| 0 <= j < |found| && found[j].similarity == m;
      assert found[j] in sources;
      var p :| 0 <= p < |sources| && sources[p] == found[j];
      if p > 0 {
        assert SourceKey(sources[0]) >= SourceKey(sources[p]);
      }
    }
  }

  /** A corpus of documents that all clean to the candidate's text reports nothing: a
      verbatim copy under another id is taken for the submission itself. */
  lemma IdenticalTextNotReported(tk: Toolkit, text: string, corpus: seq<Doc>)
    requires forall k :: 0 <= k < |corpus| ==> Clean(Content(corpus[k])) == Clean(text)
    ensures DetectPlagiarism(tk, text, corpus).sources == []
    ensures DetectPlagiarism(tk, text, corpus).score == 0
  {
    assert forall k :: 0 <= k < |corpus| ==> Verdict(tk, text, corpus[k]).None?;

  }
}

=== FILE: requests.dfy ===
/** What every route sees besides its body: the authenticated user, and the error
    responses a route can end with. */
module Requests {
  /** The roles the authentication middleware attaches to a user. */
  datatype Role = Student | Instructor | Admin

  datatype User = User(id: nat, role: Role)

  /** Why a request was answered 400. */
  datatype Reason =
    | MissingFields        // a required body field is absent or empty
    | InvalidType          // the submission type is not text, code or mixed
    | ValidationFailed     // the schema rejected the record on save
    | NotDraft             // submit from a status other than draft
    | AlreadyReviewed      // update of a reviewed submission
    | OwnSubmission        // a review of one's own submission
    | DuplicateReview      // a second review of the same submission by the same reviewer
    | NotSubmitted         // approval of a review that is not submitted
    | AlreadyApproved      // update of an approved review

  /** The error responses: 400, 403, 404 and 500. */
  datatype Refusal = BadRequest(reason: Reason) | Forbidden | NotFound | ServerError
}

=== FILE: review_routes.dfy ===
/** The review routes as pure functions: create with its guards and the derived
    analysis, submit, approve, update, delete, and who sees which reviews. */
module ReviewRoutes {
  import opened Wrappers
  import opened Numeric
  import opened Requests
  import opened Nlp
  import TextMetrics
  import S = SubmissionSchema
  import R = ReviewSchema
  import Collections

  /** The body of a create request; an absent field is `None`. */
  datatype CreateRequest = CreateRequest(
    submission: Option<nat>, overallRating: Option<int>, categories: Option<seq<R.Category>>,
    strengths: Option<seq<string>>, weaknesses: Option<seq<string>>, suggestions: Option<seq<string>>,
    detailedFeedback: Option<string>, isAnonymous: Option<bool>)

  /** The submission, the rating and the categories are required; a rating of 0 is
      falsy and counts as missing, an empty category list does not. */
  predicate MissingFields(q: CreateRequest) {
    q.submission.None? || q.overallRating.None? || q.overallRating.value == 0 || q.categories.None?
  }

  /** What the schema asks of the fields a create request supplies. */
  predicate BodyValid(q: CreateRequest)
    requires !MissingFields(q)
  {
    && R.InScale(q.overallRating.value)
    && (forall i :: 0 <= i < |q.categories.value| ==> R.CategoryOk(q.categories.value[i]))
    && (forall x :: x in q.strengths.GetOr([]) ==> R.ItemOk(x))
    && (forall x :: x in q.weaknesses.GetOr([]) ==> R.ItemOk(x))
    && (forall x :: x in q.suggestions.GetOr([]) ==> R.ItemOk(x))
    && (q.detailedFeedback.None? || |q.detailedFeedback.value| <= R.MaxDetailed)
  }

  const NoExplanation: string := "No explanation provided"

  /** The quality factors: one per category, in order, with the category's name and
      score and its comment as the explanation, or a fixed text when the comment is
      absent or empty. */
  function Factors(cs: seq<R.Category>): (r: seq<R.Factor>)
    ensures |r| == |cs|
    ensures forall i :: 0 <= i < |r| ==> r[i].name == cs[i].name && r[i].score == cs[i].score
    ensures forall i :: 0 <= i < |r| ==> r[i].explanation != []
    ensures forall i :: 0 <= i < |r| && cs[i].comment.Some? && cs[i].comment.value != [] ==>
      r[i].explanation == cs[i].comment.value
    ensures forall i :: 0 <= i < |r| && (cs[i].comment.None? || cs[i].comment.value == []) ==>
      r[i].explanation == NoExplanation
  {
    seq(|cs|, i requires 0 <= i < |cs| =>
      var c := cs[i];
      R.Factor(c.name, c.score, if c.comment.Some? && c.comment.value != [] then c.comment.value else NoExplanation))
  }

  /** The quality score, the rating scaled to a percentage and rounded: for a whole
      rating it is exactly twenty times the rating, so 20 to 100 on the schema's scale. */
  function QualityScore(rating: int): (r: int)
    ensures r == 20 * rating
    ensures R.InScale(rating) ==> 20 <= r <= 100
  {
    assert rating as real / 5.0 * 100.0 == (20 * rating) as real;
    RoundOfInt(20 * rating);
    Round(rating as real / 5.0 * 100.0)
  }

  /** The analysis a new review carries: the sentiment of its detailed feedback (of the
      empty text when there is none), the quality score and factors, and a fixed
      consistency score of 85 with no issues. */
  function AnalysisOf(tk: Toolkit, feedback: Option<string>, rating: int, cs: seq<R.Category>): (a: R.ReviewAnalysis)
    ensures a.sentiment == TextMetrics.AnalyzeSentiment(tk, feedback.GetOr(""))
    ensures a.qualityScore == 20 * rating
    ensures a.factors == Factors(cs)
    ensures a.consistencyScore == 85 && a.consistencyIssues == []
  {
    R.ReviewAnalysis(TextMetrics.AnalyzeSentiment(tk, feedback.GetOr("")), QualityScore(rating), Factors(cs), 85, [])
  }

  /** `POST /`: a new draft review, or the reason it was refused. `found` is the
      submission the request names, looked up; `reviews` are the stored reviews. */
  function Create(tk: Toolkit, id: nat, u: User, q: CreateRequest, found: Option<S.Submission>,
                  reviews: map<nat, R.Review>): (r: Result<R.Review, Refusal>)
    ensures r == Failure(BadRequest(Reason.MissingFields)) <==> MissingFields(q)
    ensures r == Failure(NotFound) <==> !MissingFields(q) && found.None?
    ensures r == Failure(BadRequest(OwnSubmission)) <==>
      !MissingFields(q) && found.Some? && found.value.author == u.id
    ensures r == Failure(BadRequest(DuplicateReview)) <==>
      !MissingFields(q) && found.Some? && found.value.author != u.id && R.FindPair(reviews, q.submission.value, u.id)
    ensures r.Success? <==>
      !MissingFields(q) && found.Some? && found.value.author != u.id &&
      !R.FindPair(reviews, q.submission.value, u.id) && BodyValid(q)
    ensures r.Success? ==> R.Valid(r.value) && r.value.id == id && r.value.status == R.Draft
    ensures r.Success? ==> r.value.submission == q.submission.value && r.value.reviewer == u.id
    ensures r.Success? ==> found.value.author != r.value.reviewer
    ensures r.Success? ==> !R.FindPair(reviews, r.value.submission, r.value.reviewer)
    ensures r.Success? ==> r.value.overallRating == q.overallRating.value && r.value.categories == q.categories.value
    ensures r.Success? ==> r.value.strengths == q.strengths.GetOr([]) && r.value.weaknesses == q.weaknesses.GetOr([])
    ensures r.Success? ==> r.value.suggestions == q.suggestions.GetOr([]) && r.value.detailedFeedback == q.detailedFeedback
    ensures r.Success? ==> r.value.isAnonymous == q.isAnonymous.GetOr(false)
    ensures r.Success? ==> r.value.ai == AnalysisOf(tk, q.detailedFeedback, q.overallRating.value, q.categories.value)
  {
    if MissingFields(q) then Failure(BadRequest(Reason.MissingFields))
    else if found.None? then Failure(NotFound)
    else if found.value.author == u.id then Failure(BadRequest(OwnSubmission))
    else if R.FindPair(reviews, q.submission.value, u.id) then Failure(BadRequest(DuplicateReview))
    else
      var rating := q.overallRating.value;
      var cs := q.categories.value;
      var review := R.Review(
        id, q.submission.value, u.id, rating, cs,
        q.strengths.GetOr([]), q.weaknesses.GetOr([]), q.suggestions.GetOr([]),
        q.detailedFeedback, q.isAnonymous.GetOr(false), R.Draft,
        AnalysisOf(tk, q.detailedFeedback, rating, cs));
      assert R.Valid(review) <==> BodyValid(q);
      R.SaveOr(review, ServerError)
  }

  /** `POST /:id/submit` on the review: only its reviewer, only from draft. */
  function Submit(u: User, rv: R.Review): (r: Result<R.Review, Refusal>)
    ensures r == Failure(Forbidden) <==> u.id != rv.reviewer
    ensures r == Failure(BadRequest(NotDraft)) <==> u.id == rv.reviewer && rv.status != R.Draft
    ensures R.Valid(rv) && u.id == rv.reviewer && rv.status == R.Draft ==> r.Success?
    ensures r.Success? ==> r.value == rv.(status := R.Submitted)
  {
    if u.id != rv.reviewer then Failure(Forbidden)
    else if rv.status != R.Draft then Failure(BadRequest(NotDraft))
    else R.SaveOr(rv.(status := R.Submitted), ServerError)
  }

  /** The cascade of a submitted review on its submission: submitted becomes
      under_review; every other status stays. */
  function Cascade(sub: S.Submission): (r: S.Submission)
    ensures sub.status == S.Submitted ==> r.status == S.UnderReview
    ensures sub.status != S.Submitted ==> r == sub
    ensures r.(status := sub.status) == sub
    ensures S.StatusRank(sub.status) <= S.StatusRank(r.status)
  {
    if sub.status == S.Submitted then sub.(status := S.UnderReview) else sub
  }

  /** `POST /:id/approve`: only instructors and admins, only from submitted. */
  function Approve(u: User, rv: R.Review): (r: Result<R.Review, Refusal>)
    ensures r == Failure(Forbidden) <==> u.role == Student
    ensures r == Failure(BadRequest(NotSubmitted)) <==> u.role != Student && rv.status != R.Submitted
    ensures R.Valid(rv) && u.role != Student && rv.status == R.Submitted ==> r.Success?
    ensures r.Success? ==> r.value == rv.(status := R.Approved)
  {
    if u.role == Student then Failure(Forbidden)
    else if rv.status != R.Submitted then Failure(BadRequest(NotSubmitted))
    else R.SaveOr(rv.(status := R.Approved), ServerError)
  }

  /** The ids of the approved reviews of a submission. */
  function ApprovedOf(reviews: map<nat, R.Review>, sub: nat): (r: set<nat>)
    ensures forall k :: k in r <==> k in reviews && reviews[k].submission == sub && reviews[k].status == R.Approved
  {
    set k | k in reviews && reviews[k].submission == sub && reviews[k].status == R.Approved
  }

  /** The number of approved reviews a submission needs to become reviewed. */
  const ApprovalsNeeded: nat := 2

  /** The submission after an approval: reviewed, from whatever status, once it has two
      approved reviews; unchanged otherwise. */
  function Conclude(sub: S.Submission, reviews: map<nat, R.Review>): (r: S.Submission)
    ensures |ApprovedOf(reviews, sub.id)| >= ApprovalsNeeded ==> r.status == S.Reviewed
    ensures |ApprovedOf(reviews, sub.id)| < ApprovalsNeeded ==> r == sub
    ensures r.(status := sub.status) == sub
    ensures S.StatusRank(sub.status) <= S.StatusRank(r.status)
  {
    if |ApprovedOf(reviews, sub.id)| >= ApprovalsNeeded then sub.(status := S.Reviewed) else sub
  }

  /** The fields of an update body this model carries; an absent key is `None`. */
  datatype Patch = Patch(
    submission: Option<nat>, reviewer: Option<nat>, overallRating: Option<int>,
    categories: Option<seq<R.Category>>, strengths: Option<seq<string>>,
    weaknesses: Option<seq<string>>, suggestions: Option<seq<string>>,
    detailedFeedback: Option<string>, isAnonymous: Option<bool>, status: Option<R.Status>,
    ai: Option<R.ReviewAnalysis>)

  /** The empty body. */
  const Unchanged: Patch := Patch(None, None, None, None, None, None, None, None, None, None, None)

  /** Every present key except `submission` and `reviewer` overwrites the field, the
      stored analysis included; a non-empty new detailed feedback then has its sentiment
      analysed again on top of whatever analysis the record now holds. */
  function Overwrite(tk: Toolkit, rv: R.Review, p: Patch): (r: R.Review)
    ensures r.id == rv.id && r.submission == rv.submission && r.reviewer == rv.reviewer
    ensures r.status == p.status.GetOr(rv.status)
    ensures r.overallRating == p.overallRating.GetOr(rv.overallRating) && r.categories == p.categories.GetOr(rv.categories)
    ensures r.strengths == p.strengths.GetOr(rv.strengths) && r.weaknesses == p.weaknesses.GetOr(rv.weaknesses)
    ensures r.suggestions == p.suggestions.GetOr(rv.suggestions) && r.isAnonymous == p.isAnonymous.GetOr(rv.isAnonymous)
    ensures r.detailedFeedback == (if p.detailedFeedback.Some? then p.detailedFeedback else rv.detailedFeedback)
    ensures p.detailedFeedback.Some? && p.detailedFeedback.value != [] ==>
      r.ai == p.ai.GetOr(rv.ai).(sentiment := TextMetrics.AnalyzeSentiment(tk, p.detailedFeedback.value))
    ensures p.detailedFeedback.None? || p.detailedFeedback.value == [] ==> r.ai == p.ai.GetOr(rv.ai)
  {
    var t := rv.(
      overallRating := p.overallRating.GetOr(rv.overallRating),
      categories := p.categories.GetOr(rv.categories),
      strengths := p.strengths.GetOr(rv.strengths),
      weaknesses := p.weaknesses.GetOr(rv.weaknesses),
      suggestions := p.suggestions.GetOr(rv.suggestions),
      detailedFeedback := if p.detailedFeedback.Some? then p.detailedFeedback else rv.detailedFeedback,
      isAnonymous := p.isAnonymous.GetOr(rv.isAnonymous),
      status := p.status.GetOr(rv.status),
      ai := p.ai.GetOr(rv.ai));
    if p.detailedFeedback.Some? && p.detailedFeedback.value != [] then
      t.(ai := t.ai.(sentiment := TextMetrics.AnalyzeSentiment(tk, p.detailedFeedback.value)))
    else t
  }

  /** `PUT /:id` as written: only the reviewer, never once approved; `status` and the
      stored analysis are among the copied keys; a record the schema rejects is answered
      as a server error. */
  function UpdateAsWritten(tk: Toolkit, u: User, rv: R.Review, p: Patch): (r: Result<R.Review, Refusal>)
    ensures r == Failure(Forbidden) <==> u.id != rv.reviewer
    ensures r == Failure(BadRequest(AlreadyApproved)) <==> u.id == rv.reviewer && rv.status == R.Approved
    ensures r.Success? <==> u.id == rv.reviewer && rv.status != R.Approved && R.Valid(Overwrite(tk, rv, p))
    ensures r.Success? ==> R.Valid(r.value) && r.value == Overwrite(tk, rv, p)
    ensures r.Success? ==> r.value.submission == rv.submission && r.value.reviewer == rv.reviewer
    ensures r.Success? ==> r.value.status == p.status.GetOr(rv.status)
    ensures r.Success? && (p.detailedFeedback.None? || p.detailedFeedback.value == []) ==> r.value.ai == p.ai.GetOr(rv.ai)
  {
    if u.id != rv.reviewer then Failure(Forbidden)
    else if rv.status == R.Approved then Failure(BadRequest(AlreadyApproved))
    else R.SaveOr(Overwrite(tk, rv, p), ServerError)
  }

  /** `PUT /:id` with the status and the stored analysis protected: the same route,
      ignoring `status` and `aiAnalysis` in the body; only the sentiment is recomputed,
      from new feedback. */
  function Update(tk: Toolkit, u: User, rv: R.Review, p: Patch): (r: Result<R.Review, Refusal>)
    ensures r == Failure(Forbidden) <==> u.id != rv.reviewer
    ensures r == Failure(BadRequest(AlreadyApproved)) <==> u.id == rv.reviewer && rv.status == R.Approved
    ensures r.Success? <==> u.id == rv.reviewer && rv.status != R.Approved && R.Valid(Overwrite(tk, rv, p))
    ensures r.Success? ==> R.Valid(r.value) && r.value.id == rv.id
    ensures r.Success? ==> r.value.submission == rv.submission && r.value.reviewer == rv.reviewer
    ensures r.Success? ==> r.value.status == rv.status
    ensures r.Success? ==> r.value.overallRating == p.overallRating.GetOr(rv.overallRating)
    ensures r.Success? ==> r.value.categories == p.categories.GetOr(rv.categories)
    ensures r.Success? ==> r.value.strengths == p.strengths.GetOr(rv.strengths) && r.value.weaknesses == p.weaknesses.GetOr(rv.weaknesses)
    ensures r.Success? ==> r.value.suggestions == p.suggestions.GetOr(rv.suggestions)
    ensures r.Success? ==> r.value.detailedFeedback == (if p.detailedFeedback.Some? then p.detailedFeedback else rv.detailedFeedback)
    ensures r.Success? ==> r.value.isAnonymous == p.isAnonymous.GetOr(rv.isAnonymous)
    ensures r.Success? ==> r.value.ai.(sentiment := rv.ai.sentiment) == rv.ai
    ensures r.Success? && (p.detailedFeedback.None? || p.detailedFeedback.value == []) ==> r.value.ai == rv.ai
    ensures p.status.None? && p.ai.None? ==> r == UpdateAsWritten(tk, u, rv, p)
  {
    var q := p.(status := None, ai := None);
    assert R.Valid(Overwrite(tk, rv, q)) == R.Valid(Overwrite(tk, rv, p));
    UpdateAsWritten(tk, u, rv, q)
  }

  /** As written, a reviewer can approve their own draft review through an update,
      whatever their role. */
  lemma UpdateAsWrittenSelfApproves(tk: Toolkit, rv: R.Review)
    requires R.Valid(rv) && rv.status == R.Draft
    ensures UpdateAsWritten(tk, User(rv.reviewer, Student), rv,
      Unchanged.(status := Some(R.Approved)))
      == Success(rv.(status := R.Approved))
  {
  }

  /** As written, a reviewer can replace the stored analysis of their review (quality
      score, consistency score and all) with whatever the body says. */
  lemma UpdateAsWrittenRewritesAnalysis(tk: Toolkit, rv: R.Review, a: R.ReviewAnalysis)
    requires R.Valid(rv) && rv.status != R.Approved
    ensures UpdateAsWritten(tk, User(rv.reviewer, Student), rv, Unchanged.(ai := Some(a)))
      == Success(rv.(ai := a))
  {
  }

  /** Who may delete a review: its reviewer or an admin. */
  predicate CanDelete(u: User, rv: R.Review) {
    u.id == rv.reviewer || u.role == Admin
  }

  /** `DELETE /:id`: the refusal, or `None` when the review is removed. */
  function Delete(u: User, found: Option<R.Review>): (r: Option<Refusal>)
    ensures r == Some(NotFound) <==> found.None?
    ensures r.None? <==> found.Some? && CanDelete(u, found.value)
    ensures r.Some? ==> r.value == NotFound || r.value == Forbidden
  {
    match found
    case None => Some(NotFound)
    case Some(rv) => if CanDelete(u, rv) then None else Some(Forbidden)
  }

  /** Who may see a review: its reviewer, the author of the reviewed submission, an
      instructor or an admin. */
  predicate CanView(u: User, rv: R.Review, sub: S.Submission) {
    u.id == rv.reviewer || u.id == sub.author || u.role == Instructor || u.role == Admin
  }

  /** `GET /:id`. The reviewer is let through before the submission is read; for anyone
      else a review whose submission is gone ends in a server error. */
  function Get(u: User, found: Option<R.Review>, sub: Option<S.Submission>): (r: Result<R.Review, Refusal>)
    ensures r == Failure(NotFound) <==> found.None?
    ensures found.Some? && sub.Some? ==> (r.Success? <==> CanView(u, found.value, sub.value))
    ensures found.Some? && u.id == found.value.reviewer ==> r == Success(found.value)
    ensures r == Failure(ServerError) <==> found.Some? && u.id != found.value.reviewer && sub.None?
    ensures r.Success? ==> r.value == found.value
  {
    match found
    case None => Failure(NotFound)
    case Some(rv) =>
      if u.id == rv.reviewer then Success(rv)
      else match sub
        case None => Failure(ServerError)
        case Some(s) => if CanView(u, rv, s) then Success(rv) else Failure(Forbidden)
  }

  /** Whether the per-submission listing shows a review: submitted reviews of that
      submission, anonymous ones only on request. */
  predicate Shown(rv: R.Review, sub: nat, includeAnonymous: bool) {
    rv.submission == sub && rv.status == R.Submitted && (includeAnonymous || !rv.isAnonymous)
  }

  /** `GET /submission/:submissionId`: visible to the submission's author, instructors
      and admins. */
  function ListFor(u: User, found: Option<S.Submission>, reviews: seq<R.Review>, includeAnonymous: bool)
    : (r: Result<seq<R.Review>, Refusal>)
    ensures r == Failure(NotFound) <==> found.None?
    ensures r.Success? <==> found.Some? && (u.id == found.value.author || u.role != Student)
    ensures r.Success? ==> forall rv :: rv in r.value <==> rv in reviews && Shown(rv, found.value.id, includeAnonymous)
    ensures r.Success? ==> forall rv :: rv in r.value ==> rv.status == R.Submitted
  {
    match found
    case None => Failure(NotFound)
    case Some(s) =>
      if u.id == s.author || u.role != Student then
        Success(Collections.Filter((rv: R.Review) => Shown(rv, s.id, includeAnonymous), reviews))
      else Failure(Forbidden)
  }

  /** `GET /my-reviews` without the optional filters: the user's own reviews. */
  function ListMine(u: User, reviews: seq<R.Review>): (r: seq<R.Review>)
    ensures forall rv :: rv in r <==> rv in reviews && rv.reviewer == u.id
  {
    Collections.Filter((rv: R.Review) => rv.reviewer == u.id, reviews)
  }
}

=== FILE: review_schema.dfy ===
/** The Review record and what its schema enforces on save: an overall rating in
    [1, 5]; categories with a required name, a score in [1, 5] and a comment of at most
    500 characters; strength, weakness and suggestion items of at most 200; detailed
    feedback of at most 2000; and one review per (submission, reviewer) pair. */
module ReviewSchema {
  import opened Wrappers
  import opened Collections
  import TextMetrics

  const MaxComment: nat := 500
  const MaxItem: nat := 200
  const MaxDetailed: nat := 2000

  /** The status enum; a new record defaults to Draft. */
  datatype Status = Draft | Submitted | Approved

  /** Progress along draft, submitted, approved. */
  function StatusRank(s: Status): (r: nat)
    ensures r <= 2
    ensures r == 0 <==> s == Draft
    ensures r == 2 <==> s == Approved
  {
    match s
    case Draft => 0
    case Submitted => 1
    case Approved => 2
  }

  datatype Category = Category(name: string, score: int, comment: Option<string>)

  /** A quality factor derived from a category. */
  datatype Factor = Factor(name: string, score: int, explanation: string)

  /** The analysis attached to a review when it is created. */
  datatype ReviewAnalysis = ReviewAnalysis(
    sentiment: TextMetrics.Sentiment, qualityScore: int, factors: seq<Factor>,
    consistencyScore: int, consistencyIssues: seq<string>)

  datatype Review = Review(
    id: nat, submission: nat, reviewer: nat, overallRating: int, categories: seq<Category>,
    strengths: seq<string>, weaknesses: seq<string>, suggestions: seq<string>,
    detailedFeedback: Option<string>, isAnonymous: bool, status: Status, ai: ReviewAnalysis)

  predicate InScale(x: int) { 1 <= x <= 5 }

  predicate CategoryOk(c: Category) {
    c.name != [] && InScale(c.score) && (c.comment.None? || |c.comment.value| <= MaxComment)
  }

  predicate ItemOk(s: string) { |s| <= MaxItem }

  /** Everything the schema checks. */
  predicate Valid(r: Review) {
    && InScale(r.overallRating)
    && (forall i :: 0 <= i < |r.categories| ==> CategoryOk(r.categories[i]))
    && (forall i :: 0 <= i < |r.strengths| ==> ItemOk(r.strengths[i]))
    && (forall i :: 0 <= i < |r.weaknesses| ==> ItemOk(r.weaknesses[i]))
    && (forall i :: 0 <= i < |r.suggestions| ==> ItemOk(r.suggestions[i]))
    && (r.detailedFeedback.None? || |r.detailedFeedback.value| <= MaxDetailed)
  }

  /** The three lists of short remarks. */
  datatype ItemList = Strengths | Weaknesses | Suggestions

  /** One schema error. */
  datatype Violation =
    | RatingOutOfRange
    | BadCategory(index: nat)
    | ItemTooLong(list: ItemList, index: nat)
    | FeedbackTooLong

  predicate CategoryBad(c: Category) { !CategoryOk(c) }

  predicate ItemBad(s: string) { !ItemOk(s) }

  function CategoryViolations(cs: seq<Category>): (r: seq<Violation>)
    ensures forall i: nat :: BadCategory(i) in r <==> i < |cs| && !CategoryOk(cs[i])
    ensures forall v :: v in r ==> v.BadCategory?
    ensures r == [] <==> forall i :: 0 <= i < |cs| ==> CategoryOk(cs[i])
  {
    var ps := Positions(cs, CategoryBad);
    var r := seq(|ps|, j requires 0 <= j < |ps| => BadCategory(ps[j]));
    forall i: nat
      ensures BadCategory(i) in r <==> i in ps
    {
      if i in ps {
        var j :| 0 <= j < |ps| && ps[j] == i;
        assert r[j] == BadCategory(i);
      }
    }
    PositionsEmpty(cs, CategoryBad);
    r
  }

  function ItemViolations(list: ItemList, items: seq<string>): (r: seq<Violation>)
    ensures forall i: nat :: ItemTooLong(list, i) in r <==> i < |items| && !ItemOk(items[i])
    ensures forall v :: v in r ==> v.ItemTooLong? && v.list == list
    ensures r == [] <==> forall i :: 0 <= i < |items| ==> ItemOk(items[i])
  {
    var ps := Positions(items, ItemBad);
    var r := seq(|ps|, j requires 0 <= j < |ps| => ItemTooLong(list, ps[j]));
    forall i: nat
      ensures ItemTooLong(list, i) in r <==> i in ps
    {
      if i in ps {
        var j :| 0 <= j < |ps| && ps[j] == i;
        assert r[j] == ItemTooLong(list, i);
      }
    }
    PositionsEmpty(items, ItemBad);
    r
  }

  /** The item errors of the three remark lists. */
  function RemarkViolations(r: Review): (v: seq<Violation>)
    ensures forall x :: x in v ==> x.ItemTooLong?
    ensures forall i: nat :: ItemTooLong(Strengths, i) in v <==> i < |r.strengths| && !ItemOk(r.strengths[i])
    ensures forall i: nat :: ItemTooLong(Weaknesses, i) in v <==> i < |r.weaknesses| && !ItemOk(r.weaknesses[i])
    ensures forall i: nat :: ItemTooLong(Suggestions, i) in v <==> i < |r.suggestions| && !ItemOk(r.suggestions[i])
    ensures v == [] <==>
      && (forall i :: 0 <= i < |r.strengths| ==> ItemOk(r.strengths[i]))
      && (forall i :: 0 <= i < |r.weaknesses| ==> ItemOk(r.weaknesses[i]))
      && (forall i :: 0 <= i < |r.suggestions| ==> ItemOk(r.suggestions[i]))
  {
    ItemViolations(Strengths, r.strengths)
      + ItemViolations(Weaknesses, r.weaknesses)
      + ItemViolations(Suggestions, r.suggestions)
  }

  /** The errors of the rating and the detailed feedback. */
  function FieldViolations(r: Review): (v: seq<Violation>)
    ensures RatingOutOfRange in v <==> !InScale(r.overallRating)
    ensures FeedbackTooLong in v <==> r.detailedFeedback.Some? && |r.detailedFeedback.value| > MaxDetailed
    ensures forall x :: x in v ==> x == RatingOutOfRange || x == FeedbackTooLong
    ensures v == [] <==> InScale(r.overallRating) && (r.detailedFeedback.None? || |r.detailedFeedback.value| <= MaxDetailed)
  {
    (if InScale(r.overallRating) then [] else [RatingOutOfRange])
      + (if r.detailedFeedback.Some? && |r.detailedFeedback.value| > MaxDetailed then [FeedbackTooLong] else [])
  }

  /** The errors a save reports: none exactly for a valid record. */
  function Violations(r: Review): (v: seq<Violation>)
    ensures v == [] <==> Valid(r)
  {
    var fields := FieldViolations(r);
    var cats := CategoryViolations(r.categories);
    var items := RemarkViolations(r);
    assert |fields + cats + items| == |fields| + |cats| + |items|;
    fields + cats + items
  }

  /** Each error names a field that breaks its rule, and each broken rule is reported. */
  lemma ViolationsReportEach(r: Review)
    ensures RatingOutOfRange in Violations(r) <==> !InScale(r.overallRating)
    ensures FeedbackTooLong in Violations(r) <==> r.detailedFeedback.Some? && |r.detailedFeedback.value| > MaxDetailed
    ensures forall i: nat :: BadCategory(i) in Violations(r) <==> i < |r.categories| && !CategoryOk(r.categories[i])
    ensures forall l, i: nat :: ItemTooLong(l, i) in Violations(r) <==> ItemTooLong(l, i) in RemarkViolations(r)
  {
    var fields := FieldViolations(r);
    var cats := CategoryViolations(r.categories);
    var items := RemarkViolations(r);
    var v := Violations(r);
    assert v == fields + cats + items;
    assert RatingOutOfRange !in cats && RatingOutOfRange !in items;
    assert FeedbackTooLong !in cats && FeedbackTooLong !in items;
    forall i: nat
      ensures BadCategory(i) in v <==> BadCategory(i) in cats
    {
      assert BadCategory(i) !in fields && BadCategory(i) !in items;
    }
    forall l, i: nat
      ensures ItemTooLong(l, i) in v <==> ItemTooLong(l, i) in items
    {
      assert ItemTooLong(l, i) !in fields && ItemTooLong(l, i) !in cats;
    }
  }

  /** `save()`: validation; a rejected record is not stored. */
  function Save(r: Review): (s: Result<Review, seq<Violation>>)
    ensures s.Success? <==> Valid(r)
    ensures s.Success? ==> s.value == r
    ensures s.Failure? ==> s.error != [] && s.error == Violations(r)
  {
    var v := Violations(r);
    if v == [] then Success(r) else Failure(v)
  }

  /** Saving, answering `refusal` when the schema rejects the record. */
  function SaveOr<E>(r: Review, refusal: E): (s: Result<Review, E>)
    ensures s.Success? <==> Valid(r)
    ensures s.Success? ==> s.value == r
    ensures s.Failure? ==> s.error == refusal
  {
    if Save(r).Success? then Success(r) else Failure(refusal)
  }

  /** The unique index on (submission, reviewer): no two stored reviews share both. */
  predicate OnePerPair(reviews: map<nat, Review>) {
    forall a, b :: a in reviews && b in reviews && a != b ==>
      reviews[a].submission != reviews[b].submission || reviews[a].reviewer != reviews[b].reviewer
  }

  /** Does some stored review already pair this submission with this reviewer? */
  predicate FindPair(reviews: map<nat, Review>, submission: nat, reviewer: nat) {
    exists k :: k in reviews && reviews[k].submission == submission && reviews[k].reviewer == reviewer
  }

  /** Adding a review whose pair is new keeps the index unique. */
  lemma AddKeepsOnePerPair(reviews: map<nat, Review>, k: nat, r: Review)
    requires OnePerPair(reviews)
    requires k !in reviews
    requires !FindPair(reviews, r.submission, r.reviewer)
    ensures OnePerPair(reviews[k := r])
  {
  }

  /** Replacing a review by one for the same pair keeps the index unique. */
  lemma ReplaceKeepsOnePerPair(reviews: map<nat, Review>, k: nat, r: Review)
    requires OnePerPair(reviews)
    requires k in reviews && r.submission == reviews[k].submission && r.reviewer == reviews[k].reviewer
    ensures OnePerPair(reviews[k := r])
  {
  }
}

=== FILE: similarity.dfy ===
/** The composite similarity between two stemmed token lists:
    0.3 * Jaccard + 0.5 * bigram sequence similarity + 0.2 * word overlap. */
module Similarity {
  import opened Strings
  import Numeric

  /** The set of distinct tokens of a list (`new Set(tokens)`). */
  function Elems(t: seq<string>): set<string> {
    set x | x in t
  }

  /** A list has at least as many entries as distinct entries. */
  lemma {:induction false} ElemsCard(t: seq<string>)
    ensures |Elems(t)| <= |t|
  {
    if t != [] {
      ElemsCard(t[1..]);
      assert Elems(t) == {t[0]} + Elems(t[1..]);
    }
  }

  /** A subset is no larger than its superset. */
  lemma SubsetCard<T>(a: set<T>, b: set<T>)
    requires a <= b
    ensures |a| <= |b|
  {
    assert b == a + (b - a);
  }

  /** Shared distinct tokens (the `intersection` of the source). */
  function Common(a: seq<string>, b: seq<string>): set<string> {
    Elems(a) * Elems(b)
  }

  /** |intersection| / |union| of the token sets, 0 when both are empty. */
  function Jaccard(a: seq<string>, b: seq<string>): (r: real)
    ensures 0.0 <= r <= 1.0
  {
    var u := Elems(a) + Elems(b);
    SubsetCard(Common(a, b), u);
    if |u| > 0 then
      Numeric.RatioUnit(|Common(a, b)|, |u|);
      |Common(a, b)| as real / |u| as real
    else 0.0
  }

  /** The n-grams of a list: every window of `n` consecutive tokens, in order. */
  function Ngrams(t: seq<string>, n: nat): (r: seq<seq<string>>)
    ensures |r| == if |t| >= n then |t| - n + 1 else 0
    ensures forall i :: 0 <= i < |r| ==> r[i] == t[i..i + n]
    decreases |t|
  {
    if |t| < n then []
    else if |t| == n then [t]
    else
      var front := t[..|t| - 1];
      var r := Ngrams(front, n) + [t[|t| - n..]];
      assert forall i :: 0 <= i < |r| - 1 ==> r[i] == front[i..i + n] == t[i..i + n];
      r
  }

  /** The string an n-gram is compared by: its tokens joined with one space. */
  function GramKey(g: seq<string>): string {
    Join(g, " ")
  }

  /** Some n-gram of `gs` has the same key as `g`. */
  predicate Occurs(g: seq<string>, gs: seq<seq<string>>) {
    exists h :: h in gs && GramKey(h) == GramKey(g)
  }

  /** How many entries of `xs` (duplicates included) occur in `ys`. */
  function CountFound(xs: seq<seq<string>>, ys: seq<seq<string>>): (k: nat)
    ensures k <= |xs|
  {
    if xs == [] then 0 else (if Occurs(xs[0], ys) then 1 else 0) + CountFound(xs[1..], ys)
  }

  /** Bigrams of `a` found in `b`, over the larger bigram count (at least 1);
      0 when neither side has a bigram. */
  function SequenceSimilarity(a: seq<string>, b: seq<string>): (r: real)
    ensures 0.0 <= r <= 1.0
    ensures |a| < 2 && |b| < 2 ==> r == 0.0
  {
    var g1 := Ngrams(a, 2);
    var g2 := Ngrams(b, 2);
    if |g1| > 0 || |g2| > 0 then
      var m := Numeric.Max(Numeric.Max(|g1|, |g2|), 1);
      Numeric.RatioUnit(CountFound(g1, g2), m);
      CountFound(g1, g2) as real / m as real
    else 0.0
  }

  /** Shared distinct tokens over the shorter list's length (duplicates counted),
      0 when either list is empty. */
  function Overlap(a: seq<string>, b: seq<string>): (r: real)
    ensures 0.0 <= r <= 1.0
    ensures a != [] && b != [] && |Common(a, b)| == Numeric.Min(|a|, |b|) ==> r == 1.0
  {
    var m := Numeric.Min(|a|, |b|);
    var c := |Common(a, b)|;
    ElemsCard(a);
    ElemsCard(b);
    SubsetCard(Common(a, b), Elems(a));
    SubsetCard(Common(a, b), Elems(b));
    if m > 0 then
      Numeric.RatioUnit(c, m);
      assert c == m ==> c as real / m as real == 1.0 by {
        if c == m { Numeric.RatioSelf(m); }
      }
      c as real / m as real
    else 0.0
  }

  /** calculateSimilarity: the weighted blend of the three measures. */
  function Composite(a: seq<string>, b: seq<string>): (r: real)
    ensures 0.0 <= r <= 1.0
  {
    0.3 * Jaccard(a, b) + 0.5 * SequenceSimilarity(a, b) + 0.2 * Overlap(a, b)
  }

  /** Jaccard and overlap do not depend on the order of their arguments. */
  lemma JaccardOverlapSymmetric(a: seq<string>, b: seq<string>)
    ensures Jaccard(a, b) == Jaccard(b, a)
    ensures Overlap(a, b) == Overlap(b, a)
  {
    assert Common(a, b) == Common(b, a);
    assert Elems(a) + Elems(b) == Elems(b) + Elems(a);
  }

  /** Sequence similarity does depend on the order: duplicate bigrams are counted from
      the first list only. */
  lemma SequenceSimilarityAsymmetric(a: seq<string>, b: seq<string>)
    requires a == ["a", "b", "a", "b"] && b == ["a", "b", "c"]
    ensures SequenceSimilarity(a, b) == 2.0 / 3.0
    ensures SequenceSimilarity(b, a) == 1.0 / 3.0
  {
    var ga, gb := Ngrams(a, 2), Ngrams(b, 2);
    assert |ga| == 3 && |gb| == 2 && CountFound(ga, gb) == 2 && CountFound(gb, ga) == 1 by {
      var ab, ba, bc := ["a", "b"], ["b", "a"], ["b", "c"];
      NgramsOfExamples(a, b, [ab, ba, ab], [ab, bc]);
      ExampleCounts(ga, gb);
    }
    Thirds();
    SequenceOfCounts(a, b, ga, gb, 2, 3, 2.0 / 3.0);
    SequenceOfCounts(b, a, gb, ga, 1, 3, 1.0 / 3.0);
  }

  lemma Thirds()
    ensures 2 as real / 3 as real == 2.0 / 3.0
    ensures 1 as real / 3 as real == 1.0 / 3.0
  {
  }

  lemma ExampleCounts(ga: seq<seq<string>>, gb: seq<seq<string>>)
    requires ga == [["a", "b"], ["b", "a"], ["a", "b"]] && gb == [["a", "b"], ["b", "c"]]
    ensures CountFound(ga, gb) == 2
    ensures CountFound(gb, ga) == 1
  {
    var ab, ba, bc := ga[0], ga[1], gb[1];
    GramKeysOfExamples();
    assert Occurs(ab, gb) by { assert ab in gb; }
    assert Occurs(ab, ga) by { assert ab in ga; }
    assert !Occurs(ba, gb);
    assert !Occurs(bc, ga);
    assert ga[1..] == [ba, ab] && ga[1..][1..] == [ab];
    assert CountFound(ga[1..][1..], gb) == 1;
    assert CountFound(ga[1..], gb) == 1;
    assert gb[1..] == [bc];
  }

  lemma SequenceOfCounts(a: seq<string>, b: seq<string>, ga: seq<seq<string>>, gb: seq<seq<string>>, k: int, m: int, r: real)
    requires Ngrams(a, 2) == ga
    requires Ngrams(b, 2) == gb
    requires CountFound(ga, gb) == k
    requires m == Numeric.Max(Numeric.Max(|ga|, |gb|), 1)
    requires |ga| > 0
    requires r == k as real / m as real
    ensures SequenceSimilarity(a, b) == r
  {
  }

  lemma NgramsOfExamples(a: seq<string>, b: seq<string>, ga: seq<seq<string>>, gb: seq<seq<string>>)
    requires a == ["a", "b", "a", "b"] && b == ["a", "b", "c"]
    requires ga == [["a", "b"], ["b", "a"], ["a", "b"]] && gb == [["a", "b"], ["b", "c"]]
    ensures Ngrams(a, 2) == ga && Ngrams(b, 2) == gb
  {
    assert a[0..2] == ga[0] && a[1..3] == ga[1] && a[2..4] == ga[2];
    assert b[0..2] == gb[0] && b[1..3] == gb[1];
  }

  lemma GramKeysOfExamples()
    ensures GramKey(["a", "b"]) == "a b"
    ensures GramKey(["b", "a"]) == "b a"
    ensures GramKey(["b", "c"]) == "b c"
  {
  }

  /** Every entry of `xs` occurring in `ys` makes the count the full length. */
  lemma {:induction false} CountFoundAll(xs: seq<seq<string>>, ys: seq<seq<string>>)
    requires forall i :: 0 <= i < |xs| ==> xs[i] in ys
    ensures CountFound(xs, ys) == |xs|
  {
    if xs != [] {
      assert Occurs(xs[0], ys);
      CountFoundAll(xs[1..], ys);
    }
  }

  /** A non-empty list has Jaccard similarity 1 with itself. */
  lemma JaccardSelf(t: seq<string>)
    requires t != []
    ensures Jaccard(t, t) == 1.0
  {
    assert t[0] in Elems(t);
    assert Common(t, t) == Elems(t) + Elems(t);
  }

  /** A list of two or more tokens has sequence similarity 1 with itself. */
  lemma SequenceSelf(t: seq<string>)
    requires |t| >= 2
    ensures SequenceSimilarity(t, t) == 1.0
  {
    var g := Ngrams(t, 2);
    CountFoundSelf(g);
    assert Numeric.Max(Numeric.Max(|g|, |g|), 1) == |g|;
    Numeric.RatioSelf(|g|);
  }

  lemma CountFoundSelf(g: seq<seq<string>>)
    ensures CountFound(g, g) == |g|
  {
    CountFoundAll(g, g);
  }

  /** A list compared with itself: Jaccard and sequence similarity are 1, and the overlap
      is the share of distinct tokens, so the score is 1 exactly when no token repeats. */
  lemma SelfSimilarity(t: seq<string>)
    requires |t| >= 2
    ensures Composite(t, t) == 0.8 + 0.2 * (|Elems(t)| as real / |t| as real)
    ensures Composite(t, t) == 1.0 <==> |Elems(t)| == |t|
  {
    JaccardSelf(t);
    SequenceSelf(t);
    assert Common(t, t) == Elems(t);
    var q := |Elems(t)| as real / |t| as real;
    assert Overlap(t, t) == q;
    assert Composite(t, t) == 0.3 + 0.5 + 0.2 * q;
    assert q == 1.0 <==> |Elems(t)| == |t|;
  }

  /** The sentences "Apples are red." and "Bananas are yellow." share one stem, which is
      already above the 5% reporting threshold: the Jaccard term alone gives 0.3 * 1/5. */
  lemma OneSharedStemExceedsThreshold()
    ensures Composite(["appl", "ar", "red"], ["banana", "ar", "yellow"]) > 0.05
  {
    var a, b := ["appl", "ar", "red"], ["banana", "ar", "yellow"];
    ExampleSets(a, b);
    JaccardOfCounts(a, b, 1, 5);
  }

  lemma ExampleSets(a: seq<string>, b: seq<string>)
    requires a == ["appl", "ar", "red"] && b == ["banana", "ar", "yellow"]
    ensures |Common(a, b)| == 1
    ensures |Elems(a) + Elems(b)| == 5
  {
    ElemsOfThree(a);
    ElemsOfThree(b);
    assert Common(a, b) == {"ar"};
  }

  lemma ElemsOfThree(a: seq<string>)
    requires |a| == 3
    ensures Elems(a) == {a[0], a[1], a[2]}
  {
  }

  lemma JaccardOfCounts(a: seq<string>, b: seq<string>, c: int, u: int)
    requires |Common(a, b)| == c && |Elems(a) + Elems(b)| == u && u > 0
    ensures Jaccard(a, b) == c as real / u as real
  {
  }
}

=== FILE: sorting.dfy ===
/** The stable descending sort that `Array.prototype.sort` performs with a comparator
    `(a, b) => key(b) - key(a)`, and the `slice(0, n)` that follows it. */
module Sorting {

  /** Non-increasing by `key`. */
  predicate SortedDesc<T>(s: seq<T>, key: T -> real) {
    forall i, j :: 0 <= i < j < |s| ==> key(s[i]) >= key(s[j])
  }

  /** Non-increasing by `key`, and by increasing `rank` among equal keys. */
  predicate SortedDescThenRank<T>(s: seq<T>, key: T -> real, rank: T -> int) {
    forall i, j :: 0 <= i < j < |s| ==>
      key(s[i]) > key(s[j]) || (key(s[i]) == key(s[j]) && rank(s[i]) < rank(s[j]))
  }

  /** `rank` strictly increases along `s`. */
  predicate RankIncreasing<T>(s: seq<T>, rank: T -> int) {
    forall i, j :: 0 <= i < j < |s| ==> rank(s[i]) < rank(s[j])
  }

  /** Places `x` after the elements of larger key and before the rest. */
  function Insert<T>(x: T, s: seq<T>, key: T -> real): (r: seq<T>)
    ensures multiset(r) == multiset(s) + multiset{x}
    ensures |r| == |s| + 1
  {
    if s == [] || key(s[0]) <= key(x) then [x] + s
    else
      assert s == [s[0]] + s[1..];
      [s[0]] + Insert(x, s[1..], key)
  }

  /** Inserting into a sorted sequence keeps it sorted. */
  lemma {:induction false} InsertSorted<T>(x: T, s: seq<T>, key: T -> real)
    requires SortedDesc(s, key)
    ensures SortedDesc(Insert(x, s, key), key)
  {
    if s != [] && key(s[0]) > key(x) {
      var t := Insert(x, s[1..], key);
      InsertSorted(x, s[1..], key);
      forall y | y in t
        ensures key(s[0]) >= key(y)
      {
        assert y in multiset(s[1..]) + multiset{x};
        if y != x {
          var k :| 0 <= k < |s[1..]| && s[1..][k] == y;
          assert s[k + 1] == y;
        }
      }
    }
  }

  /** Stable sort by non-increasing `key`. */
  function SortDesc<T>(s: seq<T>, key: T -> real): (r: seq<T>)
    ensures multiset(r) == multiset(s)
    ensures |r| == |s|
    ensures SortedDesc(r, key)
  {
    if s == [] then []
    else
      assert s == [s[0]] + s[1..];
      InsertSorted(s[0], SortDesc(s[1..], key), key);
      Insert(s[0], SortDesc(s[1..], key), key)
  }

  /** `s.slice(0, n)`. */
  function Take<T>(s: seq<T>, n: nat): (r: seq<T>)
    ensures |r| <= n && |r| <= |s|
    ensures |r| == n || |r| == |s|
    ensures r == s[..|r|]
  {
    if |s| <= n then s else s[..n]
  }

  /** Inserting an element ranked below everything already sorted keeps the order. */
  lemma {:induction false} InsertKeepsRankOrder<T>(x: T, s: seq<T>, key: T -> real, rank: T -> int)
    requires SortedDescThenRank(s, key, rank)
    requires forall y :: y in s ==> rank(x) < rank(y)
    ensures SortedDescThenRank(Insert(x, s, key), key, rank)
  {
    if s == [] || key(s[0]) <= key(x) {
      forall y | y in s
        ensures key(x) > key(y) || (key(x) == key(y) && rank(x) < rank(y))
      {
        var k :| 0 <= k < |s| && s[k] == y;
        assert k == 0 || key(s[0]) >= key(s[k]);
      }
      PrependKeepsRankOrder(x, s, key, rank);
    } else {
      var t := Insert(x, s[1..], key);
      InsertKeepsRankOrder(x, s[1..], key, rank);
      InsertMembers(x, s[1..], key);
      forall y | y in t
        ensures key(s[0]) > key(y) || (key(s[0]) == key(y) && rank(s[0]) < rank(y))
      {
        if y != x {
          var k :| 0 <= k < |s[1..]| && s[1..][k] == y;
          assert s[k + 1] == y;
        }
      }
      PrependKeepsRankOrder(s[0], t, key, rank);
    }
  }

  /** An insertion adds `x` and nothing else. */
  lemma InsertMembers<T>(x: T, s: seq<T>, key: T -> real)
    ensures forall y :: y in Insert(x, s, key) ==> y == x || y in s
  {
    forall y | y in Insert(x, s, key)
      ensures y == x || y in s
    {
      assert y in multiset(Insert(x, s, key));
    }
  }

  /** An element ahead of every member of a sorted sequence can go in front of it. */
  lemma PrependKeepsRankOrder<T>(h: T, t: seq<T>, key: T -> real, rank: T -> int)
    requires SortedDescThenRank(t, key, rank)
    requires forall y :: y in t ==> key(h) > key(y) || (key(h) == key(y) && rank(h) < rank(y))
    ensures SortedDescThenRank([h] + t, key, rank)
  {
    var r := [h] + t;
    forall i, j | 0 <= i < j < |r|
      ensures key(r[i]) > key(r[j]) || (key(r[i]) == key(r[j]) && rank(r[i]) < rank(r[j]))
    {
      assert r[j] == t[j - 1];
      if i > 0 {
        assert r[i] == t[i - 1];
      }
    }
  }

  /** The sort is stable: when the input is ordered by `rank`, equal keys keep that order. */
  lemma {:induction false} SortIsStable<T>(s: seq<T>, key: T -> real, rank: T -> int)
    requires RankIncreasing(s, rank)
    ensures SortedDescThenRank(SortDesc(s, key), key, rank)
  {
    if s != [] {
      var t := SortDesc(s[1..], key);
      SortIsStable(s[1..], key, rank);
      forall y | y in t
        ensures rank(s[0]) < rank(y)
      {
        assert y in multiset(s[1..]);
        var k :| 0 <= k < |s[1..]| && s[1..][k] == y;
      }
      InsertKeepsRankOrder(s[0], t, key, rank);
    }
  }

  /** The first `n` of a sorted sequence are sorted and drawn from it; what they leave
      out ranks no higher than each of them, and is only left out when all `n` places
      are taken. */
  lemma TakeSortedIsTop<T>(s: seq<T>, n: nat, key: T -> real)
    requires SortedDesc(s, key)
    ensures SortedDesc(Take(s, n), key)
    ensures forall k :: 0 <= k < |Take(s, n)| ==> Take(s, n)[k] in s
    ensures forall x :: x in s && x !in Take(s, n) ==>
      |Take(s, n)| == n && forall k :: 0 <= k < n ==> key(Take(s, n)[k]) >= key(x)
  {
    var t := Take(s, n);
    assert forall i :: 0 <= i < |t| ==> t[i] == s[i];
    forall x | x in s && x !in t
      ensures |t| == n && forall k :: 0 <= k < n ==> key(t[k]) >= key(x)
    {
      var p :| 0 <= p < |s| && s[p] == x;
      assert p >= |t|;
    }
  }

  /** The first `n` of `s` sorted by descending key: as many as `n` allows, drawn from
      `s` without repeating any of its elements more often than `s` holds them, and
      anything of `s` they leave out ranks no higher than each of them. */
  lemma TopOfSorted<T>(s: seq<T>, n: nat, key: T -> real)
    ensures |Take(SortDesc(s, key), n)| == if n <= |s| then n else |s|
    ensures multiset(Take(SortDesc(s, key), n)) <= multiset(s)
    ensures SortedDesc(Take(SortDesc(s, key), n), key)
    ensures forall k :: 0 <= k < |Take(SortDesc(s, key), n)| ==> Take(SortDesc(s, key), n)[k] in s
    ensures forall x :: x in s && x !in Take(SortDesc(s, key), n) ==>
      |Take(SortDesc(s, key), n)| == n && forall k :: 0 <= k < n ==> key(Take(SortDesc(s, key), n)[k]) >= key(x)
  {
    var t := SortDesc(s, key);
    var top := Take(t, n);
    TakeSortedIsTop(t, n, key);
    TakeWithin(t, n);
    SameMembers(s, t);
    forall k | 0 <= k < |top|
      ensures top[k] in s
    {
      assert top[k] in t;
    }
    forall x | x in s && x !in top
      ensures |top| == n && forall k :: 0 <= k < n ==> key(top[k]) >= key(x)
    {
      assert x in t;
    }
  }

  /** A prefix holds no element more often than the whole. */
  lemma TakeWithin<T>(s: seq<T>, n: nat)
    ensures multiset(Take(s, n)) <= multiset(s)
  {
    if n < |s| {
      assert s == s[..n] + s[n..];
      assert multiset(s) == multiset(s[..n]) + multiset(s[n..]);
    }
  }

  /** The first `n` of a sequence sorted by key and then rank beat, by key and then by
      rank, everything they leave out. */
  lemma TakeRankedIsTop<T>(s: seq<T>, n: nat, key: T -> real, rank: T -> int)
    requires SortedDescThenRank(s, key, rank)
    ensures forall x :: x in s && x !in Take(s, n) ==>
      |Take(s, n)| == n && forall k :: 0 <= k < n ==>
        key(Take(s, n)[k]) > key(x) || (key(Take(s, n)[k]) == key(x) && rank(Take(s, n)[k]) < rank(x))
  {
    var t := Take(s, n);
    assert forall i :: 0 <= i < |t| ==> t[i] == s[i];
    forall x | x in s && x !in t
      ensures |t| == n && forall k :: 0 <= k < n ==> key(t[k]) > key(x) || (key(t[k]) == key(x) && rank(t[k]) < rank(x))
    {
      var p :| 0 <= p < |s| && s[p] == x;
      assert p >= |t|;
    }
  }

  /** Permutations have the same members. */
  lemma SameMembers<T>(a: seq<T>, b: seq<T>)
    requires multiset(a) == multiset(b)
    ensures forall x :: x in a <==> x in b
  {
    assert forall x :: x in a <==> x in multiset(a);
    assert forall x :: x in b <==> x in multiset(b);
  }
}

=== FILE: strings.dfy ===
/** The string primitives the JavaScript source relies on: the `\s` class, trim,
    `split` by a single character and by a run of separators, `replace(/\s+/g, ' ')`,
    `join`, `includes`, `startsWith`, `endsWith` and ASCII `toLowerCase`. */
module Strings {
  import Collections

  /** ECMAScript `\s` (WhiteSpace and LineTerminator), the set `trim` also removes. */
  predicate IsSpace(c: char) {
    var n := c as int;
    n == 9 || n == 10 || n == 11 || n == 12 || n == 13 || n == 32 || n == 0xA0 ||
    n == 0x1680 || (0x2000 <= n <= 0x200A) || n == 0x2028 || n == 0x2029 ||
    n == 0x202F || n == 0x205F || n == 0x3000 || n == 0xFEFF
  }

  /** A non-empty string is its head followed by its tail. */
  lemma HeadSplit(s: string)
    requires s != []
    ensures [s[0]] + s[1..] == s
  {
  }

  predicate IsAsciiUpper(c: char) { 'A' <= c <= 'Z' }

  predicate IsAsciiLower(c: char) { 'a' <= c <= 'z' }

  predicate IsAsciiLetter(c: char) { IsAsciiUpper(c) || IsAsciiLower(c) }

  /** toLowerCase restricted to the ASCII letters. */
  function LowerChar(c: char): (r: char)
    ensures IsSpace(r) <==> IsSpace(c)
    ensures IsAsciiLetter(r) <==> IsAsciiLetter(c)
    ensures !IsAsciiUpper(r)
  {
    if IsAsciiUpper(c) then (c as int + 32) as char else c
  }

  function Lower(s: string): (r: string)
    ensures |r| == |s|
    ensures forall i :: 0 <= i < |s| ==> r[i] == LowerChar(s[i])
  {
    if s == [] then [] else [LowerChar(s[0])] + Lower(s[1..])
  }

  /** No character of `s` is whitespace. */
  predicate NoSpace(s: string) {
    forall i :: 0 <= i < |s| ==> !IsSpace(s[i])
  }

  /** The suffix of `s` after its leading run of `sep` characters. */
  function DropWhile(s: string, sep: char -> bool): (r: string)
    ensures |r| <= |s| && r == s[|s| - |r|..]
    ensures r == [] || !sep(r[0])
    ensures forall i :: 0 <= i < |s| - |r| ==> sep(s[i])
  {
    if s != [] && sep(s[0]) then
      var r := DropWhile(s[1..], sep);
      assert s[1..][|s| - 1 - |r|..] == s[|s| - |r|..];
      assert forall i :: 1 <= i < |s| - |r| ==> s[i] == s[1..][i - 1];
      r
    else s
  }

  /** trimStart: `s` without its leading whitespace. */
  function TrimStart(s: string): (r: string)
    ensures |r| <= |s| && r == s[|s| - |r|..]
    ensures r == [] || !IsSpace(r[0])
    ensures forall i :: 0 <= i < |s| - |r| ==> IsSpace(s[i])
  {
    DropWhile(s, IsSpace)
  }

  /** trimEnd: `s` without its trailing whitespace. */
  function TrimEnd(s: string): (r: string)
    ensures |r| <= |s| && r == s[..|r|]
    ensures r == [] || !IsSpace(r[|r| - 1])
    ensures forall i :: |r| <= i < |s| ==> IsSpace(s[i])
  {
    if s != [] && IsSpace(s[|s| - 1]) then TrimEnd(s[..|s| - 1]) else s
  }

  /** String.prototype.trim. */
  function Trim(s: string): string {
    TrimEnd(TrimStart(s))
  }

  /** Length of the leading whitespace run of `s`: what the pattern `^\s*` matches. */
  function LeadingSpaces(s: string): (n: nat)
    ensures n <= |s|
  {
    |s| - |TrimStart(s)|
  }

  /** Trim returns the slice of `s` between its leading and trailing whitespace. */
  lemma TrimIsSlice(s: string)
    ensures LeadingSpaces(s) + |Trim(s)| <= |s|
    ensures Trim(s) == s[LeadingSpaces(s)..LeadingSpaces(s) + |Trim(s)|]
    ensures forall i :: 0 <= i < LeadingSpaces(s) ==> IsSpace(s[i])
    ensures forall i :: LeadingSpaces(s) + |Trim(s)| <= i < |s| ==> IsSpace(s[i])
    ensures Trim(s) == [] || (!IsSpace(Trim(s)[0]) && !IsSpace(Trim(s)[|Trim(s)| - 1]))
  {
    CutBothEnds(s, TrimStart(s), Trim(s));
  }

  /** Cutting a whitespace prefix and then a whitespace suffix leaves a middle slice. */
  lemma CutBothEnds(s: string, u: string, t: string)
    requires |u| <= |s| && u == s[|s| - |u|..]
    requires u == [] || !IsSpace(u[0])
    requires forall i :: 0 <= i < |s| - |u| ==> IsSpace(s[i])
    requires |t| <= |u| && t == u[..|t|]
    requires t == [] || !IsSpace(t[|t| - 1])
    requires forall i :: |t| <= i < |u| ==> IsSpace(u[i])
    ensures |s| - |u| + |t| <= |s|
    ensures t == s[|s| - |u|..|s| - |u| + |t|]
    ensures forall i :: |s| - |u| + |t| <= i < |s| ==> IsSpace(s[i])
    ensures t == [] || (!IsSpace(t[0]) && !IsSpace(t[|t| - 1]))
  {
    var a := |s| - |u|;
    assert t == s[a..a + |t|];
    forall i | a + |t| <= i < |s|
      ensures IsSpace(s[i])
    {
      assert s[i] == u[i - a];
    }
    if t != [] {
      assert t[0] == u[0];
    }
  }

  /** Trim yields the empty string exactly for all-whitespace input. */
  lemma TrimEmptyIff(s: string)
    ensures Trim(s) == [] <==> forall i :: 0 <= i < |s| ==> IsSpace(s[i])
  {
    TrimIsSlice(s);
  }

  /** Number of occurrences of `c` in `s`. */
  function Occurrences(s: string, c: char): nat {
    if s == [] then 0 else (if s[0] == c then 1 else 0) + Occurrences(s[1..], c)
  }

  /** `s.split(c)` for a one-character separator: pieces between consecutive occurrences. */
  function SplitOn(s: string, c: char): (r: seq<string>)
    ensures |r| == Occurrences(s, c) + 1
    ensures forall i :: 0 <= i < |r| ==> c !in r[i]
  {
    if s == [] then [[]]
    else
      var rest := SplitOn(s[1..], c);
      if s[0] == c then [[]] + rest else [[s[0]] + rest[0]] + rest[1..]
  }

  /** `pieces.join(d)`. */
  function Join(pieces: seq<string>, d: string): string {
    if |pieces| == 0 then []
    else if |pieces| == 1 then pieces[0]
    else pieces[0] + d + Join(pieces[1..], d)
  }

  /** Splitting on `c` and joining with `c` gives the input back. */
  lemma {:induction false} JoinSplitOn(s: string, c: char)
    ensures Join(SplitOn(s, c), [c]) == s
  {
    if s != [] {
      var rest := SplitOn(s[1..], c);
      JoinSplitOn(s[1..], c);
      if s[0] == c {
        assert SplitOn(s, c) == [[]] + rest;
        assert Join([[]] + rest, [c]) == [] + [c] + Join(rest, [c]);
      } else {
        JoinHead(s[0], rest, [c]);
      }
    }
  }

  /** Prefixing the first piece prefixes the joined string. */
  lemma JoinHead(x: char, pieces: seq<string>, d: string)
    requires |pieces| >= 1
    ensures Join([[x] + pieces[0]] + pieces[1..], d) == [x] + Join(pieces, d)
  {
    var q := [[x] + pieces[0]] + pieces[1..];
    assert q[1..] == pieces[1..];
  }

  /** An empty first piece leaves only the delimiter in front of the rest. */
  lemma JoinEmptyHead(pieces: seq<string>, d: string)
    requires |pieces| >= 1
    ensures Join([[]] + pieces, d) == d + Join(pieces, d)
  {
    assert ([[]] + pieces)[1..] == pieces;
  }

  /** Splitting the join of comma-free pieces gives the pieces back. */
  lemma {:induction false} SplitOnJoin(pieces: seq<string>, c: char)
    requires |pieces| >= 1
    requires forall i :: 0 <= i < |pieces| ==> c !in pieces[i]
    ensures SplitOn(Join(pieces, [c]), c) == pieces
  {
    if |pieces| == 1 {
      SplitOnFree(pieces[0], c);
    } else {
      SplitOnJoin(pieces[1..], c);
      SplitOnPrefix(pieces[0], Join(pieces[1..], [c]), c);
      assert Join(pieces, [c]) == pieces[0] + ([c] + Join(pieces[1..], [c]));
      assert [pieces[0]] + pieces[1..] == pieces;
    }
  }

  /** A string without `c` splits into itself. */
  lemma {:induction false} SplitOnFree(s: string, c: char)
    requires c !in s
    ensures SplitOn(s, c) == [s]
  {
    if s != [] {
      assert c !in s[1..];
      SplitOnFree(s[1..], c);
      HeadSplit(s);
    }
  }

  /** A `c`-free prefix followed by `c` becomes the first piece. */
  lemma {:induction false} SplitOnPrefix(p: string, t: string, c: char)
    requires c !in p
    ensures SplitOn(p + ([c] + t), c) == [p] + SplitOn(t, c)
  {
    if p == [] {
      assert p + ([c] + t) == [c] + t;
      assert ([c] + t)[1..] == t;
    } else {
      var s := p + ([c] + t);
      assert s[1..] == p[1..] + ([c] + t);
      assert c !in p[1..];
      SplitOnPrefix(p[1..], t, c);
      assert [p[0]] + p[1..] == p;
    }
  }

  /** `s.split(re)` where `re` matches one or more `sep` characters: runs of separators
      delimit the pieces, a leading (trailing) run gives an empty first (last) piece. */
  function SplitRuns(s: string, sep: char -> bool): (r: seq<string>)
    ensures Shape(s, r, sep)
    decreases |s|
  {
    if s == [] then [[]]
    else if sep(s[0]) then
      var d := DropWhile(s[1..], sep);
      var rest := SplitRuns(d, sep);
      DropWhileEnd(s, sep);
      SepStepShape(s, d, rest, sep);
      [[]] + rest
    else
      var rest := SplitRuns(s[1..], sep);
      assert |s| > 1 && sep(s[1]) ==> |rest| >= 2;
      assert |s| == 1 ==> s[1..] == [];
      FreeStepShape(s, rest, sep);
      [[s[0]] + rest[0]] + rest[1..]
  }

  /** The pieces `r` of `s`: there is at least one, none holds a separator, only the
      first and the last can be empty, and the first (last) is empty exactly when `s` is
      empty or starts (ends) with a separator. */
  predicate Shape(s: string, r: seq<string>, sep: char -> bool) {
    && |r| >= 1
    && (forall i, j :: 0 <= i < |r| && 0 <= j < |r[i]| ==> !sep(r[i][j]))
    && (forall i :: 0 < i < |r| - 1 ==> r[i] != [])
    && (r[0] == [] <==> (s == [] || sep(s[0])))
    && (r[|r| - 1] == [] <==> (s == [] || sep(s[|s| - 1])))
  }

  /** A leading separator run opens an empty first piece. */
  lemma SepStepShape(s: string, d: string, rest: seq<string>, sep: char -> bool)
    requires s != [] && sep(s[0])
    requires d == [] ==> sep(s[|s| - 1])
    requires d != [] ==> d[|d| - 1] == s[|s| - 1] && !sep(d[0])
    requires d == [] ==> rest == [[]]
    requires Shape(d, rest, sep)
    ensures Shape(s, [[]] + rest, sep)
  {
    var r := [[]] + rest;
    forall i, j | 0 <= i < |r| && 0 <= j < |r[i]|
      ensures !sep(r[i][j])
    {
      assert r[i] == rest[i - 1];
    }
    forall i | 0 < i < |r| - 1
      ensures r[i] != []
    {
      assert r[i] == rest[i - 1];
    }
    assert r[|r| - 1] == rest[|rest| - 1];
  }

  /** A leading non-separator joins the first piece. */
  lemma FreeStepShape(s: string, rest: seq<string>, sep: char -> bool)
    requires s != [] && !sep(s[0])
    requires Shape(s[1..], rest, sep)
    requires |s| == 1 ==> rest == [[]]
    requires |s| > 1 && sep(s[1]) ==> |rest| >= 2
    ensures Shape(s, [[s[0]] + rest[0]] + rest[1..], sep)
  {
    var r := [[s[0]] + rest[0]] + rest[1..];
    forall i, j | 0 <= i < |r| && 0 <= j < |r[i]|
      ensures !sep(r[i][j])
    {
      if i == 0 {
        if j > 0 {
          assert r[0][j] == rest[0][j - 1];
        }
      } else {
        assert r[i] == rest[i];
      }
    }
    forall i | 0 < i < |r| - 1
      ensures r[i] != []
    {
      assert r[i] == rest[i];
    }
    if |s| > 1 {
      assert s[|s| - 1] == s[1..][|s| - 2];
      if |rest| == 1 {
        assert rest[0] != [];
      } else {
        assert r[|r| - 1] == rest[|rest| - 1];
      }
    }
  }

  /** After a leading separator, what the run leaves is empty only when the string
      ends in a separator, and otherwise ends where the string ends. */
  lemma DropWhileEnd(s: string, sep: char -> bool)
    requires s != [] && sep(s[0])
    ensures DropWhile(s[1..], sep) == [] ==> sep(s[|s| - 1])
    ensures DropWhile(s[1..], sep) != [] ==> DropWhile(s[1..], sep)[|DropWhile(s[1..], sep)| - 1] == s[|s| - 1]
    ensures DropWhile(s[1..], sep) != [] ==> !sep(DropWhile(s[1..], sep)[0])
  {
    if |s| > 1 {
      assert s[|s| - 1] == s[1..][|s| - 2];
    }
  }

  /** `s.replace(/\s+/g, ' ')`: every maximal whitespace run becomes one space. */
  function Collapse(s: string): (r: string)
    ensures forall i :: 0 <= i < |r| && IsSpace(r[i]) ==> r[i] == ' '
    ensures forall i :: 0 <= i < |r| - 1 ==> !(IsSpace(r[i]) && IsSpace(r[i + 1]))
    ensures r == [] <==> s == []
    ensures r != [] ==> (IsSpace(r[0]) <==> IsSpace(s[0]))
    decreases |s|
  {
    if s == [] then []
    else if IsSpace(s[0]) then [' '] + Collapse(DropWhile(s[1..], IsSpace))
    else [s[0]] + Collapse(s[1..])
  }

  /** The whitespace-split pieces joined by single spaces are the collapsed string. */
  lemma {:induction false} JoinSplitRunsIsCollapse(s: string)
    ensures Join(SplitRuns(s, IsSpace), " ") == Collapse(s)
    decreases |s|
  {
    if s != [] {
      if IsSpace(s[0]) {
        var d := DropWhile(s[1..], IsSpace);
        JoinSplitRunsIsCollapse(d);
        JoinEmptyHead(SplitRuns(d, IsSpace), " ");
      } else {
        JoinSplitRunsIsCollapse(s[1..]);
        JoinHead(s[0], SplitRuns(s[1..], IsSpace), " ");
      }
    }
  }

  /** A piece with at least one character: what `filter(w => w.length > 0)` keeps. */
  predicate Filled(s: string) { s != [] }

  /** `s.split(/\s+/).filter(w => w.length > 0)`: the words of `s`, that is the non-empty
      pieces of the whitespace split, each at the index given by the non-empty pieces
      before it. */
  function Words(s: string): (r: seq<string>)
    ensures forall i :: 0 <= i < |r| ==> r[i] != [] && NoSpace(r[i])
    ensures |r| == Collections.Count(Filled, SplitRuns(s, IsSpace))
    ensures forall k :: 0 <= k < |SplitRuns(s, IsSpace)| ==> Collections.KeptAt(Filled, SplitRuns(s, IsSpace), r, k)
  {
    var pieces := SplitRuns(s, IsSpace);
    var r := Collections.Filter(Filled, pieces);
    assert forall i :: 0 <= i < |r| ==> r[i] in r;
    r
  }

  /** The pieces with the gaps between them: `p[0] + g[0] + p[1] + … + p[|p| - 1]`. */
  function Weave(p: seq<string>, g: seq<string>): string
    requires |p| == |g| + 1
  {
    if g == [] then p[0] else p[0] + g[0] + Weave(p[1..], g[1..])
  }

  /** `x` is a non-empty run of `sep` characters. */
  predicate Run(x: string, sep: char -> bool) {
    x != [] && forall j :: 0 <= j < |x| ==> sep(x[j])
  }

  /** No character of `x` is a `sep` character. */
  predicate Free(x: string, sep: char -> bool) {
    forall j :: 0 <= j < |x| ==> !sep(x[j])
  }

  /** The maximal runs of `sep` characters in `s`, left to right: what the split removes. */
  function Gaps(s: string, sep: char -> bool): (g: seq<string>)
    decreases |s|
  {
    if s == [] then []
    else if sep(s[0]) then
      var d := DropWhile(s[1..], sep);
      [s[..|s| - |d|]] + Gaps(d, sep)
    else Gaps(s[1..], sep)
  }

  /** The split cuts `s` exactly at its separator runs: there is one run between each
      two consecutive pieces, and weaving them back together gives `s`. */
  lemma {:induction false} SplitRunsRejoin(s: string, sep: char -> bool)
    ensures |Gaps(s, sep)| == |SplitRuns(s, sep)| - 1
    ensures forall i :: 0 <= i < |Gaps(s, sep)| ==> Run(Gaps(s, sep)[i], sep)
    ensures Weave(SplitRuns(s, sep), Gaps(s, sep)) == s
    decreases |s|
  {
    if s != [] {
      if sep(s[0]) {
        var d := DropWhile(s[1..], sep);
        SplitRunsRejoin(d, sep);
        LeadingRun(s, d, sep);
        GapStep(s, d, s[..|s| - |d|], SplitRuns(d, sep), Gaps(d, sep), sep);
      } else {
        SplitRunsRejoin(s[1..], sep);
        WeaveHead(s[0], SplitRuns(s[1..], sep), Gaps(s[1..], sep));
        HeadSplit(s);
      }
    }
  }

  /** A string that starts with a separator is its leading run, then the rest. */
  lemma LeadingRun(s: string, d: string, sep: char -> bool)
    requires s != [] && sep(s[0])
    requires |d| <= |s| - 1 && d == s[1..][|s| - 1 - |d|..]
    requires forall i :: 0 <= i < |s| - 1 - |d| ==> sep(s[1..][i])
    ensures Run(s[..|s| - |d|], sep)
    ensures s[..|s| - |d|] + d == s
  {
    var run := s[..|s| - |d|];
    assert d == s[|s| - |d|..];
    forall j | 0 <= j < |run|
      ensures sep(run[j])
    {
      if j > 0 {
        assert run[j] == s[1..][j - 1];
      }
    }
  }

  /** A leading run in front of a woven string becomes its first gap, after an empty
      first piece. */
  lemma GapStep(s: string, d: string, run: string, p: seq<string>, g: seq<string>, sep: char -> bool)
    requires |g| == |p| - 1 && Weave(p, g) == d
    requires forall i :: 0 <= i < |g| ==> Run(g[i], sep)
    requires Run(run, sep) && run + d == s
    ensures |[run] + g| == |[[]] + p| - 1
    ensures forall i :: 0 <= i < |[run] + g| ==> Run(([run] + g)[i], sep)
    ensures Weave([[]] + p, [run] + g) == s
  {
    assert ([[]] + p)[1..] == p && ([run] + g)[1..] == g;
    assert forall i :: 0 <= i < |g| ==> ([run] + g)[i + 1] == g[i];
  }

  /** Prefixing the first piece prefixes the woven string. */
  lemma WeaveHead(x: char, p: seq<string>, g: seq<string>)
    requires |p| == |g| + 1
    ensures Weave([[x] + p[0]] + p[1..], g) == [x] + Weave(p, g)
  {
    var q := [[x] + p[0]] + p[1..];
    assert q[1..] == p[1..];
  }

  /** Pieces and gaps the split can give back: separator-free pieces, all but the outer
      ones non-empty, and separator runs between them. */
  predicate Weavable(p: seq<string>, g: seq<string>, sep: char -> bool) {
    && |p| == |g| + 1
    && (forall i :: 0 <= i < |p| ==> Free(p[i], sep))
    && (forall i :: 0 < i < |p| - 1 ==> p[i] != [])
    && (forall i :: 0 <= i < |g| ==> Run(g[i], sep))
  }

  /** The converse: weaving such pieces and gaps together and splitting again gives
      the pieces back. */
  lemma {:induction false} SplitRunsWeave(p: seq<string>, g: seq<string>, sep: char -> bool)
    requires Weavable(p, g, sep)
    ensures SplitRuns(Weave(p, g), sep) == p
  {
    if g == [] {
      SplitRunsFree(p[0], sep);
    } else {
      var t := Weave(p[1..], g[1..]);
      WeaveTail(p, g, sep);
      SplitRunsWeave(p[1..], g[1..], sep);
      SplitRunsPrefix(p[0], g[0], t, sep);
      assert Weave(p, g) == p[0] + g[0] + t;
      assert [p[0]] + p[1..] == p;
    }
  }

  /** What follows the first gap of a woven string is woven from the remaining pieces
      and gaps, and does not start with a separator. */
  lemma WeaveTail(p: seq<string>, g: seq<string>, sep: char -> bool)
    requires Weavable(p, g, sep) && g != []
    ensures Weavable(p[1..], g[1..], sep)
    ensures Free(p[0], sep) && Run(g[0], sep)
    ensures Weave(p[1..], g[1..]) == [] || !sep(Weave(p[1..], g[1..])[0])
  {
    assert forall i :: 0 <= i < |p[1..]| ==> p[1..][i] == p[i + 1];
    assert forall i :: 0 <= i < |g[1..]| ==> g[1..][i] == g[i + 1];
    var t := Weave(p[1..], g[1..]);
    WeaveStart(p[1..], g[1..]);
    if p[1] != [] {
      assert t[0] == p[1][0];
    } else {
      assert |p| == 2 && t == p[1];
    }
  }

  /** A woven string starts with its first piece. */
  lemma WeaveStart(p: seq<string>, g: seq<string>)
    requires |p| == |g| + 1
    ensures |p[0]| <= |Weave(p, g)| && Weave(p, g)[..|p[0]|] == p[0]
  {
    if g != [] {
      assert Weave(p, g) == p[0] + (g[0] + Weave(p[1..], g[1..]));
    }
  }

  /** A separator-free string is a single piece. */
  lemma {:induction false} SplitRunsFree(x: string, sep: char -> bool)
    requires Free(x, sep)
    ensures SplitRuns(x, sep) == [x]
  {
    if x != [] {
      SplitRunsFree(x[1..], sep);
      HeadSplit(x);
    }
  }

  /** A separator-free prefix followed by a separator run becomes the first piece. */
  lemma {:induction false} SplitRunsPrefix(a: string, run: string, t: string, sep: char -> bool)
    requires Free(a, sep) && Run(run, sep)
    requires t == [] || !sep(t[0])
    ensures SplitRuns(a + run + t, sep) == [a] + SplitRuns(t, sep)
  {
    var s := a + run + t;
    if a == [] {
      assert s == run + t;
      assert s[1..] == run[1..] + t;
      DropWhileRun(run[1..], t, sep);
    } else {
      assert s[0] == a[0] && s[1..] == a[1..] + run + t;
      SplitRunsPrefix(a[1..], run, t, sep);
      HeadSplit(a);
    }
  }

  /** Dropping a separator run in front of a string that does not start with one. */
  lemma {:induction false} DropWhileRun(x: string, t: string, sep: char -> bool)
    requires forall j :: 0 <= j < |x| ==> sep(x[j])
    requires t == [] || !sep(t[0])
    ensures DropWhile(x + t, sep) == t
  {
    if x == [] {
      assert x + t == t;
    } else {
      assert (x + t)[1..] == x[1..] + t;
      DropWhileRun(x[1..], t, sep);
    }
  }

  /** Collapsing whitespace keeps the pieces of the whitespace split. */
  lemma {:induction false} SplitRunsCollapse(s: string)
    ensures SplitRuns(Collapse(s), IsSpace) == SplitRuns(s, IsSpace)
    decreases |s|
  {
    if s != [] {
      if IsSpace(s[0]) {
        var d := DropWhile(s[1..], IsSpace);
        SplitRunsCollapse(d);
        var c := Collapse(d);
        assert ([' '] + c)[1..] == c;
        assert DropWhile(c, IsSpace) == c;
      } else {
        var c := Collapse(s[1..]);
        SplitRunsCollapse(s[1..]);
        assert ([s[0]] + c)[1..] == c;
      }
    }
  }

  /** Collapsing whitespace keeps the words. */
  lemma WordsCollapse(s: string)
    ensures Words(Collapse(s)) == Words(s)
  {
    SplitRunsCollapse(s);
  }

  /** An empty first piece adds no word. */
  lemma DropEmptyHead(pieces: seq<string>)
    ensures Collections.Filter(Filled, [[]] + pieces) == Collections.Filter(Filled, pieces)
  {
    assert ([[]] + pieces)[1..] == pieces;
  }

  /** Leading whitespace adds no word. */
  lemma WordsTrimStart(s: string)
    ensures Words(TrimStart(s)) == Words(s)
  {
    if s != [] && IsSpace(s[0]) {
      DropEmptyHead(SplitRuns(DropWhile(s[1..], IsSpace), IsSpace));
    }
  }

  /** Dropping the leading `sep` run of a concatenation: the first part's, and the
      second part's too when the first part is all separators. */
  lemma {:induction false} DropWhileAppend(x: string, y: string, sep: char -> bool)
    ensures DropWhile(x + y, sep) == if DropWhile(x, sep) == [] then DropWhile(y, sep) else DropWhile(x, sep) + y
  {
    if x == [] {
      assert x + y == y;
    } else {
      assert (x + y)[0] == x[0] && (x + y)[1..] == x[1..] + y;
      if sep(x[0]) {
        DropWhileAppend(x[1..], y, sep);
      }
    }
  }

  /** Appending a separator to `t`: it joins a trailing run if there is one, and
      otherwise opens an empty last piece. */
  lemma {:induction false} SplitRunsSnoc(t: string, c: char, sep: char -> bool)
    requires sep(c)
    ensures SplitRuns(t + [c], sep) == SnocPieces(t, sep)
    decreases |t|, 1
  {
    if t == [] {
      var s := t + [c];
      assert s == [c] && s[1..] == [];
    } else if sep(t[0]) {
      SplitRunsSnocSep(t, c, sep);
    } else {
      SplitRunsSnocFree(t, c, sep);
    }
  }

  /** The pieces of `t` followed by a separator. */
  function SnocPieces(t: string, sep: char -> bool): seq<string> {
    if t != [] && sep(t[|t| - 1]) then SplitRuns(t, sep) else SplitRuns(t, sep) + [[]]
  }

  lemma {:induction false} SplitRunsSnocSep(t: string, c: char, sep: char -> bool)
    requires sep(c) && t != [] && sep(t[0])
    ensures SplitRuns(t + [c], sep) == SnocPieces(t, sep)
    decreases |t|, 0
  {
    var d := DropWhile(t[1..], sep);
    SnocSepUnfold(t, c, sep);
    if d == [] {
      LastDropped(t, sep);
    } else {
      SplitRunsSnoc(d, c, sep);
      DropWhileLast(t[1..], sep);
      var b := sep(d[|d| - 1]);
      assert SnocPieces(d, sep) == if b then SplitRuns(d, sep) else SplitRuns(d, sep) + [[]];
      PrependEmpty(SplitRuns(d, sep), SplitRuns(d + [c], sep), b);
    }
  }

  /** An empty first piece in front of the pieces, with or without an empty last one. */
  lemma PrependEmpty(p: seq<string>, q: seq<string>, b: bool)
    requires q == (if b then p else p + [[]])
    ensures [[]] + q == (if b then [[]] + p else ([[]] + p) + [[]])
  {
  }

  /** What is left after dropping a leading run ends where the string ends. */
  lemma DropWhileLast(s: string, sep: char -> bool)
    requires DropWhile(s, sep) != []
    ensures DropWhile(s, sep)[|DropWhile(s, sep)| - 1] == s[|s| - 1]
  {
  }

  /** One step of the split of `t + [c]` for `t` starting with a separator. */
  lemma SnocSepUnfold(t: string, c: char, sep: char -> bool)
    requires sep(c) && t != [] && sep(t[0])
    ensures SplitRuns(t, sep) == [[]] + SplitRuns(DropWhile(t[1..], sep), sep)
    ensures DropWhile(t[1..], sep) == [] ==> SplitRuns(t + [c], sep) == [[]] + SplitRuns([], sep)
    ensures DropWhile(t[1..], sep) != [] ==>
      SplitRuns(t + [c], sep) == [[]] + SplitRuns(DropWhile(t[1..], sep) + [c], sep)
  {
    var s := t + [c];
    assert s[0] == t[0] && s[1..] == t[1..] + [c];
    DropWhileAppend(t[1..], [c], sep);
    assert [c][1..] == [];
  }

  /** A string whose tail is all separators ends in a separator when it starts with one. */
  lemma LastDropped(t: string, sep: char -> bool)
    requires t != [] && sep(t[0]) && DropWhile(t[1..], sep) == []
    ensures sep(t[|t| - 1])
  {
    if |t| > 1 {
      assert t[|t| - 1] == t[1..][|t| - 2];
    }
  }

  lemma {:induction false} SplitRunsSnocFree(t: string, c: char, sep: char -> bool)
    requires sep(c) && t != [] && !sep(t[0])
    ensures SplitRuns(t + [c], sep) == SnocPieces(t, sep)
    decreases |t|, 0
  {
    var s := t + [c];
    assert s[0] == t[0] && s[1..] == t[1..] + [c];
    SplitRunsSnoc(t[1..], c, sep);
    if t[1..] != [] {
      assert t[1..][|t| - 2] == t[|t| - 1];
    }
    ConsSnoc(t[0], SplitRuns(t[1..], sep), SnocPieces(t[1..], sep), t[1..] != [] && sep(t[|t| - 1]));
  }

  /** Prefixing the first piece commutes with appending an empty last piece. */
  lemma ConsSnoc(x: char, p: seq<string>, q: seq<string>, b: bool)
    requires |p| >= 1
    requires q == (if b then p else p + [[]])
    ensures [[x] + q[0]] + q[1..] == (if b then [[x] + p[0]] + p[1..] else ([[x] + p[0]] + p[1..]) + [[]])
  {
    if !b {
      assert (p + [[]])[0] == p[0] && (p + [[]])[1..] == p[1..] + [[]];
    }
  }

  /** Trailing whitespace adds no word. */
  lemma {:induction false} WordsTrimEnd(s: string)
    ensures Words(TrimEnd(s)) == Words(s)
  {
    if s != [] && IsSpace(s[|s| - 1]) {
      var t := s[..|s| - 1];
      assert TrimEnd(s) == TrimEnd(t);
      WordsTrimEnd(t);
      WordsDropLastSpace(s);
    }
  }

  /** Dropping a final whitespace character keeps the words. */
  lemma WordsDropLastSpace(s: string)
    requires s != [] && IsSpace(s[|s| - 1])
    ensures Words(s[..|s| - 1]) == Words(s)
  {
    assert s[..|s| - 1] + [s[|s| - 1]] == s;
    WordsSnocSpace(s[..|s| - 1], s[|s| - 1]);
  }

  /** A whitespace character at the end adds no word. */
  lemma WordsSnocSpace(t: string, c: char)
    requires IsSpace(c)
    ensures Words(t + [c]) == Words(t)
  {
    SplitRunsSnoc(t, c, IsSpace);
    DropEmptyLast(SplitRuns(t, IsSpace));
  }

  /** An empty last piece adds no word. */
  lemma DropEmptyLast(pieces: seq<string>)
    ensures Collections.Filter(Filled, pieces + [[]]) == Collections.Filter(Filled, pieces)
  {
    Collections.FilterAppend(Filled, pieces, [[]]);
    assert Collections.Filter(Filled, [[]]) == [];
  }

  /** Trimming keeps the words. */
  lemma WordsTrim(s: string)
    ensures Words(Trim(s)) == Words(s)
  {
    WordsTrimStart(s);
    WordsTrimEnd(TrimStart(s));
  }

  /** `s.includes(t)`. */
  predicate Contains(s: string, t: string) {
    exists i :: 0 <= i <= |s| - |t| && OccursAt(s, t, i)
  }

  /** `t` occurs in `s` starting at index `i`. */
  predicate OccursAt(s: string, t: string, i: int) {
    0 <= i <= |s| - |t| && s[i..i + |t|] == t
  }

  predicate StartsWith(s: string, t: string) {
    |t| <= |s| && s[..|t|] == t
  }

  predicate EndsWith(s: string, t: string) {
    |t| <= |s| && s[|s| - |t|..] == t
  }

  /** The pieces written one after another. */
  function Concat(pieces: seq<string>): string {
    if pieces == [] then [] else pieces[0] + Concat(pieces[1..])
  }

  /** The characters of `s` that are not `sep` characters, in order. */
  function Without(s: string, sep: char -> bool): (r: string)
    ensures |r| <= |s|
    ensures forall i :: 0 <= i < |r| ==> !sep(r[i])
  {
    if s == [] then [] else if sep(s[0]) then Without(s[1..], sep) else [s[0]] + Without(s[1..], sep)
  }

  lemma {:induction false} WithoutDropWhile(s: string, sep: char -> bool)
    ensures Without(DropWhile(s, sep), sep) == Without(s, sep)
  {
    if s != [] && sep(s[0]) {
      WithoutDropWhile(s[1..], sep);
    }
  }

  /** Splitting at separator runs loses exactly the separators: the pieces, written
      one after another, are the input without its separator characters. */
  lemma {:induction false} ConcatSplitRuns(s: string, sep: char -> bool)
    ensures Concat(SplitRuns(s, sep)) == Without(s, sep)
    decreases |s|
  {
    if s != [] {
      if sep(s[0]) {
        var d := DropWhile(s[1..], sep);
        ConcatSplitRuns(d, sep);
        WithoutDropWhile(s[1..], sep);
        assert ([[]] + SplitRuns(d, sep))[1..] == SplitRuns(d, sep);
      } else {
        var rest := SplitRuns(s[1..], sep);
        ConcatSplitRuns(s[1..], sep);
        var r := [[s[0]] + rest[0]] + rest[1..];
        assert r[1..] == rest[1..];
        assert Concat(rest) == rest[0] + Concat(rest[1..]);
      }
    }
  }

  /** `s` has a character that is not whitespace. */
  predicate HasNonSpace(s: string) {
    exists i :: 0 <= i < |s| && !IsSpace(s[i])
  }

  /** `s` has a character that is neither whitespace nor a `sep` character. */
  predicate HasNonSpaceOutside(s: string, sep: char -> bool) {
    exists i :: 0 <= i < |s| && !IsSpace(s[i]) && !sep(s[i])
  }

  lemma HasNonSpaceAppend(a: string, b: string)
    ensures HasNonSpace(a + b) <==> HasNonSpace(a) || HasNonSpace(b)
  {
    if HasNonSpace(a + b) {
      var i :| 0 <= i < |a + b| && !IsSpace((a + b)[i]);
      if i >= |a| {
        assert b[i - |a|] == (a + b)[i];
      }
    }
    if HasNonSpace(a) {
      var i :| 0 <= i < |a| && !IsSpace(a[i]);
      assert (a + b)[i] == a[i];
    }
    if HasNonSpace(b) {
      var i :| 0 <= i < |b| && !IsSpace(b[i]);
      assert (a + b)[|a| + i] == b[i];
    }
  }

  /** The concatenation has a non-space character iff some piece has. */
  lemma {:induction false} HasNonSpaceConcat(pieces: seq<string>)
    ensures HasNonSpace(Concat(pieces)) <==> exists j :: 0 <= j < |pieces| && HasNonSpace(pieces[j])
  {
    if pieces != [] {
      HasNonSpaceConcat(pieces[1..]);
      HasNonSpaceAppend(pieces[0], Concat(pieces[1..]));
      assert forall j :: 1 <= j < |pieces| ==> pieces[j] == pieces[1..][j - 1];
    }
  }

  lemma {:induction false} HasNonSpaceWithout(s: string, sep: char -> bool)
    ensures HasNonSpace(Without(s, sep)) <==> HasNonSpaceOutside(s, sep)
  {
    if s != [] {
      HasNonSpaceWithout(s[1..], sep);
      assert forall i :: 1 <= i < |s| ==> s[i] == s[1..][i - 1];
      if HasNonSpaceOutside(s[1..], sep) {
        var i :| 0 <= i < |s[1..]| && !IsSpace(s[1..][i]) && !sep(s[1..][i]);
        assert s[i + 1] == s[1..][i];
      }
      if !sep(s[0]) {
        HasNonSpaceAppend([s[0]], Without(s[1..], sep));
        assert [s[0]][0] == s[0];
      }
    }
  }

  /** Some piece of the split has a non-space character iff the input has a character
      that is neither whitespace nor a separator. */
  lemma SplitRunsHasNonSpace(s: string, sep: char -> bool)
    ensures (exists j :: 0 <= j < |SplitRuns(s, sep)| && HasNonSpace(SplitRuns(s, sep)[j])) <==> HasNonSpaceOutside(s, sep)
  {
    ConcatSplitRuns(s, sep);
    HasNonSpaceConcat(SplitRuns(s, sep));
    HasNonSpaceWithout(s, sep);
  }

  /** Trimming leaves something iff there is a non-space character. */
  lemma TrimNonEmptyIff(s: string)
    ensures Trim(s) != [] <==> HasNonSpace(s)
  {
    TrimEmptyIff(s);
  }

  /** A string has no words iff it is all whitespace. */
  lemma WordsEmptyIff(s: string)
    ensures Words(s) == [] <==> !HasNonSpace(s)
  {
    var pieces := SplitRuns(s, IsSpace);
    SplitRunsHasNonSpace(s, IsSpace);
    NoneFilledIff(pieces);
    assert HasNonSpace(s) <==> HasNonSpaceOutside(s, IsSpace);
  }

  /** Whitespace-free pieces are all empty exactly when none has a non-space character. */
  lemma NoneFilledIff(pieces: seq<string>)
    requires forall i, j :: 0 <= i < |pieces| && 0 <= j < |pieces[i]| ==> !IsSpace(pieces[i][j])
    ensures (forall k :: 0 <= k < |pieces| ==> !Filled(pieces[k])) <==>
      !(exists j :: 0 <= j < |pieces| && HasNonSpace(pieces[j]))
  {
    forall j | 0 <= j < |pieces|
      ensures Filled(pieces[j]) <==> HasNonSpace(pieces[j])
    {
      if pieces[j] != [] {
        assert !IsSpace(pieces[j][0]);
      }
    }
  }

  /** Trimming twice is trimming once. */
  lemma TrimIdempotent(s: string)
    ensures Trim(Trim(s)) == Trim(s)
  {
    var t := Trim(s);
    TrimIsSlice(s);
    assert TrimStart(t) == t;
    assert TrimEnd(t) == t;
  }

  /** Every character of the trimmed string occurs in the original. */
  lemma TrimWithin(s: string)
    ensures forall c :: c in Trim(s) ==> c in s
  {
    TrimIsSlice(s);
    SliceWithin(s, LeadingSpaces(s), LeadingSpaces(s) + |Trim(s)|, Trim(s));
  }

  lemma SliceWithin(s: string, a: nat, b: nat, t: string)
    requires a <= b <= |s| && t == s[a..b]
    ensures forall c :: c in t ==> c in s
  {
    forall c | c in t
      ensures c in s
    {
      var i :| 0 <= i < |t| && t[i] == c;
      assert s[a + i] == c;
    }
  }
}

=== FILE: submission_routes.dfy ===
/** The submission routes as pure functions from the stored record and the request to
    the new record or the refusal: create (with and without files), read, list, update,
    submit for review and delete, and the corpus the plagiarism check compares with. */
module SubmissionRoutes {
  import opened Wrappers
  import opened Strings
  import opened Collections
  import opened Requests
  import opened Nlp
  import opened Analysis
  import S = SubmissionSchema
  import Plagiarism

  /** The `tags` field of a create request: absent, a string, an array of strings, or a
      value of some other type. */
  datatype TagInput = NoTags | TagString(text: string) | TagArray(items: seq<string>) | OtherTags

  /** Comma-separated pieces, each trimmed; no piece is dropped. */
  function TrimmedPieces(s: string): (r: seq<string>)
    ensures |r| == Occurrences(s, ',') + 1
    ensures forall i :: 0 <= i < |r| ==> r[i] == Trim(SplitOn(s, ',')[i])
    ensures forall x :: x in r ==> Trim(x) == x && ',' !in x
  {
    var ps := SplitOn(s, ',');
    var r := S.TrimAll(ps);
    forall i | 0 <= i < |r|
      ensures Trim(r[i]) == r[i] && ',' !in r[i]
    {
      TrimIdempotent(ps[i]);
      TrimWithin(ps[i]);
    }
    r
  }

  /** The tags of a tag string: its trimmed, non-empty comma-separated pieces, every
      one of them and in order; none for the empty string. */
  function StringTags(s: string): (r: seq<string>)
    ensures s == [] ==> r == []
    ensures s != [] ==> |r| == Count(Filled, TrimmedPieces(s))
    ensures s != [] ==> forall k :: 0 <= k < |TrimmedPieces(s)| ==> KeptAt(Filled, TrimmedPieces(s), r, k)
    ensures forall x :: x in r <==> s != [] && x != [] && x in TrimmedPieces(s)
    ensures forall x :: x in r ==> Trim(x) == x && ',' !in x
  {
    if s == [] then [] else Filter(Filled, TrimmedPieces(s))
  }

  /** The create route's tags: a non-empty string becomes its trimmed, non-empty
      comma-separated pieces in order; an array keeps its non-blank entries, untrimmed;
      anything else, the empty string included, gives no tags. */
  function ProcessTags(t: TagInput): (r: seq<string>)
    ensures t.TagString? && t.text != [] ==> |r| == Count(Filled, TrimmedPieces(t.text))
    ensures t.TagString? && t.text != [] ==>
      forall k :: 0 <= k < |TrimmedPieces(t.text)| ==> KeptAt(Filled, TrimmedPieces(t.text), r, k)
    ensures t.TagString? ==> forall x :: x in r <==> t.text != [] && x != [] && x in TrimmedPieces(t.text)
    ensures t.TagString? ==> forall x :: x in r ==> Trim(x) == x && ',' !in x
    ensures t.TagArray? ==> |r| == Count(HasNonSpace, t.items)
    ensures t.TagArray? ==> forall k :: 0 <= k < |t.items| ==> KeptAt(HasNonSpace, t.items, r, k)
    ensures t.TagArray? ==> forall x :: x in r <==> x in t.items && HasNonSpace(x)
    ensures t.NoTags? || t.OtherTags? || t == TagString([]) ==> r == []
  {
    match t
    case TagString(s) => StringTags(s)
    case TagArray(items) => Filter(HasNonSpace, items)
    case _ => []
  }

  /** Once stored (the schema trims every tag), the create route's tags are non-empty
      and trimmed, whichever form they came in. */
  lemma ProcessedTagsStoreFilled(t: TagInput)
    ensures forall x :: x in S.TrimAll(ProcessTags(t)) ==> x != [] && Trim(x) == x
  {
    var ts := ProcessTags(t);
    var r := S.TrimAll(ts);
    forall x | x in r
      ensures x != [] && Trim(x) == x
    {
      var i :| 0 <= i < |r| && r[i] == x;
      assert ts[i] in ts;
      TrimIdempotent(ts[i]);
      TrimNonEmptyIff(ts[i]);
    }
  }

  /** The file-upload route's tags: a non-empty string is split on commas and each piece
      trimmed, blank pieces kept as empty tags. */
  function FileTags(t: Option<string>): (r: seq<string>)
    ensures t.None? || t.value == [] ==> r == []
    ensures t.Some? && t.value != [] ==> |r| == Occurrences(t.value, ',') + 1
    ensures t.Some? && t.value != [] ==>
      forall i :: 0 <= i < |r| ==> (r[i] == [] <==> !HasNonSpace(SplitOn(t.value, ',')[i]))
    ensures forall x :: x in r ==> Trim(x) == x && ',' !in x
  {
    if t.None? || t.value == [] then []
    else
      var r := TrimmedPieces(t.value);
      forall i | 0 <= i < |r|
        ensures r[i] == [] <==> !HasNonSpace(SplitOn(t.value, ',')[i])
      {
        TrimNonEmptyIff(SplitOn(t.value, ',')[i]);
      }
      r
  }

  /** A blank piece of a non-empty tag string is dropped by the create route but kept,
      as an empty tag, by the file-upload route, which therefore stores more tags. */
  lemma BlankPieceKeptWithFiles(s: string, i: nat)
    requires s != [] && i < |SplitOn(s, ',')| && !HasNonSpace(SplitOn(s, ',')[i])
    ensures [] in FileTags(Some(s)) && [] !in ProcessTags(TagString(s))
    ensures |ProcessTags(TagString(s))| < |FileTags(Some(s))|
  {
    var tp := TrimmedPieces(s);
    assert tp[i] == [];
    CountMissing(Filled, tp, i);
  }

  /** The metrics a new or edited submission gets: words, characters and lines of the
      content, and a complexity score of 0. */
  function BasicMetrics(content: string): (m: S.Metrics)
    ensures m.wordCount == |Words(content)|
    ensures m.wordCount == 0 <==> !HasNonSpace(content)
    ensures m.characterCount == |content|
    ensures m.lineCount == Occurrences(content, '\n') + 1
    ensures m.complexityScore == 0
  {
    WordsEmptyIff(content);
    S.Metrics(|Words(content)|, |content|, |SplitOn(content, '\n')|, 0)
  }

  /** The body of a create request; an absent field is `None`. */
  datatype CreateRequest = CreateRequest(
    title: Option<string>, description: Option<string>, content: Option<string>,
    kind: Option<string>, tags: TagInput)

  /** A field that is absent or empty is missing (JavaScript falsiness). */
  predicate Missing(f: Option<string>) { f.None? || f.value == [] }

  /** When the create route stores a request: title and content present, a known type
      (text when absent), a title with a non-space character and at most 200 characters
      once trimmed, and a description of at most 2000. */
  predicate CreateAccepted(q: CreateRequest) {
    && !Missing(q.title) && !Missing(q.content)
    && ParseKind(q.kind.GetOr("text")).Some?
    && HasNonSpace(q.title.value)
    && |Trim(q.title.value)| <= S.MaxTitle
    && |q.description.GetOr("")| <= S.MaxDescription
  }

  /** Saving the record a create route builds, answering `refusal` when the schema
      rejects it: with content present and no feedback yet, the schema accepts it
      exactly when the trimmed title is non-empty and within its limit and the
      description is within its limit. */
  function SaveNew(draft: S.Submission, refusal: Refusal): (r: Result<S.Submission, Refusal>)
    requires draft.content != [] && draft.feedback == []
    ensures r.Success? <==>
      HasNonSpace(draft.title) && |Trim(draft.title)| <= S.MaxTitle && |draft.description| <= S.MaxDescription
    ensures r.Success? ==> S.Stored(r.value) && r.value == S.ApplySetters(draft)
    ensures r.Failure? ==> r.error == refusal
  {
    TrimNonEmptyIff(draft.title);
    match S.Save(draft)
    case Success(v) => S.SavedIsStored(draft); Success(v)
    case Failure(_) => Failure(refusal)
  }

  /** `POST /`: a new draft, or the reason it was refused. */
  function Create(id: nat, user: User, q: CreateRequest): (r: Result<S.Submission, Refusal>)
    ensures r == Failure(BadRequest(MissingFields)) <==> Missing(q.title) || Missing(q.content)
    ensures r == Failure(BadRequest(InvalidType)) <==>
      !Missing(q.title) && !Missing(q.content) && ParseKind(q.kind.GetOr("text")).None?
    ensures r.Failure? ==> r.error.BadRequest?
    ensures r.Success? <==> CreateAccepted(q)
    ensures r.Success? ==> S.Stored(r.value) && r.value.id == id && r.value.author == user.id
    ensures r.Success? ==> r.value.status == S.Draft && r.value.analysis.None? && r.value.feedback == []
    ensures r.Success? ==> r.value.title == Trim(q.title.value) && r.value.content == q.content.value
    ensures r.Success? ==> r.value.description == q.description.GetOr("")
    ensures r.Success? ==> Some(r.value.kind) == ParseKind(q.kind.GetOr("text"))
    ensures r.Success? ==> r.value.metrics == BasicMetrics(q.content.value)
    ensures r.Success? ==> r.value.tags == S.TrimAll(ProcessTags(q.tags))
    ensures r.Success? ==> forall x :: x in r.value.tags ==> x != [] && Trim(x) == x
  {
    if Missing(q.title) || Missing(q.content) then Failure(BadRequest(MissingFields))
    else match ParseKind(q.kind.GetOr("text"))
      case None => Failure(BadRequest(InvalidType))
      case Some(k) =>
        ProcessedTagsStoreFilled(q.tags);
        SaveNew(S.Submission(
          id, q.title.value, q.description.GetOr(""), q.content.value, k, user.id,
          ProcessTags(q.tags), S.Draft, BasicMetrics(q.content.value), None, []),
          BadRequest(ValidationFailed))
  }

  /** The body of a create request with file uploads. */
  datatype FilesRequest = FilesRequest(
    title: Option<string>, description: Option<string>, content: Option<string>,
    kind: Option<string>, tags: Option<string>)

  /** `POST /with-files`: the same record without the type check and with the
      file-upload tag rule; a type outside the enum or any other schema error is
      answered as a server error. */
  function CreateWithFiles(id: nat, user: User, q: FilesRequest): (r: Result<S.Submission, Refusal>)
    ensures r == Failure(BadRequest(MissingFields)) <==> Missing(q.title) || Missing(q.content)
    ensures !Missing(q.title) && !Missing(q.content) && r.Failure? ==> r.error == ServerError
    ensures r.Success? <==>
      && !Missing(q.title) && !Missing(q.content)
      && ParseKind(if Missing(q.kind) then "text" else q.kind.value).Some?
      && HasNonSpace(q.title.value) && |Trim(q.title.value)| <= S.MaxTitle
      && |q.description.GetOr("")| <= S.MaxDescription
    ensures r.Success? ==> S.Stored(r.value) && r.value.id == id && r.value.status == S.Draft && r.value.author == user.id
    ensures r.Success? ==> r.value.title == Trim(q.title.value) && r.value.content == q.content.value
    ensures r.Success? ==> r.value.description == q.description.GetOr("")
    ensures r.Success? ==> Some(r.value.kind) == ParseKind(if Missing(q.kind) then "text" else q.kind.value)
    ensures r.Success? ==> r.value.analysis.None? && r.value.feedback == []
    ensures r.Success? ==> r.value.tags == FileTags(q.tags)
    ensures r.Success? ==> r.value.metrics == BasicMetrics(q.content.value)
  {
    if Missing(q.title) || Missing(q.content) then Failure(BadRequest(MissingFields))
    else match ParseKind(if Missing(q.kind) then "text" else q.kind.value)
      case None => Failure(ServerError)
      case Some(k) =>
        var tags := FileTags(q.tags);
        assert S.TrimAll(tags) == tags;
        SaveNew(S.Submission(
          id, q.title.value, q.description.GetOr(""), q.content.value, k, user.id,
          tags, S.Draft, BasicMetrics(q.content.value), None, []),
          ServerError)
  }

  /** Who may read a submission: its author, an instructor or an admin. */
  predicate CanRead(u: User, s: S.Submission) {
    u.id == s.author || u.role == Instructor || u.role == Admin
  }

  /** Who may delete a submission: its author or an admin. */
  predicate CanDelete(u: User, s: S.Submission) {
    u.id == s.author || u.role == Admin
  }

  /** `GET /:id`. */
  function Get(u: User, found: Option<S.Submission>): (r: Result<S.Submission, Refusal>)
    ensures r == Failure(NotFound) <==> found.None?
    ensures r.Success? <==> found.Some? && CanRead(u, found.value)
    ensures r.Success? ==> r.value == found.value
    ensures r.Failure? ==> r.error == NotFound || r.error == Forbidden
  {
    match found
    case None => Failure(NotFound)
    case Some(s) => if CanRead(u, s) then Success(s) else Failure(Forbidden)
  }

  /** Whether the listing shows a submission to a user: students see their own only. */
  predicate Listed(u: User, s: S.Submission) {
    u.role != Student || s.author == u.id
  }

  /** `GET /` without the optional filters: every submission for staff, one's own for a
      student, in stored order. */
  function List(u: User, all: seq<S.Submission>): (r: seq<S.Submission>)
    ensures forall s :: s in r <==> s in all && (u.role == Student ==> s.author == u.id)
    ensures u.role != Student ==> r == all
    ensures |r| <= |all|
  {
    if u.role != Student then all
    else Filter((s: S.Submission) => Listed(u, s), all)
  }

  /** `DELETE /:id`: the refusal, or `None` when the record is removed. */
  function Delete(u: User, found: Option<S.Submission>): (r: Option<Refusal>)
    ensures r == Some(NotFound) <==> found.None?
    ensures r.None? <==> found.Some? && CanDelete(u, found.value)
    ensures r.Some? ==> r.value == NotFound || r.value == Forbidden
  {
    match found
    case None => Some(NotFound)
    case Some(s) => if CanDelete(u, s) then None else Some(Forbidden)
  }

  /** Every user who may delete a submission may also read it. */
  lemma DeleterCanRead(u: User, s: S.Submission)
    requires Delete(u, Some(s)).None?
    ensures Get(u, Some(s)) == Success(s)
  {
  }

  /** The fields of an update body this model carries; an absent key is `None`. A body
      may send `analysis: null`, which is `Some(None)`. */
  datatype Patch = Patch(
    title: Option<string>, description: Option<string>, content: Option<string>,
    kind: Option<string>, tags: Option<seq<string>>, status: Option<S.Status>, author: Option<nat>,
    analysis: Option<Option<S.StoredAnalysis>>, metrics: Option<S.Metrics>,
    feedback: Option<seq<S.FeedbackEntry>>)

  /** The empty body. */
  const Unchanged: Patch := Patch(None, None, None, None, None, None, None, None, None, None)

  /** Every present key of the body overwrites the record's field. */
  function Overwrite(s: S.Submission, p: Patch, k: Kind): (r: S.Submission)
    ensures r.id == s.id && r.kind == k
    ensures r.title == p.title.GetOr(s.title) && r.description == p.description.GetOr(s.description)
    ensures r.content == p.content.GetOr(s.content) && r.tags == p.tags.GetOr(s.tags)
    ensures r.status == p.status.GetOr(s.status) && r.author == p.author.GetOr(s.author)
    ensures r.analysis == p.analysis.GetOr(s.analysis) && r.metrics == p.metrics.GetOr(s.metrics)
    ensures r.feedback == p.feedback.GetOr(s.feedback)
  {
    s.(title := p.title.GetOr(s.title), description := p.description.GetOr(s.description),
       content := p.content.GetOr(s.content), kind := k, tags := p.tags.GetOr(s.tags),
       status := p.status.GetOr(s.status), author := p.author.GetOr(s.author),
       analysis := p.analysis.GetOr(s.analysis), metrics := p.metrics.GetOr(s.metrics),
       feedback := p.feedback.GetOr(s.feedback))
  }

  /** What the schema checks of the fields an update can change, once the title is
      trimmed: a non-blank title within its limit, a description within its limit,
      some content, every rating in range. */
  predicate Acceptable(title: string, description: string, content: string, feedback: seq<S.FeedbackEntry>) {
    Trim(title) != [] && |Trim(title)| <= S.MaxTitle && |description| <= S.MaxDescription &&
    content != [] && forall i :: 0 <= i < |feedback| ==> S.RatingInRange(feedback[i])
  }

  /** The body's type, when it has one, is in the enum. */
  predicate KnownKind(p: Patch) { p.kind.None? || ParseKind(p.kind.value).Some? }

  /** `PUT /:id` as written: only the author, never once reviewed; every present key is
      copied, `status`, `author`, `analysis`, `metrics` and `feedback` included; a
      non-empty new content then recomputes the counts, keeping the complexity score the
      record holds after the copy; a record the schema rejects, or a type outside the
      enum, is answered as a server error. */
  function UpdateAsWritten(u: User, s: S.Submission, p: Patch): (r: Result<S.Submission, Refusal>)
    ensures r == Failure(Forbidden) <==> u.id != s.author
    ensures r == Failure(BadRequest(AlreadyReviewed)) <==> u.id == s.author && s.status == S.Reviewed
    ensures r.Failure? ==> r.error in {Forbidden, BadRequest(AlreadyReviewed), ServerError}
    ensures r.Success? <==> (u.id == s.author && s.status != S.Reviewed && KnownKind(p) &&
      Acceptable(p.title.GetOr(s.title), p.description.GetOr(s.description), p.content.GetOr(s.content),
                 p.feedback.GetOr(s.feedback)))
    ensures r.Success? ==> S.Stored(r.value) && r.value.id == s.id
    ensures r.Success? ==> r.value.status == p.status.GetOr(s.status) && r.value.author == p.author.GetOr(s.author)
    ensures r.Success? ==> r.value.content == p.content.GetOr(s.content) && r.value.title == Trim(p.title.GetOr(s.title))
    ensures r.Success? ==> r.value.description == p.description.GetOr(s.description)
    ensures r.Success? ==> r.value.tags == S.TrimAll(p.tags.GetOr(s.tags))
    ensures r.Success? ==> Some(r.value.kind) == if p.kind.Some? then ParseKind(p.kind.value) else Some(s.kind)
    ensures r.Success? ==> r.value.analysis == p.analysis.GetOr(s.analysis) && r.value.feedback == p.feedback.GetOr(s.feedback)
    ensures r.Success? && p.content.Some? ==>
      r.value.metrics == BasicMetrics(p.content.value).(complexityScore := p.metrics.GetOr(s.metrics).complexityScore)
    ensures r.Success? && p.content.None? ==> r.value.metrics == p.metrics.GetOr(s.metrics)
  {
    if u.id != s.author then Failure(Forbidden)
    else if s.status == S.Reviewed then Failure(BadRequest(AlreadyReviewed))
    else match if p.kind.Some? then ParseKind(p.kind.value) else Some(s.kind)
      case None => Failure(ServerError)
      case Some(k) =>
        var t := Overwrite(s, p, k);
        var t' := if p.content.Some? && p.content.value != [] then
          t.(metrics := BasicMetrics(p.content.value).(complexityScore := t.metrics.complexityScore))
        else t;
        AcceptableIsValid(t');
        S.SaveOr(t', ServerError)
  }

  /** The schema accepts a record exactly when its changeable fields are acceptable. */
  lemma AcceptableIsValid(t: S.Submission)
    ensures S.Valid(S.ApplySetters(t)) <==> Acceptable(t.title, t.description, t.content, t.feedback)
  {
  }

  /** `PUT /:id` with the lifecycle fields protected: the same route, ignoring `status`,
      `author`, `analysis`, `metrics` and `feedback` in the body, so only the author's
      own fields and the counts derived from the content can change. */
  function Update(u: User, s: S.Submission, p: Patch): (r: Result<S.Submission, Refusal>)
    ensures r == Failure(Forbidden) <==> u.id != s.author
    ensures r == Failure(BadRequest(AlreadyReviewed)) <==> u.id == s.author && s.status == S.Reviewed
    ensures r.Success? <==> (u.id == s.author && s.status != S.Reviewed && KnownKind(p) &&
      Acceptable(p.title.GetOr(s.title), p.description.GetOr(s.description), p.content.GetOr(s.content), s.feedback))
    ensures r.Success? ==> S.Stored(r.value) && r.value.id == s.id
    ensures r.Success? ==> r.value.content == p.content.GetOr(s.content) && r.value.title == Trim(p.title.GetOr(s.title))
    ensures r.Success? ==> r.value.description == p.description.GetOr(s.description)
    ensures r.Success? ==> r.value.tags == S.TrimAll(p.tags.GetOr(s.tags))
    ensures r.Success? ==> Some(r.value.kind) == if p.kind.Some? then ParseKind(p.kind.value) else Some(s.kind)
    ensures r.Success? ==> r.value.status == s.status && r.value.author == s.author
    ensures r.Success? ==> r.value.analysis == s.analysis && r.value.feedback == s.feedback
    ensures r.Success? ==> r.value.metrics.complexityScore == s.metrics.complexityScore
    ensures r.Success? && p.content.None? ==> r.value.metrics == s.metrics
    ensures p.status.None? && p.author.None? && p.analysis.None? && p.metrics.None? && p.feedback.None? ==>
      r == UpdateAsWritten(u, s, p)
  {
    UpdateAsWritten(u, s, p.(status := None, author := None, analysis := None, metrics := None, feedback := None))
  }

  /** As written, the author of a draft can mark it reviewed through an update, with
      no review at all. */
  lemma UpdateAsWrittenSkipsReview(s: S.Submission)
    requires S.Stored(s) && s.status == S.Draft
    ensures UpdateAsWritten(User(s.author, Student), s, Unchanged.(status := Some(S.Reviewed)))
      == Success(s.(status := S.Reviewed))
  {
    S.StoredIgnoresLifecycle(s, S.Reviewed, s.author, s.analysis, s.metrics);
  }

  /** As written, an update can hand a submission to another author. */
  lemma UpdateAsWrittenHandsOver(s: S.Submission, other: nat)
    requires S.Stored(s) && s.status != S.Reviewed
    ensures UpdateAsWritten(User(s.author, Student), s, Unchanged.(author := Some(other)))
      == Success(s.(author := other))
  {
    S.StoredIgnoresLifecycle(s, s.status, other, s.analysis, s.metrics);
  }

  /** As written, the author of a submission not yet reviewed can replace its stored
      analysis (or erase the plagiarism report with `null`), its metrics and the
      reviewers' feedback with whatever the body says, as long as the ratings are in
      the schema's range. */
  lemma UpdateAsWrittenRewritesRecord(s: S.Submission, a: Option<S.StoredAnalysis>, m: S.Metrics, fs: seq<S.FeedbackEntry>)
    requires S.Stored(s) && s.status != S.Reviewed
    requires forall i :: 0 <= i < |fs| ==> S.RatingInRange(fs[i])
    ensures UpdateAsWritten(User(s.author, Student), s,
      Unchanged.(analysis := Some(a), metrics := Some(m), feedback := Some(fs)))
      == Success(s.(analysis := a, metrics := m, feedback := fs))
  {
    var p := Unchanged.(analysis := Some(a), metrics := Some(m), feedback := Some(fs));
    var t := s.(analysis := a, metrics := m, feedback := fs);
    assert Overwrite(s, p, s.kind) == t;
    assert S.ApplySetters(t) == t;
    assert S.Valid(t);
  }

  /** The plagiarism check compares a submission with every other one that has content
      and is of the same type or mixed. */
  predicate InCorpus(me: S.Submission, other: S.Submission) {
    other.id != me.id && other.content != [] && (other.kind == me.kind || other.kind == Mixed)
  }

  /** The fields the check reads from a stored submission. */
  function AsDoc(s: S.Submission): (d: Plagiarism.Doc)
    ensures d.id == s.id && d.title == s.title && d.author == s.author && Plagiarism.Content(d) == s.content
  {
    Plagiarism.Doc(s.id, s.title, s.author, Some(s.content))
  }

  /** The corpus for `me`: the stored submissions it is compared with, in stored order. */
  function Corpus(me: S.Submission, all: seq<S.Submission>): (r: seq<Plagiarism.Doc>)
    ensures |r| == Count((o: S.Submission) => InCorpus(me, o), all)
    ensures forall o :: o in all && InCorpus(me, o) ==> AsDoc(o) in r
    ensures forall d :: d in r ==> d.id != me.id && Plagiarism.HasContent(d)
  {
    var keep := Filter((o: S.Submission) => InCorpus(me, o), all);
    var r := seq(|keep|, i requires 0 <= i < |keep| => AsDoc(keep[i]));
    forall o | o in all && InCorpus(me, o)
      ensures AsDoc(o) in r
    {
      var i :| 0 <= i < |keep| && keep[i] == o;
      assert r[i] == AsDoc(o);
    }
    forall d | d in r
      ensures d.id != me.id && Plagiarism.HasContent(d)
    {
      var i :| 0 <= i < |r| && r[i] == d;
      assert keep[i] in keep;
    }
    r
  }

  /** `POST /:id/submit` once the content analysis `a` and the plagiarism report are
      computed: only the author, only from draft; stores both, the status submitted and
      the kept complexity score, and changes nothing else. */
  function SubmitWith(u: User, s: S.Submission, a: ContentAnalysis, report: Plagiarism.Report): (r: Result<S.Submission, Refusal>)
    ensures r == Failure(Forbidden) <==> u.id != s.author
    ensures r == Failure(BadRequest(NotDraft)) <==> u.id == s.author && s.status != S.Draft
    ensures S.Stored(s) && u.id == s.author && s.status == S.Draft ==> r.Success?
    ensures r.Success? ==> u.id == s.author && s.status == S.Draft
    ensures r.Success? ==> S.Stored(r.value) && r.value.status == S.Submitted
    ensures r.Success? ==> r.value.id == s.id && r.value.author == s.author
    ensures r.Success? ==> r.value.analysis == Some(S.StoredAnalysis(a, report))
    ensures r.Success? ==> r.value.metrics.complexityScore == ComplexityScore(a)
    ensures r.Success? && S.Stored(s) ==>
      r.value.(status := s.status, analysis := s.analysis, metrics := s.metrics) == s
    ensures r.Success? ==> r.value.metrics.(complexityScore := s.metrics.complexityScore) == s.metrics
  {
    if u.id != s.author then Failure(Forbidden)
    else if s.status != S.Draft then Failure(BadRequest(NotDraft))
    else
      var t := s.(status := S.Submitted, analysis := Some(S.StoredAnalysis(a, report)),
                  metrics := s.metrics.(complexityScore := ComplexityScore(a)));
      assert S.Stored(s) ==> S.Stored(t) by {
        if S.Stored(s) { S.StoredIgnoresLifecycle(s, t.status, t.author, t.analysis, t.metrics); }
      }
      S.SaveOr(t, ServerError)
  }

  /** `POST /:id/submit`: the analysis for the submission's type and the plagiarism
      report over the corpus, stored as above. */
  function Submit(tk: Toolkit, u: User, s: S.Submission, all: seq<S.Submission>): (r: Result<S.Submission, Refusal>)
    ensures r == Failure(Forbidden) <==> u.id != s.author
    ensures r == Failure(BadRequest(NotDraft)) <==> u.id == s.author && s.status != S.Draft
    ensures S.Stored(s) && u.id == s.author && s.status == S.Draft ==> r.Success?
    ensures r.Success? ==> u.id == s.author && s.status == S.Draft
    ensures r.Success? ==> S.Stored(r.value) && r.value.status == S.Submitted && r.value.analysis.Some?
    ensures r.Success? ==> r.value.id == s.id && r.value.author == s.author
    ensures r.Success? ==> r.value.analysis.value.content == AnalyzeContent(tk, s.content, s.kind)
    ensures r.Success? ==> r.value.analysis.value.plagiarism == Plagiarism.DetectPlagiarism(tk, s.content, Corpus(s, all))
    ensures r.Success? ==> r.value.metrics.complexityScore == ComplexityScore(AnalyzeContent(tk, s.content, s.kind))
    ensures r.Success? ==> (r.value.analysis.value.content.text.Some? <==> s.kind == Text || s.kind == Mixed)
    ensures r.Success? ==> (r.value.analysis.value.content.code.Some? <==> s.kind == Code || s.kind == Mixed)
    ensures r.Success? && s.kind == Text ==> 0 <= r.value.metrics.complexityScore <= 100
  {
    TextKindScore(tk, s.content, s.kind);
    SubmitWith(u, s, AnalyzeContent(tk, s.content, s.kind), Plagiarism.DetectPlagiarism(tk, s.content, Corpus(s, all)))
  }
}

=== FILE: submission_schema.dfy ===
/** The Submission record and what its schema enforces on save: required and trimmed
    title of at most 200 characters, description of at most 2000, required content,
    the type and status enums, and feedback ratings in [1, 5]. */
module SubmissionSchema {
  import opened Wrappers
  import opened Strings
  import opened Collections
  import opened Analysis
  import Plagiarism

  const MaxTitle: nat := 200
  const MaxDescription: nat := 2000

  /** The status enum; a new record defaults to Draft. */
  datatype Status = Draft | Submitted | UnderReview | Reviewed | Rejected

  /** Progress along draft, submitted, under_review, reviewed; rejected is final like
      reviewed. */
  function StatusRank(s: Status): (r: nat)
    ensures r <= 3
    ensures r == 0 <==> s == Draft
    ensures r == 3 <==> s == Reviewed || s == Rejected
  {
    match s
    case Draft => 0
    case Submitted => 1
    case UnderReview => 2
    case Reviewed => 3
    case Rejected => 3
  }

  datatype Metrics = Metrics(wordCount: nat, characterCount: nat, lineCount: nat, complexityScore: int)

  /** An entry of the embedded feedback list; its rating is optional. */
  datatype FeedbackEntry = FeedbackEntry(reviewer: nat, content: string, rating: Option<int>)

  /** What the submit route stores as `analysis`. */
  datatype StoredAnalysis = StoredAnalysis(content: ContentAnalysis, plagiarism: Plagiarism.Report)

  datatype Submission = Submission(
    id: nat, title: string, description: string, content: string, kind: Kind, author: nat,
    tags: seq<string>, status: Status, metrics: Metrics, analysis: Option<StoredAnalysis>,
    feedback: seq<FeedbackEntry>)

  predicate RatingInRange(e: FeedbackEntry) {
    e.rating.None? || 1 <= e.rating.value <= 5
  }

  predicate BadRating(e: FeedbackEntry) { !RatingInRange(e) }

  /** Everything the schema checks. */
  predicate Valid(s: Submission) {
    && s.title != []
    && |s.title| <= MaxTitle
    && |s.description| <= MaxDescription
    && s.content != []
    && forall i :: 0 <= i < |s.feedback| ==> RatingInRange(s.feedback[i])
  }

  /** One schema error. */
  datatype Violation =
    | TitleRequired
    | TitleTooLong
    | DescriptionTooLong
    | ContentRequired
    | RatingOutOfRange(entry: nat)

  function RatingViolations(fs: seq<FeedbackEntry>): (r: seq<Violation>)
    ensures forall i: nat :: RatingOutOfRange(i) in r <==> i < |fs| && !RatingInRange(fs[i])
    ensures forall v :: v in r ==> v.RatingOutOfRange?
    ensures r == [] <==> forall i :: 0 <= i < |fs| ==> RatingInRange(fs[i])
  {
    var ps := Positions(fs, BadRating);
    var r := seq(|ps|, j requires 0 <= j < |ps| => RatingOutOfRange(ps[j]));
    forall i: nat
      ensures RatingOutOfRange(i) in r <==> i in ps
    {
      if i in ps {
        var j :| 0 <= j < |ps| && ps[j] == i;
        assert r[j] == RatingOutOfRange(i);
      }
    }
    PositionsEmpty(fs, BadRating);
    r
  }

  /** The errors of the plain fields, in the order the schema lists them. */
  function FieldViolations(s: Submission): (r: seq<Violation>)
    ensures TitleRequired in r <==> s.title == []
    ensures TitleTooLong in r <==> |s.title| > MaxTitle
    ensures DescriptionTooLong in r <==> |s.description| > MaxDescription
    ensures ContentRequired in r <==> s.content == []
    ensures forall v :: v in r ==> !v.RatingOutOfRange?
    ensures r == [] <==> s.title != [] && |s.title| <= MaxTitle && |s.description| <= MaxDescription && s.content != []
  {
    (if s.title == [] then [TitleRequired] else [])
      + (if |s.title| > MaxTitle then [TitleTooLong] else [])
      + (if |s.description| > MaxDescription then [DescriptionTooLong] else [])
      + (if s.content == [] then [ContentRequired] else [])
  }

  /** The errors a save reports, field by field: none exactly for a valid record. */
  function Violations(s: Submission): (r: seq<Violation>)
    ensures r == [] <==> Valid(s)
  {
    var fields := FieldViolations(s);
    var ratings := RatingViolations(s.feedback);
    assert |fields + ratings| == |fields| + |ratings|;
    fields + ratings
  }

  /** Each error names a field that breaks its rule, and each broken rule is reported. */
  lemma ViolationsReportEach(s: Submission)
    ensures TitleRequired in Violations(s) <==> s.title == []
    ensures TitleTooLong in Violations(s) <==> |s.title| > MaxTitle
    ensures DescriptionTooLong in Violations(s) <==> |s.description| > MaxDescription
    ensures ContentRequired in Violations(s) <==> s.content == []
    ensures forall i: nat :: RatingOutOfRange(i) in Violations(s) <==> i < |s.feedback| && !RatingInRange(s.feedback[i])
  {
    var fields := FieldViolations(s);
    var ratings := RatingViolations(s.feedback);
    assert Violations(s) == fields + ratings;
    assert TitleRequired !in ratings && TitleTooLong !in ratings;
    assert DescriptionTooLong !in ratings && ContentRequired !in ratings;
    assert forall i: nat :: RatingOutOfRange(i) !in fields;
  }

  /** The trimmed strings, in order. */
  function TrimAll(ss: seq<string>): (r: seq<string>)
    ensures |r| == |ss|
    ensures forall i :: 0 <= i < |r| ==> r[i] == Trim(ss[i])
  {
    seq(|ss|, i requires 0 <= i < |ss| => Trim(ss[i]))
  }

  /** The schema's `trim` setters: the title and each tag are stored trimmed. */
  function ApplySetters(s: Submission): (r: Submission)
    ensures r.title == Trim(s.title)
    ensures r.tags == TrimAll(s.tags)
    ensures r.(title := s.title, tags := s.tags) == s
  {
    s.(title := Trim(s.title), tags := TrimAll(s.tags))
  }

  /** Setting an already set record changes nothing. */
  lemma SettersIdempotent(s: Submission)
    ensures ApplySetters(ApplySetters(s)) == ApplySetters(s)
  {
    TrimIdempotent(s.title);
    forall i | 0 <= i < |s.tags|
      ensures Trim(Trim(s.tags[i])) == Trim(s.tags[i])
    {
      TrimIdempotent(s.tags[i]);
    }
    assert TrimAll(TrimAll(s.tags)) == TrimAll(s.tags);
  }

  /** `save()`: the setters, then validation; a rejected record is not stored. */
  function Save(s: Submission): (r: Result<Submission, seq<Violation>>)
    ensures r.Success? <==> Valid(ApplySetters(s))
    ensures r.Success? ==> r.value == ApplySetters(s)
    ensures r.Failure? ==> r.error != [] && r.error == Violations(ApplySetters(s))
  {
    var t := ApplySetters(s);
    var v := Violations(t);
    if v == [] then Success(t) else Failure(v)
  }

  /** A record as the store holds it: valid, with its setters already applied. */
  predicate Stored(s: Submission) {
    Valid(s) && ApplySetters(s) == s
  }

  /** Saving a stored record again succeeds and changes nothing. */
  lemma SaveStored(s: Submission)
    requires Stored(s)
    ensures Save(s) == Success(s)
  {
  }

  /** Whatever a successful save returns is stored as is. */
  lemma SavedIsStored(s: Submission)
    requires Save(s).Success?
    ensures Stored(Save(s).value)
  {
    SettersIdempotent(s);
  }

  /** Saving, answering `refusal` when the schema rejects the record. */
  function SaveOr<E>(s: Submission, refusal: E): (r: Result<Submission, E>)
    ensures r.Success? <==> Valid(ApplySetters(s))
    ensures r.Success? ==> Stored(r.value) && r.value == ApplySetters(s)
    ensures r.Success? ==> r.value.id == s.id && r.value.author == s.author && r.value.status == s.status
    ensures Stored(s) ==> r == Success(s)
    ensures r.Failure? ==> r.error == refusal
  {
    match Save(s)
    case Success(v) => SavedIsStored(s); Success(v)
    case Failure(_) => Failure(refusal)
  }

  /** The status, author, analysis and metrics are outside what the schema checks or
      sets, so changing them keeps a record stored. */
  lemma StoredIgnoresLifecycle(s: Submission, status: Status, author: nat, analysis: Option<StoredAnalysis>, metrics: Metrics)
    requires Stored(s)
    ensures Stored(s.(status := status, author := author, analysis := analysis, metrics := metrics))
  {
    var t := s.(status := status, author := author, analysis := analysis, metrics := metrics);
    assert ApplySetters(t) == ApplySetters(s).(status := status, author := author, analysis := analysis, metrics := metrics);
  }

  /** A title that is all whitespace passes a truthiness test but is stored empty, so
      the save fails on the required title. */
  lemma BlankTitleRejected(s: Submission)
    requires s.title != [] && forall i :: 0 <= i < |s.title| ==> IsSpace(s.title[i])
    ensures Save(s).Failure? && TitleRequired in Save(s).error
  {
    TrimEmptyIff(s.title);
    ViolationsReportEach(ApplySetters(s));
  }
}

=== FILE: text_metrics.dfy ===
/** The text metrics of the analysis service: sentiment label, readability (Flesch
    reading ease with the vowel-group syllable heuristic), lexical complexity and the
    two grammar heuristics. */
module TextMetrics {
  import opened Strings
  import opened Numeric
  import opened Nlp
  import opened Collections
  import Similarity

  // ---------------------------------------------------------------------------
  // Sentiment

  datatype Label = Positive | Negative | Neutral

  datatype Sentiment = Sentiment(score: int, magnitude: nat, polarity: Label, comparative: real)

  /** analyzeSentiment: the lexicon's score and comparative passed through, with its
      absolute value and its sign as a label. */
  function AnalyzeSentiment(tk: Toolkit, text: string): (r: Sentiment)
    ensures r.score == tk.sentimentScore(text) && r.comparative == tk.comparative(text)
    ensures r.magnitude == r.score || r.magnitude == -r.score
    ensures r.polarity == Positive <==> r.score > 0
    ensures r.polarity == Negative <==> r.score < 0
    ensures r.polarity == Neutral <==> r.magnitude == 0
  {
    var score := tk.sentimentScore(text);
    var polarity := if score > 0 then Positive else if score < 0 then Negative else Neutral;
    Sentiment(score, if score < 0 then -score else score, polarity, tk.comparative(text))
  }

  // ---------------------------------------------------------------------------
  // Sentences

  /** The sentence terminators of the pattern `[.!?]+`. */
  predicate IsTerminal(c: char) {
    c == '.' || c == '!' || c == '?'
  }

  /** The test of `filter(s => s.trim().length > 0)`. */
  predicate Substantial(piece: string) {
    Trim(piece) != []
  }

  /** The sentences of `text`: the pieces between runs of terminators that are not
      blank, all of them and in order. There is one exactly when the text has a
      character that is neither whitespace nor a terminator. */
  function Sentences(text: string): (r: seq<string>)
    ensures |r| == Count(Substantial, SplitRuns(text, IsTerminal))
    ensures forall k :: 0 <= k < |SplitRuns(text, IsTerminal)| ==> KeptAt(Substantial, SplitRuns(text, IsTerminal), r, k)
    ensures forall x :: x in r <==> x in SplitRuns(text, IsTerminal) && Trim(x) != []
    ensures forall i :: 0 <= i < |r| ==> Trim(r[i]) != []
    ensures forall i, k :: 0 <= i < |r| && 0 <= k < |r[i]| ==> !IsTerminal(r[i][k])
    ensures r != [] <==> HasNonSpaceOutside(text, IsTerminal)
  {
    var pieces := SplitRuns(text, IsTerminal);
    var r := Filter(Substantial, pieces);
    SentenceShape(text, pieces, r);
    r
  }

  /** The kept pieces are non-blank and free of terminators, and some piece is kept
      exactly when the text has a character that is neither. */
  lemma SentenceShape(text: string, pieces: seq<string>, r: seq<string>)
    requires pieces == SplitRuns(text, IsTerminal)
    requires |r| == Count(Substantial, pieces)
    requires forall x :: x in r <==> x in pieces && Substantial(x)
    ensures forall i :: 0 <= i < |r| ==> Trim(r[i]) != []
    ensures forall i, k :: 0 <= i < |r| && 0 <= k < |r[i]| ==> !IsTerminal(r[i][k])
    ensures r != [] <==> HasNonSpaceOutside(text, IsTerminal)
  {
    forall i | 0 <= i < |r|
      ensures Trim(r[i]) != [] && forall k :: 0 <= k < |r[i]| ==> !IsTerminal(r[i][k])
    {
      assert r[i] in r;
      SentencePiece(text, pieces, r[i]);
    }
    SentencesExist(pieces, r);
    SplitRunsHasNonSpace(text, IsTerminal);
  }

  /** A substantial piece is non-blank and holds no terminator. */
  lemma SentencePiece(text: string, pieces: seq<string>, x: string)
    requires pieces == SplitRuns(text, IsTerminal)
    requires x in pieces && Substantial(x)
    ensures Trim(x) != [] && forall k :: 0 <= k < |x| ==> !IsTerminal(x[k])
  {
    var j :| 0 <= j < |pieces| && pieces[j] == x;
  }

  /** Some piece is kept exactly when some piece has a non-space character. */
  lemma SentencesExist(pieces: seq<string>, r: seq<string>)
    requires forall x :: x in r <==> x in pieces && Substantial(x)
    ensures r != [] <==> exists j :: 0 <= j < |pieces| && HasNonSpace(pieces[j])
  {
    if r != [] {
      var x := r[0];
      assert x in r;
      var j :| 0 <= j < |pieces| && pieces[j] == x;
      TrimNonEmptyIff(x);
    }
    if exists j :: 0 <= j < |pieces| && HasNonSpace(pieces[j]) {
      var j :| 0 <= j < |pieces| && HasNonSpace(pieces[j]);
      TrimNonEmptyIff(pieces[j]);
      assert pieces[j] in r;
    }
  }

  // ---------------------------------------------------------------------------
  // Syllables

  predicate IsVowel(c: char) {
    c == 'a' || c == 'e' || c == 'i' || c == 'o' || c == 'u' || c == 'y'
  }

  /** How many vowel runs of `w` start before index `n`. */
  function GroupStarts(w: string, n: nat): (r: nat)
    requires n <= |w|
    ensures r <= n
  {
    if n == 0 then 0
    else GroupStarts(w, n - 1) + (if IsVowel(w[n - 1]) && (n == 1 || !IsVowel(w[n - 2])) then 1 else 0)
  }

  /** A prefix ending in a vowel holds the start of a vowel run. */
  lemma {:induction false} VowelEndHasGroup(w: string, n: nat)
    requires 0 < n <= |w| && IsVowel(w[n - 1])
    ensures GroupStarts(w, n) >= 1
  {
    if n > 1 && IsVowel(w[n - 2]) {
      VowelEndHasGroup(w, n - 1);
    }
  }

  /** The syllables of one non-empty lower-case word: its vowel runs, one fewer when it
      ends in "e", and at least one. */
  function WordSyllables(w: string): (r: nat)
    requires w != []
    ensures 1 <= r <= |w|
  {
    var groups := GroupStarts(w, |w|);
    if EndsWith(w, "e") then
      assert w[|w| - 1] == "e"[0];
      VowelEndHasGroup(w, |w|);
      if groups - 1 == 0 then 1 else groups - 1
    else if groups == 0 then 1 else groups
  }

  /** The loop of countSyllables for one word, counting transitions into a vowel. */
  method CountWordSyllables(w: string) returns (count: int)
    requires w != []
    ensures count == WordSyllables(w)
  {
    count := 0;
    var previousWasVowel := false;
    var i := 0;
    while i < |w|
      invariant 0 <= i <= |w|
      invariant count == GroupStarts(w, i)
      invariant previousWasVowel == (i > 0 && IsVowel(w[i - 1]))
    {
      var isVowel := IsVowel(w[i]);
      if isVowel && !previousWasVowel {
        count := count + 1;
      }
      previousWasVowel := isVowel;
      i := i + 1;
    }
    if EndsWith(w, "e") {
      count := count - 1;
    }
    if count == 0 {
      count := 1;
    }
  }

  /** Syllables over the pieces of a split, skipping empty ones. */
  function SumSyllables(words: seq<string>): (r: nat)
    ensures Count(Filled, words) <= r <= |Concat(words)|
  {
    if words == [] then 0
    else (if words[0] == [] then 0 else WordSyllables(words[0])) + SumSyllables(words[1..])
  }

  /** The syllables of two lists of pieces add up. */
  lemma {:induction false} SumSyllablesAppend(a: seq<string>, b: seq<string>)
    ensures SumSyllables(a + b) == SumSyllables(a) + SumSyllables(b)
  {
    if a == [] {
      assert a + b == b;
    } else {
      SumSyllablesAppend(a[1..], b);
      assert (a + b)[0] == a[0] && (a + b)[1..] == a[1..] + b;
    }
  }

  /** A single word contributes its own syllables. */
  lemma SumSyllablesSingle(w: string)
    requires w != []
    ensures SumSyllables([w]) == WordSyllables(w)
  {
    assert [w][1..] == [];
  }

  /** Empty pieces contribute nothing: the sum over the pieces is the sum over the
      words among them. */
  lemma {:induction false} SumSyllablesFilled(pieces: seq<string>)
    ensures SumSyllables(Filter(Filled, pieces)) == SumSyllables(pieces)
  {
    if pieces != [] {
      var w := pieces[0];
      SumSyllablesFilled(pieces[1..]);
      var rest := Filter(Filled, pieces[1..]);
      if w == [] {
        assert Filter(Filled, pieces) == rest;
      } else {
        assert Filter(Filled, pieces) == [w] + rest;
        SumSyllablesAppend([w], rest);
        SumSyllablesSingle(w);
      }
    }
  }

  /** countSyllables: lower-case, split at whitespace runs, add up the words. The total
      is the sum of the syllables of the lower-cased words; each word has at least one
      syllable and no more than it has characters. */
  function CountSyllables(text: string): (r: nat)
    ensures r == SumSyllables(Words(Lower(text)))
    ensures |Words(Lower(text))| <= r <= |text|
  {
    var pieces := SplitRuns(Lower(text), IsSpace);
    ConcatSplitRuns(Lower(text), IsSpace);
    SumSyllablesFilled(pieces);
    SumSyllables(pieces)
  }

  // ---------------------------------------------------------------------------
  // Readability

  datatype ReadingLevel = VeryEasy | Easy | FairlyEasy | Standard | FairlyDifficult | Difficult | VeryDifficult

  /** The scale from easiest (0) to hardest (6). */
  function Hardness(l: ReadingLevel): (r: nat)
    ensures r <= 6
  {
    match l
    case VeryEasy => 0
    case Easy => 1
    case FairlyEasy => 2
    case Standard => 3
    case FairlyDifficult => 4
    case Difficult => 5
    case VeryDifficult => 6
  }

  /** The score band each level stands for: at least `Floor`, below `Ceiling` (the
      easiest and hardest levels are open-ended). */
  function BandFloor(l: ReadingLevel): real {
    match l
    case VeryEasy => 90.0
    case Easy => 80.0
    case FairlyEasy => 70.0
    case Standard => 60.0
    case FairlyDifficult => 50.0
    case Difficult => 30.0
    case VeryDifficult => 0.0
  }

  predicate InBand(f: real, l: ReadingLevel) {
    (l == VeryDifficult || BandFloor(l) <= f) &&
    (l == VeryEasy || f < BandFloor(match l
      case VeryEasy => VeryEasy
      case Easy => VeryEasy
      case FairlyEasy => Easy
      case Standard => FairlyEasy
      case FairlyDifficult => Standard
      case Difficult => FairlyDifficult
      case VeryDifficult => Difficult))
  }

  /** The threshold chain of analyzeReadability: it picks the band holding `f`. */
  function LevelOf(f: real): (r: ReadingLevel)
    ensures InBand(f, r)
  {
    if f >= 90.0 then VeryEasy
    else if f >= 80.0 then Easy
    else if f >= 70.0 then FairlyEasy
    else if f >= 60.0 then Standard
    else if f >= 50.0 then FairlyDifficult
    else if f >= 30.0 then Difficult
    else VeryDifficult
  }

  /** A score in a level's band is given that level: the bands do not overlap. */
  lemma BandsAreExact(f: real, l: ReadingLevel)
    requires InBand(f, l)
    ensures LevelOf(f) == l
  {
  }

  /** A higher score never gives a harder level. */
  lemma LevelMonotone(f: real, g: real)
    requires f <= g
    ensures Hardness(LevelOf(g)) <= Hardness(LevelOf(f))
  {
  }

  /** The level follows the unrounded score: 89.5 is reported as score 90 yet level
      Easy, not Very Easy. */
  lemma LevelUsesUnroundedScore(f: real)
    requires f == 89.5
    ensures Round(f) == 90 && LevelOf(f) == Easy
  {
    assert f + 0.5 == 90.0;
    RoundOfInt(90);
  }

  /** Flesch reading ease. */
  function Flesch(words: nat, sentences: nat, syllables: nat): real
    requires words > 0 && sentences > 0
  {
    206.835 - 1.015 * (words as real / sentences as real) - 84.6 * (syllables as real / words as real)
  }

  datatype Readability = Readability(score: int, level: ReadingLevel, avgWordsPerSentence: real, avgSyllablesPerWord: real)

  /** `r` describes the given counts: its level is the band of the unrounded Flesch
      score, its score is that score rounded, and its averages are kept to two
      decimals. */
  predicate DescribesCounts(r: Readability, words: nat, sentences: nat, syllables: nat)
    requires words > 0 && sentences > 0
  {
    var f := Flesch(words, sentences, syllables);
    InBand(f, r.level) &&
    r.score as real - 0.5 <= f < r.score as real + 0.5 &&
    100.0 * r.avgWordsPerSentence == Round((words as real / sentences as real) * 100.0) as real &&
    100.0 * r.avgSyllablesPerWord == Round((syllables as real / words as real) * 100.0) as real
  }

  /** The result for the given counts. */
  function ReadabilityFor(words: nat, sentences: nat, syllables: nat): (r: Readability)
    requires words > 0 && sentences > 0
    ensures DescribesCounts(r, words, sentences, syllables)
  {
    var f := Flesch(words, sentences, syllables);
    Readability(Round(f), LevelOf(f), Round2(words as real / sentences as real), Round2(syllables as real / words as real))
  }

  /** analyzeReadability on the tokenizer's words, the sentences and the syllable
      count. The source divides by the word and sentence counts without a guard, so
      both must be non-zero. */
  function AnalyzeReadability(tk: Toolkit, text: string): (r: Readability)
    requires |tk.tokenize(text)| > 0 && Sentences(text) != []
    ensures DescribesCounts(r, |tk.tokenize(text)|, |Sentences(text)|, CountSyllables(text))
  {
    ReadabilityFor(|tk.tokenize(text)|, |Sentences(text)|, CountSyllables(text))
  }

  // ---------------------------------------------------------------------------
  // Lexical complexity

  datatype ComplexityLevel = Low | Medium | High

  datatype Complexity = Complexity(score: int, level: ComplexityLevel, lexicalDiversity: real, avgWordLength: real, avgWordsPerSentence: real)

  /** Total characters of the words. */
  function TotalLength(words: seq<string>): (r: nat)
    ensures words != [] && (forall i :: 0 <= i < |words| ==> words[i] != []) ==> r >= |words|
  {
    if words == [] then 0 else |words[0]| + TotalLength(words[1..])
  }

  /** Distinct words over words. */
  function Diversity(words: seq<string>): (r: real)
    requires words != []
    ensures 0.0 < r <= 1.0
  {
    Similarity.ElemsCard(words);
    assert words[0] in Similarity.Elems(words);
    RatioUnit(|Similarity.Elems(words)|, |words|);
    |Similarity.Elems(words)| as real / |words| as real
  }

  /** Mean characters per word. */
  function MeanLength(words: seq<string>): (r: real)
    requires words != []
  {
    TotalLength(words) as real / |words| as real
  }

  /** The complexity score: the diversity as a rounded percentage. High diversity
      (above 0.7) scores at least 70, medium (above 0.5) at least 50. */
  function DiversityScore(d: real): (r: int)
    requires 0.0 < d <= 1.0
    ensures r == Round(d * 100.0)
    ensures 0 <= r <= 100
    ensures d > 0.7 ==> r >= 70
    ensures d > 0.5 ==> r >= 50
  {
    RoundWithin(d * 100.0, 0, 100);
    assert d > 0.5 ==> Round(d * 100.0) >= 50 by {
      if d > 0.5 { RoundWithin(d * 100.0, 50, 100); }
    }
    assert d > 0.7 ==> Round(d * 100.0) >= 70 by {
      if d > 0.7 { RoundWithin(d * 100.0, 70, 100); }
    }
    Round(d * 100.0)
  }

  /** `r` holds the complexity figures of the tokens of a text with `sentences`
      sentences: the score is the diversity as a rounded percentage, the three
      figures are rounded to two decimals, and the level is High for diversity above
      0.7 with mean word length above 5, Medium, failing that, for above 0.5 and 4,
      and Low otherwise. */
  predicate Describes(r: Complexity, words: seq<string>, sentences: nat)
    requires words != [] && sentences > 0
  {
    (r.level == High <==> Diversity(words) > 0.7 && MeanLength(words) > 5.0) &&
    (r.level == Medium <==> !(Diversity(words) > 0.7 && MeanLength(words) > 5.0) && Diversity(words) > 0.5 && MeanLength(words) > 4.0) &&
    r.score == Round(Diversity(words) * 100.0) &&
    r.lexicalDiversity == Round2(Diversity(words)) &&
    r.avgWordLength == Round2(MeanLength(words)) &&
    r.avgWordsPerSentence == Round2(|words| as real / sentences as real)
  }

  /** The complexity figures of `words`, from a text of `sentences` sentences. */
  function ComplexityOf(words: seq<string>, sentences: nat): (r: Complexity)
    requires words != [] && sentences > 0
    ensures Describes(r, words, sentences)
    ensures 0 <= r.score <= 100
    ensures r.level == High ==> r.score >= 70
    ensures r.level == Medium ==> r.score >= 50
    ensures 0.0 <= r.lexicalDiversity <= 1.0
  {
    var d := Diversity(words);
    var avg := MeanLength(words);
    var level := if d > 0.7 && avg > 5.0 then High else if d > 0.5 && avg > 4.0 then Medium else Low;
    Round2Unit(d);
    Complexity(DiversityScore(d), level, Round2(d), Round2(avg), Round2(|words| as real / sentences as real))
  }

  /** analyzeComplexity on the lower-cased tokens. The source divides by the token and
      sentence counts without a guard, so both must be non-zero. */
  function AnalyzeComplexity(tk: Toolkit, text: string): (r: Complexity)
    requires |tk.tokenize(Lower(text))| > 0 && Sentences(text) != []
    ensures Describes(r, tk.tokenize(Lower(text)), |Sentences(text)|)
    ensures 0 <= r.score <= 100
    ensures r.level == High ==> r.score >= 70
    ensures r.level == Medium ==> r.score >= 50
    ensures 0.0 <= r.lexicalDiversity <= 1.0
  {
    ComplexityOf(tk.tokenize(Lower(text)), |Sentences(text)|)
  }

  // ---------------------------------------------------------------------------
  // Grammar

  /** The two heuristics, by 1-based sentence number. */
  datatype GrammarIssue = NotCapitalised(sentence: nat) | DoubleSpace(sentence: nat)

  datatype Grammar = Grammar(issues: seq<GrammarIssue>, suggestions: seq<string>, score: int)

  /** The trimmed sentence starts with a letter that upper-casing changes. */
  predicate StartsLower(sentence: string) {
    Trim(sentence) != [] && IsAsciiLower(Trim(sentence)[0])
  }

  /** The trimmed sentence holds two consecutive spaces. */
  predicate HasDoubleSpace(sentence: string) {
    Contains(Trim(sentence), "  ")
  }

  /** Issues of sentence number `k`. */
  function SentenceIssues(k: nat, sentence: string): (r: seq<GrammarIssue>)
    ensures |r| <= 2
    ensures forall i :: 0 <= i < |r| ==> r[i].sentence == k
    ensures NotCapitalised(k) in r <==> StartsLower(sentence)
    ensures DoubleSpace(k) in r <==> HasDoubleSpace(sentence)
  {
    var t := Trim(sentence);
    (if |t| > 0 && IsAsciiLower(t[0]) then [NotCapitalised(k)] else []) +
    (if Contains(t, "  ") then [DoubleSpace(k)] else [])
  }

  /** `r` holds a capitalisation issue for sentence `k + j` exactly when `ss[j]` starts
      lower-case, and a double-space issue exactly when it has a double space. */
  predicate Listed(r: seq<GrammarIssue>, k: nat, ss: seq<string>, j: nat)
    requires j < |ss|
  {
    (NotCapitalised(k + j) in r <==> StartsLower(ss[j])) &&
    (DoubleSpace(k + j) in r <==> HasDoubleSpace(ss[j]))
  }

  /** The issue list holds exactly the issues of sentences `k` to `k + |ss| - 1`. */
  predicate ListsIssues(k: nat, ss: seq<string>, r: seq<GrammarIssue>) {
    (forall i :: 0 <= i < |r| ==> k <= r[i].sentence < k + |ss|) &&
    (forall i, j :: 0 <= i < j < |r| ==> r[i].sentence <= r[j].sentence) &&
    (forall j: nat :: j < |ss| ==> Listed(r, k, ss, j))
  }

  /** Within one sentence, the capitalisation issue comes before the double space,
      and neither is listed twice. */
  predicate SentenceOrdered(r: seq<GrammarIssue>) {
    forall i, j :: 0 <= i < j < |r| && r[i].sentence == r[j].sentence ==>
      r[i].NotCapitalised? && r[j].DoubleSpace?
  }

  /** Issues of the sentences numbered from `k` on, in order: one per sentence that
      starts lower-case, one per sentence with a double space. */
  function IssuesFrom(k: nat, ss: seq<string>): (r: seq<GrammarIssue>)
    decreases |ss|
    ensures |r| <= 2 * |ss|
    ensures |r| == Count(StartsLower, ss) + Count(HasDoubleSpace, ss)
    ensures ListsIssues(k, ss, r)
    ensures SentenceOrdered(r)
  {
    if ss == [] then []
    else
      var head := SentenceIssues(k, ss[0]);
      var rest := IssuesFrom(k + 1, ss[1..]);
      IssuesStep(k, ss, head, rest);
      IssuesOrdered(k, |ss|, head, rest);
      head + rest
  }

  /** Joining the issues of sentence `k` with later sentences' ordered issues keeps
      each sentence's issues in order. */
  lemma IssuesOrdered(k: nat, n: nat, head: seq<GrammarIssue>, rest: seq<GrammarIssue>)
    requires |head| <= 2
    requires forall i :: 0 <= i < |head| ==> head[i].sentence == k
    requires |head| == 2 ==> head[0].NotCapitalised? && head[1].DoubleSpace?
    requires forall i :: 0 <= i < |rest| ==> rest[i].sentence > k
    requires SentenceOrdered(rest)
    ensures SentenceOrdered(head + rest)
  {
    var r := head + rest;
    forall i, j | 0 <= i < j < |r| && r[i].sentence == r[j].sentence
      ensures r[i].NotCapitalised? && r[j].DoubleSpace?
    {
      if i >= |head| {
        assert r[i] == rest[i - |head|] && r[j] == rest[j - |head|];
      } else if j < |head| {
        assert r[i] == head[i] && r[j] == head[j];
      }
    }
  }

  lemma IssuesStep(k: nat, ss: seq<string>, head: seq<GrammarIssue>, rest: seq<GrammarIssue>)
    requires ss != [] && head == SentenceIssues(k, ss[0])
    requires ListsIssues(k + 1, ss[1..], rest)
    ensures ListsIssues(k, ss, head + rest)
  {
    IssuesStepMembers(k, ss, head, rest);
    IssuesJoin(k, |ss|, head, rest);
  }

  /** Each sentence's issues are found in the joined list. */
  lemma IssuesStepMembers(k: nat, ss: seq<string>, head: seq<GrammarIssue>, rest: seq<GrammarIssue>)
    requires ss != [] && head == SentenceIssues(k, ss[0])
    requires ListsIssues(k + 1, ss[1..], rest)
    ensures forall j: nat :: j < |ss| ==> Listed(head + rest, k, ss, j)
  {
    forall j: nat | j < |ss|
      ensures Listed(head + rest, k, ss, j)
    {
      if j > 0 { IssuesOfLater(k, ss, head, rest, j); } else { IssuesOfFirst(k, ss, head, rest); }
    }
  }

  /** The first sentence's issues are all in the head. */
  lemma IssuesOfFirst(k: nat, ss: seq<string>, head: seq<GrammarIssue>, rest: seq<GrammarIssue>)
    requires ss != [] && head == SentenceIssues(k, ss[0])
    requires forall i :: 0 <= i < |rest| ==> k + 1 <= rest[i].sentence
    ensures Listed(head + rest, k, ss, 0)
  {
    assert NotCapitalised(k) !in rest && DoubleSpace(k) !in rest;
  }

  /** A later sentence's issues are all in the rest. */
  lemma IssuesOfLater(k: nat, ss: seq<string>, head: seq<GrammarIssue>, rest: seq<GrammarIssue>, j: nat)
    requires 0 < j < |ss| && head == SentenceIssues(k, ss[0])
    requires ListsIssues(k + 1, ss[1..], rest)
    ensures Listed(head + rest, k, ss, j)
  {
    assert Listed(rest, k + 1, ss[1..], j - 1);
    assert ss[j] == ss[1..][j - 1] && k + j == (k + 1) + (j - 1);
    assert NotCapitalised(k + j) !in head && DoubleSpace(k + j) !in head;
  }

  /** A head of issues of sentence `k` followed by ordered issues of the sentences
      after it is ordered and within range. */
  lemma IssuesJoin(k: nat, n: nat, head: seq<GrammarIssue>, rest: seq<GrammarIssue>)
    requires n > 0
    requires forall i :: 0 <= i < |head| ==> head[i].sentence == k
    requires forall i :: 0 <= i < |rest| ==> k + 1 <= rest[i].sentence < k + n
    requires forall i, j :: 0 <= i < j < |rest| ==> rest[i].sentence <= rest[j].sentence
    ensures forall i :: 0 <= i < |head + rest| ==> k <= (head + rest)[i].sentence < k + n
    ensures forall i, j :: 0 <= i < j < |head + rest| ==> (head + rest)[i].sentence <= (head + rest)[j].sentence
  {
    var r := head + rest;
    forall i | 0 <= i < |r|
      ensures k <= r[i].sentence < k + n
    {
      if i >= |head| { assert r[i] == rest[i - |head|]; } else { assert r[i] == head[i]; }
    }
    forall i, j | 0 <= i < j < |r|
      ensures r[i].sentence <= r[j].sentence
    {
      if j >= |head| {
        assert r[j] == rest[j - |head|];
        if i >= |head| { assert r[i] == rest[i - |head|]; } else { assert r[i] == head[i]; }
      } else {
        assert r[i] == head[i] && r[j] == head[j];
      }
    }
  }

  /** The grammar result for the given sentences. */
  function GrammarOf(ss: seq<string>): (r: Grammar)
    ensures |r.issues| <= 2 * |ss|
    ensures ListsIssues(1, ss, r.issues)
    ensures r.suggestions == []
    ensures |r.issues| == Count(StartsLower, ss) + Count(HasDoubleSpace, ss)
    ensures SentenceOrdered(r.issues)
    ensures r.score == (if |r.issues| < 10 then 100 - 10 * |r.issues| else 0)
    ensures 0 <= r.score <= 100
    ensures r.score == 0 <==> |r.issues| >= 10
    ensures r.score == 100 <==> r.issues == []
  {
    var issues := IssuesFrom(1, ss);
    Grammar(issues, [], Max(0, 100 - |issues| * 10))
  }

  /** analyzeGrammar: every sentence not starting with a capital and every sentence with
      a double space is an issue, in sentence order; ten points off per issue; never
      any suggestion. */
  function AnalyzeGrammar(text: string): (r: Grammar)
    ensures ListsIssues(1, Sentences(text), r.issues)
    ensures |r.issues| <= 2 * |Sentences(text)|
    ensures |r.issues| == Count(StartsLower, Sentences(text)) + Count(HasDoubleSpace, Sentences(text))
    ensures SentenceOrdered(r.issues)
    ensures r.score == (if |r.issues| < 10 then 100 - 10 * |r.issues| else 0)
    ensures r.suggestions == []
    ensures 0 <= r.score <= 100
    ensures r.score == 100 <==> r.issues == []
    ensures r.score == 0 <==> |r.issues| >= 10
    ensures !HasNonSpaceOutside(text, IsTerminal) ==> r.issues == [] && r.score == 100
  {
    var ss := Sentences(text);
    var g := GrammarOf(ss);
    assert !HasNonSpaceOutside(text, IsTerminal) ==> g.issues == [] by {
      if !HasNonSpaceOutside(text, IsTerminal) { assert ss == []; }
    }
    g
  }
}

=== FILE: wrappers.dfy ===
/** Failure-compatible result types shared by every module of the model. */
module Wrappers {

  /** A value that may be absent: JavaScript's `undefined` for a missing field. */
  datatype Option<+T> = None | Some(value: T) {

    /** The value, or `default` when absent. */
    function GetOr(default: T): T {
      match this
      case Some(v) => v
      case None => default
    }
  }

  /** The outcome of an operation that can be refused. */
  datatype Result<+R, +E> = Success(value: R) | Failure(error: E)
}
